=== FILE: README.md ===
# Wikipedia dump parser — a verified model

This project is a Dafny model of the core of `wikipedia-dump-parser`, a Kotlin
library that reads Wikipedia database dumps by line-oriented text scanning,
with proofs about that model. It covers five pieces:

- **Page extractor** (`WikiPagesIterator`, module `Pages`). It pulls
  `(id, title, text)` out of the XML lines of one decompressed multistream
  block. It skips to the line ending with `<page>`, `</ns>` or `</format>`,
  reads one-line tags, and reads single-line or multi-line `<text>` content.
  It stops after 100 pages per stream, or at the first failed parse after the
  first page.
- **Index reader** (`IndexesIterator` and its line lookahead
  `BufferedCloseableStringsIterator`, modules `Indexes` and `LineSource`).
  Each line of the multistream index is `offset:id:title`. The title is every
  field after the second, joined again with `:`.
- **Whole-dump iterator** (`IndexedDumpIterator`, and the identical
  `WholeDumpPagesIterator`; module `Facade`). It scans the index for the next
  offset that differs from the current one and chains the page extractors of
  the blocks it opens. `UnpackedDumpIterator` skips an unpacked dump's header
  up to `</siteinfo>` and delegates to the extractor.
- **Index-driven lookups** (`findPagesByIndexCondition`,
  `findNonRedirectingPagesByIndexCondition`, `getPageByIndex`; module `Tasks`).
  These filter index entries, group them by block offset, and open one block
  per group. The redirect query makes a second pass keyed on the titles of
  the first pass's redirect targets.
- **SQL INSERT iterators** (`CategoriesIterator`, `CategoryLinksIterator`;
  modules `SqlBatches`, `Categories` and `CategoryLinks`). They find the next
  `INSERT INTO ... VALUES (` line and split its body on `),(`. They parse each
  tuple by substring offsets and serve the results from a queue that is
  refilled once per batch.

The rest of the project supports these pieces:

- `Results` holds `Option`, `Result`, `Parsed` (a value and the unconsumed
  lines) and `Step` (an iterator's item and its next state).
- `KString` gives the exact semantics of the Kotlin string functions the
  source relies on:
  - `substringAfter`, `substringBefore` and `substringBeforeLast` return the
    whole string when the delimiter is missing;
  - `substring(n)` fails past the end;
  - `split` keeps empty fields;
  - `trim` strips Kotlin's whitespace set.
- `Numbers` models `toLong` and `toInt`: an optional sign, ASCII digits, and
  range checks at 64 and 32 bits.
- `PageRender` is not part of the source. It writes pages in the dump's XML
  layout, so that the extractor can be proved to read them back.

**Files and the archive.** Each file is a `seq<string>` of lines. A
multistream archive is a `map<int, seq<string>>` from byte offset to the lines
of the block that starts there. An offset missing from the map stands for a
failed skip or a failed decompression. Iterators are immutable state records,
and each has a `Next` that returns the item together with the next state.
The source fails in several ways: a `!!` on null, an index out of range, a
failed number parse, or `next()` on an exhausted reader. Each becomes a
`Fail` with an `Error` value. Operations carry no preconditions beyond the
invariants of their own state records, except that `KString.Split` needs a
non-empty delimiter, which every call passes.

## Model

| member | source | states |
|---|---|---|
| LineSource.Open | src/main/kotlin/io/github/vivanov93/wikipedia/dumps/parser/Indexes.kt:97 | construction reads one line ahead; the pending line followed by the unread ones are exactly the file's lines |
| LineSource.HasNextIffRemaining | src/main/kotlin/io/github/vivanov93/wikipedia/dumps/parser/Indexes.kt:99 | `hasNext` holds iff some line of the file has not yet been returned |
| LineSource.Next | src/main/kotlin/io/github/vivanov93/wikipedia/dumps/parser/Indexes.kt:101 | `next` succeeds iff a line is pending; it returns the first remaining line, and the remaining lines lose exactly that line |
| LineSource.DrainIsRemaining | src/main/kotlin/io/github/vivanov93/wikipedia/dumps/parser/Indexes.kt:97-101 | calling `next` while `hasNext` holds yields exactly the remaining lines, in order |
| LineSource.DrainOpen | src/main/kotlin/io/github/vivanov93/wikipedia/dumps/parser/StreamUtils.kt:45-63 | the line iterator over a file yields every line of the file, in order |
| Numbers.ParseLong | src/main/kotlin/io/github/vivanov93/wikipedia/dumps/parser/Indexes.kt:68-69 | `toLong` succeeds iff the text is an optional `-` or `+` followed by a non-empty run of ASCII digits whose signed value lies in the 64-bit range, and then gives that value |
| Numbers.ParseInteger | src/main/kotlin/io/github/vivanov93/wikipedia/dumps/parser/sql/Categories.kt:84 | a number is accepted iff it is an optional `-` or `+` followed by a non-empty run of digits whose signed value lies in the range; the value is the digits' value, negated after a `-` |
| Numbers.ParseShowLong | src/main/kotlin/io/github/vivanov93/wikipedia/dumps/parser/xml/Indexes.kt:69-70 | `toLong` reads back every 64-bit value from its decimal form |
| Numbers.ParseShowIntRange | src/main/kotlin/io/github/vivanov93/wikipedia/dumps/parser/sql/CategoryLinks.kt:82 | `toInt` reads back every 32-bit value from its decimal form |
| KString.IndexOfIsFirst | src/main/kotlin/io/github/vivanov93/wikipedia/dumps/parser/sql/CategoryLinks.kt:75 | the delimiter search finds the first occurrence, and finds none iff the delimiter does not occur |
| KString.LastIndexOfIsLast | src/main/kotlin/io/github/vivanov93/wikipedia/dumps/parser/sql/Categories.kt:79 | the backward search finds the last occurrence, and finds none iff the delimiter does not occur |
| KString.SubstringAfter | src/main/kotlin/io/github/vivanov93/wikipedia/dumps/parser/Pages.kt:174 | `substringAfter` is the whole string when the delimiter is missing, and otherwise the text after the first occurrence |
| KString.SubstringBefore | src/main/kotlin/io/github/vivanov93/wikipedia/dumps/parser/sql/Categories.kt:80 | `substringBefore` is the whole string when the delimiter is missing, and otherwise the text before its first occurrence |
| KString.SubstringBeforeLast | src/main/kotlin/io/github/vivanov93/wikipedia/dumps/parser/Pages.kt:184 | `substringBeforeLast` is the whole string when the delimiter is missing, and otherwise the text before its last occurrence |
| KString.Substring | src/main/kotlin/io/github/vivanov93/wikipedia/dumps/parser/sql/Categories.kt:81 | `substring(n)` fails iff `n` exceeds the length, and otherwise returns the text after the first `n` characters |
| KString.TrimShape | src/main/kotlin/io/github/vivanov93/wikipedia/dumps/parser/Pages.kt:207 | `trim` returns a contiguous slice of the line with only whitespace removed on either side and no whitespace at its ends |
| KString.Split | src/main/kotlin/io/github/vivanov93/wikipedia/dumps/parser/Indexes.kt:67 | `split` returns at least one field, and joining the fields with the delimiter gives back the string |
| KString.SplitFieldsFree | src/main/kotlin/io/github/vivanov93/wikipedia/dumps/parser/sql/CategoryLinks.kt:88 | no field of a split contains the delimiter |
| KString.SplitJoin | src/main/kotlin/io/github/vivanov93/wikipedia/dumps/parser/xml/Indexes.kt:68-71 | splitting a join of delimiter-free fields gives back the fields |
| Indexes.ParseIndexLineFields | src/main/kotlin/io/github/vivanov93/wikipedia/dumps/parser/Indexes.kt:65-75 | a line parses iff it has a second `:` field and both the text before the first `:` and the text between the first two parse as Long; the entry is those two numbers and the text after the second `:` |
| Indexes.SplitByColonFields | src/main/kotlin/io/github/vivanov93/wikipedia/dumps/parser/xml/Indexes.kt:71 | rejoining fields 2 onward with `:` gives exactly the text after the second colon, colons included; a line without `:` splits into itself |
| Indexes.ParseRenderedIndexLine | src/main/kotlin/io/github/vivanov93/wikipedia/dumps/parser/Indexes.kt:60-71 | every entry with 64-bit offset and id reads back from the line `offset:id:title`, whatever colons the title holds |
| Indexes.TwoFieldLine | src/main/kotlin/io/github/vivanov93/wikipedia/dumps/parser/Indexes.kt:67-70 | a line with exactly two numeric fields gives an empty title |
| Indexes.OneFieldLineFails | src/main/kotlin/io/github/vivanov93/wikipedia/dumps/parser/xml/Indexes.kt:66-76 | a line without `:` fails |
| Indexes.ParseAll | src/main/kotlin/io/github/vivanov93/wikipedia/dumps/parser/xml/Indexes.kt:66-72 | a file that parses gives one entry per line |
| Indexes.ParseAllLine | src/main/kotlin/io/github/vivanov93/wikipedia/dumps/parser/Indexes.kt:65-72 | the k-th entry is the parse of the k-th line (file order) |
| Indexes.ParseAllFails | src/main/kotlin/io/github/vivanov93/wikipedia/dumps/parser/Indexes.kt:68-69 | reading the file fails iff some line fails to parse |
| Indexes.ReadIndexInternal | src/main/kotlin/io/github/vivanov93/wikipedia/dumps/parser/xml/Indexes.kt:66-76 | the read-ahead fails iff a line is pending and it does not parse; on success the pending entry and the remaining reader account for every remaining line |
| Indexes.Open | src/main/kotlin/io/github/vivanov93/wikipedia/dumps/parser/Indexes.kt:49 | construction parses the first line, and fails iff that line does not parse; an empty file gives an empty iterator |
| Indexes.HasNextIffSize | src/main/kotlin/io/github/vivanov93/wikipedia/dumps/parser/Indexes.kt:51 | `hasNext` holds iff an entry is still to come |
| Indexes.Next | src/main/kotlin/io/github/vivanov93/wikipedia/dumps/parser/Indexes.kt:53-57 | `next` fails when no entry is pending; otherwise it returns the pending entry and consumes exactly one more line; it fails only if the rest of the file does not parse |
| Indexes.DrainIsRest | src/main/kotlin/io/github/vivanov93/wikipedia/dumps/parser/xml/Indexes.kt:50-58 | iterating to the end yields the parse of the remaining lines, and fails iff that parse does |
| Indexes.ReadWholeIndex | src/main/kotlin/io/github/vivanov93/wikipedia/dumps/parser/Indexes.kt:39-78 | iterating over an index file succeeds iff every line parses, and then yields one entry per line in file order |
| Pages.SkipToLineEndingAs | src/main/kotlin/io/github/vivanov93/wikipedia/dumps/parser/Pages.kt:206-207 | skipping consumes at least one line and leaves a suffix of the input |
| Pages.SkipStopsAtFirstMatch | src/main/kotlin/io/github/vivanov93/wikipedia/dumps/parser/Pages.kt:201-208 | skipping fails iff no trimmed line ends with the marker; otherwise it consumes exactly up to and including the first such line |
| Pages.SkipPastPrefix | src/main/kotlin/io/github/vivanov93/wikipedia/dumps/parser/Pages.kt:207 | lines that do not end with the marker are dropped without effect |
| Pages.SkipFailsAtEnd | src/main/kotlin/io/github/vivanov93/wikipedia/dumps/parser/Pages.kt:207 | skipping fails only by running out of lines |
| Pages.SkipToFirst | src/main/kotlin/io/github/vivanov93/wikipedia/dumps/parser/Pages.kt:201-208 | skipping from any line stops right after the first later line ending with the marker |
| Pages.SkipToNone | src/main/kotlin/io/github/vivanov93/wikipedia/dumps/parser/Pages.kt:201-208 | skipping from a line past which no line ends with the marker runs out of lines |
| Pages.ReadOneLineTagText | src/main/kotlin/io/github/vivanov93/wikipedia/dumps/parser/Pages.kt:173-175 | reading a one-line tag succeeds iff a line remains, and consumes exactly that line |
| Pages.OneLineTagText | src/main/kotlin/io/github/vivanov93/wikipedia/dumps/parser/Pages.kt:174 | the value is the text between the line's first `>` and its last `</`, untrimmed |
| Pages.OneLineTagTextNoDelimiters | src/main/kotlin/io/github/vivanov93/wikipedia/dumps/parser/Pages.kt:174 | a line with neither `>` nor `</` is returned whole |
| Pages.TextTailLikeSkip | src/main/kotlin/io/github/vivanov93/wikipedia/dumps/parser/Pages.kt:189-193 | the multi-line text loop consumes exactly the lines that skipping to `</text>` consumes, and fails exactly when that skip fails |
| Pages.TextTailValue | src/main/kotlin/io/github/vivanov93/wikipedia/dumps/parser/Pages.kt:188-197 | the text gathered is every middle trimmed line, concatenated, then the closing trimmed line before its last `</text>` |
| Pages.ReadTextTagText | src/main/kotlin/io/github/vivanov93/wikipedia/dumps/parser/Pages.kt:179-199 | reading text consumes at least one line and leaves a suffix of the input |
| Pages.OneLineText | src/main/kotlin/io/github/vivanov93/wikipedia/dumps/parser/Pages.kt:182-185 | a line `pre>content</text>` after leading whitespace, with no `>` in `pre`, gives exactly `content`, whatever it holds, and consumes only that line |
| Pages.TextTagTextStops | src/main/kotlin/io/github/vivanov93/wikipedia/dumps/parser/Pages.kt:187-193 | otherwise reading fails iff no later trimmed line ends with `</text>`, and stops right after the first that does |
| Pages.TextTagTextValue | src/main/kotlin/io/github/vivanov93/wikipedia/dumps/parser/Pages.kt:187-198 | the multi-line text is the first line after `>`, then each middle trimmed line, then the closing line before `</text>`, with no separator |
| Pages.SingleLineText | src/main/kotlin/io/github/vivanov93/wikipedia/dumps/parser/Pages.kt:183-184 | an indented `<text xml:space="preserve">content</text>` line gives exactly `content` |
| Pages.ReadPage | src/main/kotlin/io/github/vivanov93/wikipedia/dumps/parser/Pages.kt:150-164 | a page read consumes at least one line |
| Pages.ReadPageOf | src/main/kotlin/io/github/vivanov93/wikipedia/dumps/parser/Pages.kt:150-164 | for any lines, with `p` the first `<page>` line, `n` the first `</ns>` line after the title line and `f` the first `</format>` line after the id line: the title is the tag text of line `p+1`; a non-numeric id on line `n+1` fails; otherwise the page holds that id and the text read from line `f+1` on, or that read's failure |
| Pages.ReadPageNoPage | src/main/kotlin/io/github/vivanov93/wikipedia/dumps/parser/Pages.kt:152 | without a `<page>` line the read fails at the end of input |
| Pages.ReadPageNoNs | src/main/kotlin/io/github/vivanov93/wikipedia/dumps/parser/Pages.kt:156 | without a `</ns>` line after the title line the read fails at the end of input |
| Pages.ReadPageNoFormat | src/main/kotlin/io/github/vivanov93/wikipedia/dumps/parser/Pages.kt:157-160 | without a `</format>` line after the id line the read fails: on the id when it is not a number, otherwise at the end of input |
| Pages.ReadPagePastPrefix | src/main/kotlin/io/github/vivanov93/wikipedia/dumps/parser/Pages.kt:152 | lines before the next `<page>` line do not affect the page read |
| Pages.Open | src/main/kotlin/io/github/vivanov93/wikipedia/dumps/parser/Pages.kt:132 | construction fails iff the first page read fails (that failure is not caught); on success one page is pending and none has been returned |
| Pages.Next | src/main/kotlin/io/github/vivanov93/wikipedia/dumps/parser/Pages.kt:136-145 | `next` succeeds iff a page is pending and returns it; the counter grows by one; a following page is pending iff the next read succeeds, so any failure ends the stream |
| Pages.ParsePages | src/main/kotlin/io/github/vivanov93/wikipedia/dumps/parser/Pages.kt:168-170 | at most the cap of pages come out |
| Pages.DrainPending | src/main/kotlin/io/github/vivanov93/wikipedia/dumps/parser/Pages.kt:134-145 | iterating to the end yields the pending page and then the successive reads from the rest, within the remaining cap |
| Pages.DrainOpen | src/main/kotlin/io/github/vivanov93/wikipedia/dumps/parser/Pages.kt:127-145 | one stream yields between 1 and 100 pages: successive page reads, stopping at the cap or the first failure |
| Pages.OpenBlock | src/main/kotlin/io/github/vivanov93/wikipedia/dumps/parser/StreamUtils.kt:15-20 | opening a block succeeds iff the archive has a block at that offset, and gives its lines |
| Pages.BlockPages | src/main/kotlin/io/github/vivanov93/wikipedia/dumps/parser/Pages.kt:110 | a block's pages are available iff the block exists and its first page parses; they are the capped page reads of its lines |
| Pages.FindById | src/main/kotlin/io/github/vivanov93/wikipedia/dumps/parser/Pages.kt:25 | `find` returns the first page with the id, and nothing iff no page has it |
| Pages.GetPageByIndex | src/main/kotlin/io/github/vivanov93/wikipedia/dumps/parser/Pages.kt:24-26 | succeeds iff the block at the entry's offset opens and holds a page with the entry's id; the result is the first such page |
| PageRender.ReadRenderedPage | src/main/kotlin/io/github/vivanov93/wikipedia/dumps/parser/Pages.kt:150-164 | a page written in the dump's layout, with a 64-bit id, reads back exactly, leaving the closing lines |
| PageRender.ParseRenderedPages | src/main/kotlin/io/github/vivanov93/wikipedia/dumps/parser/Pages.kt:136-145 | the capped page reads of a rendered sequence of pages give back its first n pages |
| PageRender.BlockOfRenderedPages | src/main/kotlin/io/github/vivanov93/wikipedia/dumps/parser/Pages.kt:116-171 | the extractor over a rendered non-empty block opens and yields its first 100 pages |
| Facade.RunsAdjacentDistinct | src/main/kotlin/io/github/vivanov93/wikipedia/dumps/parser/Facade.kt:86-94 | the opened offsets never repeat back to back, and the first differs from the starting offset |
| Facade.RunsCover | src/main/kotlin/io/github/vivanov93/wikipedia/dumps/parser/Facade.kt:87-92 | every opened offset is an index offset, and every index offset is opened or equals the starting offset |
| Facade.RunsOfDistinct | src/main/kotlin/io/github/vivanov93/wikipedia/dumps/parser/Facade.kt:89-91 | offsets that already change at every entry are all opened, in order |
| Facade.WalkWithOk | src/main/kotlin/io/github/vivanov93/wikipedia/dumps/parser/Facade.kt:78 | reading a list of blocks succeeds iff every block reads |
| Facade.FindNext | src/main/kotlin/io/github/vivanov93/wikipedia/dumps/parser/Facade.kt:86-94 | a scan returns an offset different from the current one and consumes at least that entry; returning none means the index is exhausted |
| Facade.FindNextRuns | src/main/kotlin/io/github/vivanov93/wikipedia/dumps/parser/Facade.kt:87-93 | the offset found, then the runs of the rest, are exactly the consecutive deduplication of the remaining offsets |
| Facade.Required | src/main/kotlin/io/github/vivanov93/wikipedia/dumps/parser/Facade.kt:57 | `!!` succeeds iff the value is present and returns it |
| Facade.StartScans | src/main/kotlin/io/github/vivanov93/wikipedia/dumps/parser/Facade.kt:53-57 | the two construction scans give a non-zero first offset and a different second one |
| Facade.StartScansRuns | src/main/kotlin/io/github/vivanov93/wikipedia/dumps/parser/Facade.kt:53-57 | construction fails when the index does not parse or has fewer than two runs after dropping leading zeros; otherwise its two offsets are the first two runs, and the rest follow |
| Facade.Open | src/main/kotlin/io/github/vivanov93/wikipedia/dumps/parser/Facade.kt:49-62 | a constructed iterator holds a fresh extractor with a pending page, and a pending next offset |
| Facade.Refresh | src/main/kotlin/io/github/vivanov93/wikipedia/dumps/parser/Facade.kt:76-81 | a refresh succeeds iff a next offset is pending, its block opens and the rescan succeeds; it makes that offset current and makes progress |
| Facade.Next | src/main/kotlin/io/github/vivanov93/wikipedia/dumps/parser/Facade.kt:66-71 | `next` stays in the current block while it has pages, and otherwise refreshes exactly once to the pending offset; it fails when `hasNext` is false |
| Facade.RemainingAtEnd | src/main/kotlin/io/github/vivanov93/wikipedia/dumps/parser/Facade.kt:64 | when `hasNext` is false no pages remain |
| Facade.RemainingSameBlock | src/main/kotlin/io/github/vivanov93/wikipedia/dumps/parser/Facade.kt:70 | a page from the current block comes before all later pages |
| Facade.RemainingNewBlock | src/main/kotlin/io/github/vivanov93/wikipedia/dumps/parser/Facade.kt:67-70 | after a refresh, the page returned comes first from the new block, followed by everything after it |
| Facade.DrainIsRemaining | src/main/kotlin/io/github/vivanov93/wikipedia/dumps/parser/Facade.kt:64-81 | iterating to the end yields the current block's remaining pages, then the pages of every later block in order |
| Facade.OpenLeavesReadDump | src/main/kotlin/io/github/vivanov93/wikipedia/dumps/parser/Facade.kt:38-62 | what a constructed iterator has left to yield is the whole-dump reading |
| Facade.IteratorReadsDump | src/main/kotlin/io/github/vivanov93/wikipedia/dumps/parser/Facade.kt:38-100 | the iterator yields the pages of the blocks at the deduplicated index offsets, block by block in extractor order, and fails exactly when that reading fails |
| Facade.HasNextIffPagesRemain | src/main/kotlin/io/github/vivanov93/wikipedia/dumps/parser/Facade.kt:64-81 | `hasNext` holds iff a page is still to come or the rest of the dump fails to read (a pending block missing from the archive, or one whose first page does not parse) |
| Facade.PagesRemainWhileReading | src/main/kotlin/io/github/vivanov93/wikipedia/dumps/parser/Facade.kt:64 | while the rest of the dump reads, `hasNext` holds iff a page is still to come |
| Facade.OpenUnpacked | src/main/kotlin/io/github/vivanov93/wikipedia/dumps/parser/Facade.kt:11-19 | the unpacked iterator opens iff a trimmed line ends with `</siteinfo>` and a page follows it |
| Facade.UnpackedReadsBody | src/main/kotlin/io/github/vivanov93/wikipedia/dumps/parser/Facade.kt:9-26 | after a header ending at the first `</siteinfo>` line, the iterator is the extractor over the body and yields its pages |
| Tasks.Matching | src/main/kotlin/io/github/vivanov93/wikipedia/dumps/parser/xml/Tasks.kt:55 | filtering never adds entries |
| Tasks.MatchingMembers | src/main/kotlin/io/github/vivanov93/wikipedia/dumps/parser/xml/Tasks.kt:54-56 | an entry is kept iff it is in the index and satisfies the condition |
| Tasks.GroupKeysSpec | src/main/kotlin/io/github/vivanov93/wikipedia/dumps/parser/xml/Tasks.kt:60 | grouping gives each offset of a matching entry exactly once |
| Tasks.CollectSpec | src/main/kotlin/io/github/vivanov93/wikipedia/dumps/parser/xml/Tasks.kt:62-70 | collection succeeds iff every group's block reads; a page is collected iff it is in some group's block and its id is among that group's ids |
| Tasks.QuerySpec | src/main/kotlin/io/github/vivanov93/wikipedia/dumps/parser/xml/Tasks.kt:44-73 | the query succeeds iff every matching entry's block reads; the result is exactly the pages whose id matches some matching entry in that entry's block |
| Tasks.FindPagesSpec | src/main/kotlin/io/github/vivanov93/wikipedia/dumps/parser/xml/Tasks.kt:49-60 | an index that does not parse fails the lookup; otherwise the lookup is the query over the index entries |
| Tasks.NoMatchOpensNothing | src/main/kotlin/io/github/vivanov93/wikipedia/dumps/parser/xml/Tasks.kt:60-72 | a condition that matches nothing gives the empty set, whatever the archive holds |
| Tasks.NonRedirectingSpec | src/main/kotlin/io/github/vivanov93/wikipedia/dumps/parser/xml/Tasks.kt:23-38 | the result is the non-redirect pages of the first pass together with the second pass over the redirect targets' titles, and fails exactly when the second pass does |
| Tasks.GetPageByIndex | src/main/kotlin/io/github/vivanov93/wikipedia/dumps/parser/xml/Tasks.kt:10-17 | any page returned has the entry's id |
| Tasks.GetUnpackedPage | src/main/kotlin/io/github/vivanov93/wikipedia/dumps/parser/xml/Tasks.kt:15 | in an unpacked dump the page is the first page after the header with the entry's id; it fails when there is none or the body has no first page |
| SqlBatches.NextInsert | src/main/kotlin/io/github/vivanov93/wikipedia/dumps/parser/sql/Categories.kt:66-75 | the line found starts with the prefix and is consumed; at end of input nothing is left |
| SqlBatches.NextInsertIsFirst | src/main/kotlin/io/github/vivanov93/wikipedia/dumps/parser/sql/CategoryLinks.kt:63-72 | the line found is the first INSERT line, and the rest holds the others; nothing is found iff there is no INSERT line |
| SqlBatches.InsertLinesMembers | src/main/kotlin/io/github/vivanov93/wikipedia/dumps/parser/sql/Categories.kt:69 | the INSERT lines are exactly the lines that start with the prefix |
| SqlBatches.Body | src/main/kotlin/io/github/vivanov93/wikipedia/dumps/parser/sql/Categories.kt:103 | an INSERT line is the prefix followed by the batch body |
| SqlBatches.Refill | src/main/kotlin/io/github/vivanov93/wikipedia/dumps/parser/sql/Categories.kt:103-107 | a refill never un-reads lines, and a non-empty refill consumes its INSERT line |
| SqlBatches.Next | src/main/kotlin/io/github/vivanov93/wikipedia/dumps/parser/sql/Categories.kt:57-63 | `next` returns the queue's head; it refills only when that empties the queue; it fails on an empty queue or a failed refill |
| SqlBatches.DrainQueue | src/main/kotlin/io/github/vivanov93/wikipedia/dumps/parser/sql/CategoryLinks.kt:54-60 | iterating yields the queued items first, then the later batches |
| SqlBatches.RunIsReference | src/main/kotlin/io/github/vivanov93/wikipedia/dumps/parser/sql/Categories.kt:51-63 | iteration yields the batches of the INSERT lines in order, stopping at the first empty batch and failing at the first failed batch |
| SqlBatches.StopsAtEmptyBatch | src/main/kotlin/io/github/vivanov93/wikipedia/dumps/parser/sql/Categories.kt:55-63 | after an INSERT line that yields an empty batch, later lines are never read |
| SqlBatches.CollectedFrom | src/main/kotlin/io/github/vivanov93/wikipedia/dumps/parser/sql/CategoryLinks.kt:87-90 | every item yielded comes from the batch of some INSERT line |
| SqlBatches.CollectedAll | src/main/kotlin/io/github/vivanov93/wikipedia/dumps/parser/sql/Categories.kt:104-107 | when every batch parses and is non-empty, every item of every batch is yielded |
| SqlBatches.CollectedFailsAt | src/main/kotlin/io/github/vivanov93/wikipedia/dumps/parser/sql/CategoryLinks.kt:88-89 | a failing batch reached before any empty batch fails the iteration |
| Categories.ParseInts | src/main/kotlin/io/github/vivanov93/wikipedia/dumps/parser/sql/Categories.kt:82-84 | the numbers read number the same as the fields, and each is in the 32-bit range |
| Categories.ParseIntsFields | src/main/kotlin/io/github/vivanov93/wikipedia/dumps/parser/sql/Categories.kt:84 | the fields parse iff each is an Int, and the k-th number is the k-th field's |
| Categories.Fields | src/main/kotlin/io/github/vivanov93/wikipedia/dumps/parser/sql/Categories.kt:80-82 | a row that splits is the id text, `,'`, the title, `',` and the tail, where the id ends at the first `,'` and the title at the first `',` after it |
| Categories.Assemble | src/main/kotlin/io/github/vivanov93/wikipedia/dumps/parser/sql/Categories.kt:82-91 | assembly succeeds iff the id text is an Int and the tail splits on `,` into exactly three Ints; the category then holds that id, the title and the three counts in order |
| Categories.ToCategoryShape | src/main/kotlin/io/github/vivanov93/wikipedia/dumps/parser/sql/Categories.kt:77-91 | a row that parses reads, before its last `);`, as its id text (the text before the first `,'`), `,'`, its title (free of `',`), `',` and three comma-separated Ints; the category holds the id and those three counts |
| Categories.ToCategoryOf | src/main/kotlin/io/github/vivanov93/wikipedia/dumps/parser/sql/Categories.kt:79-91 | conversely, a row reading `id,'title',tail` before its last `);`, with no `,'` in the id and no `',` in the title, is decided by those three parts |
| Categories.FieldsOf | src/main/kotlin/io/github/vivanov93/wikipedia/dumps/parser/sql/Categories.kt:80-82 | a text `id,'title',tail` with no `,'` in the id and no `',` in the title splits into exactly those parts |
| Categories.RowBody | src/main/kotlin/io/github/vivanov93/wikipedia/dumps/parser/sql/Categories.kt:79 | only the final `);` of the last tuple is stripped, and a tuple without `);` is kept whole |
| Categories.NumbersRoundTrip | src/main/kotlin/io/github/vivanov93/wikipedia/dumps/parser/sql/Categories.kt:82-85 | three comma-separated Ints read back as exactly those three numbers |
| Categories.CategoryRoundTrip | src/main/kotlin/io/github/vivanov93/wikipedia/dumps/parser/sql/Categories.kt:77-91 | a tuple `id,'title',p,s,f`, with or without the final `);`, reads back as that category when the title contains no `',` (and no `);` unless the tuple is the last) |
| Categories.WrongFieldCountDropped | src/main/kotlin/io/github/vivanov93/wikipedia/dumps/parser/sql/Categories.kt:85 | a tuple with other than three fields after the title is dropped |
| Categories.QuoteParenInTitleDropped | src/main/kotlin/io/github/vivanov93/wikipedia/dumps/parser/sql/Categories.kt:93-97 | a title holding `');` (the malformed row in the source comment) makes the tuple be dropped, not the batch |
| Categories.KeptMembers | src/main/kotlin/io/github/vivanov93/wikipedia/dumps/parser/sql/Categories.kt:104-107 | a category is enqueued iff some tuple of the batch parses to it |
| Categories.ParseBatch | src/main/kotlin/io/github/vivanov93/wikipedia/dumps/parser/sql/Categories.kt:92-99 | parsing a batch never fails, since bad tuples are dropped |
| Categories.NeverFails | src/main/kotlin/io/github/vivanov93/wikipedia/dumps/parser/sql/Categories.kt:51-63 | construction never fails, and `next` succeeds exactly when `hasNext` holds |
| Categories.ReadsEveryCategory | src/main/kotlin/io/github/vivanov93/wikipedia/dumps/parser/sql/Categories.kt:47-108 | reading a category dump never fails; every category yielded is parsed from a tuple of some INSERT line, and when no INSERT line is made only of malformed tuples, every category parsed from a tuple of any INSERT line is yielded |
| Categories.CategoryReached | src/main/kotlin/io/github/vivanov93/wikipedia/dumps/parser/sql/Categories.kt:47-108 | a category parsed from a tuple of any INSERT line is yielded when every INSERT line holds at least one well-formed tuple |
| CategoryLinks.LinkFieldsAt | src/main/kotlin/io/github/vivanov93/wikipedia/dumps/parser/sql/CategoryLinks.kt:75-79 | with the first `,'` at `i` and the first `',` after it `j` characters on, the fields are found iff two more characters follow; the id is the text before `i`, the title the `j` characters from `i+2`, and the timestamp text is searched for from `i+j+6`; otherwise an index error |
| CategoryLinks.LinkFieldsMissing | src/main/kotlin/io/github/vivanov93/wikipedia/dumps/parser/sql/CategoryLinks.kt:75-77 | a row without a `,'`, or without a `',` after it, fails with an index error |
| CategoryLinks.LinkFieldsParts | src/main/kotlin/io/github/vivanov93/wikipedia/dumps/parser/sql/CategoryLinks.kt:75-79 | conversely, a row `id,'title',` followed by two characters and `rest`, with no `,'` in the id and no `',` in the title, gives that id, that title and the timestamp text found in `rest` |
| CategoryLinks.TimestampAfter | src/main/kotlin/io/github/vivanov93/wikipedia/dumps/parser/sql/CategoryLinks.kt:78-79 | the timestamp is the text after the next `','` and before the next `',` |
| CategoryLinks.ToCategoryLink | src/main/kotlin/io/github/vivanov93/wikipedia/dumps/parser/sql/CategoryLinks.kt:74-85 | a link that parses has a page id in the 32-bit range |
| CategoryLinks.ToCategoryLinkOutcome | src/main/kotlin/io/github/vivanov93/wikipedia/dumps/parser/sql/CategoryLinks.kt:74-85 | a row gives a link iff its fields are found, the timestamp text parses and the id text is an Int; the link holds those values; a row whose fields are missing fails with an index error, and a rejected timestamp fails before the id is read |
| CategoryLinks.LinkRoundTrip | src/main/kotlin/io/github/vivanov93/wikipedia/dumps/parser/sql/CategoryLinks.kt:77-84 | a row `from,'to','sk','ts',...` reads back as (from, to, ts) when `sk` is non-empty with no `','` and `to` and `ts` have no `',` |
| CategoryLinks.EmptySortKeyReadsNextColumn | src/main/kotlin/io/github/vivanov93/wikipedia/dumps/parser/sql/CategoryLinks.kt:77-79 | with an empty sort key the fixed skip of four lands inside the timestamp column, so the column after the timestamp is read as the timestamp |
| CategoryLinks.ParseEach | src/main/kotlin/io/github/vivanov93/wikipedia/dumps/parser/sql/CategoryLinks.kt:89 | a batch that parses gives one link per tuple |
| CategoryLinks.ParseEachRows | src/main/kotlin/io/github/vivanov93/wikipedia/dumps/parser/sql/CategoryLinks.kt:88-90 | a batch parses iff every tuple does, and the k-th link is the k-th tuple's |
| CategoryLinks.MalformedRowAborts | src/main/kotlin/io/github/vivanov93/wikipedia/dumps/parser/sql/CategoryLinks.kt:87-90 | one malformed tuple in a batch reached before any empty batch fails the whole reading |
| CategoryLinks.LinksComeFromRows | src/main/kotlin/io/github/vivanov93/wikipedia/dumps/parser/sql/CategoryLinks.kt:62-90 | every link yielded is parsed from a tuple of some INSERT line |

## Left out

- BZip2 decompression and byte skipping (`BZip2at`) are not modelled: the archive is a map from offset to the block's decoded lines. A missing offset is a failure (`SeekFailed`) and not a precondition, so the iterators' failure paths stay visible.
- The `.bz2` suffix checks that choose between a compressed and a plain file are not modelled: files are line sequences. The compressed/unpacked choice in `getPageByIndex` is the `Tasks.Dump` datatype.
- Resource handling is not modelled: `close`, `use`, `runCatching` and reader construction. It does not affect the values read.
- `Timestamp.valueOf` is a foreign parser. It is a parameter `string -> Option<T>` of the category-link parser.
- `isRedirectPage` and `getRedirectPageTitle` are not defined in the source. They are parameters of the redirect query.
- Logging (`printStackTrace`) and the test suite are not modelled.
- The `CloseableIterator` interfaces are not modelled as types: each iterator is a state record with `HasNext` and `Next`. `readTrimmed` is folded into the extractor as `Trim` of each line.
- `WikiPagesIterator` has only one version here. The source has a reader-based one and a line-iterator-based one, and only the reader-based one is part of this model.
- Numbers.ParseInteger: accepts only ASCII digits. The JVM's `toLong` and `toInt` also accept other Unicode decimal digits.
- Side effects of misused iterators are not modelled. A `next()` with nothing pending is a `Fail`. In the SQL iterators, `poll()` on an empty queue returns null, which fails later. The model fails at once and does not model the refill that the source would still attempt.
- How far the reader has advanced after a page read fails is not modelled. The source's extractor drops that reader along with the failed page, so nothing can observe it.
- Facade.IteratorReadsDump: compares only success, failure and pages; which error a failing run reports is not compared.
- Tasks.NonRedirectingSpec: the index is read afresh for each of the two passes. The model reads the same lines twice, so the second read cannot fail differently, and the lemma assumes the first pass succeeded.
- Tasks.GetPageByIndex: states only that the page has the entry's id. Its compressed case is stated fully by Pages.GetPageByIndex and its unpacked case by Tasks.GetUnpackedPage.
- `PageRender` models no code of the source. It only writes pages in the dump's XML layout so that the extractor's behaviour can be stated as a round trip.

=== FILE: categories.dfy ===
/** `CategoriesIterator`: the rows of the `category` table of an SQL dump
    (files like `ruwiki-latest-category.sql`). A row that does not parse is
    dropped silently. */
module Categories {
  import opened Results
  import opened KString
  import opened Numbers
  import SqlBatches

  const INSERT_START: string := "INSERT INTO `category` VALUES ("
  const INSERT_END: string := ");"
  const VARCHAR_START: string := ",'"
  const VARCHAR_END: string := "',"
  const VALUES_DELIMITER: string := ","

  /** One row of the `category` table; every number is a Kotlin `Int`. */
  datatype WikiCategory = WikiCategory(id: int, title: string, pagesCount: int, subcategoriesCount: int, catFiles: int)

  predicate InIntRange(n: int) {
    INT_MIN <= n <= INT_MAX
  }

  predicate ValidCategory(c: WikiCategory) {
    InIntRange(c.id) && InIntRange(c.pagesCount) && InIntRange(c.subcategoriesCount) && InIntRange(c.catFiles)
  }

  /** `map { it.toInt() }`: every field as an `Int`, or `None` at the first
      field that is not one. */
  function ParseInts(fields: seq<string>): (r: Option<seq<int>>)
    ensures r.Some? ==> |r.value| == |fields|
    ensures r.Some? ==> forall k :: 0 <= k < |r.value| ==> InIntRange(r.value[k])
    decreases |fields|
  {
    if |fields| == 0 then Some([])
    else
      match ParseInt(fields[0])
      case None => None
      case Some(n) =>
        match ParseInts(fields[1..])
        case None => None
        case Some(ns) => Some([n] + ns)
  }

  /** `ParseInts` succeeds exactly when every field is an `Int`, and then
      gives their values in order. */
  lemma {:induction false} ParseIntsFields(fields: seq<string>)
    ensures ParseInts(fields).Some? <==> forall k :: 0 <= k < |fields| ==> ParseInt(fields[k]).Some?
    ensures ParseInts(fields).Some? ==> forall k :: 0 <= k < |fields| ==> Some(ParseInts(fields).value[k]) == ParseInt(fields[k])
    decreases |fields|
  {
    if |fields| > 0 {
      var tail := fields[1..];
      ParseIntsFields(tail);
      assert forall k :: 0 < k < |fields| ==> fields[k] == tail[k - 1];
    }
  }

  /** `toCategory()`: one row such as `12,'Title',3,0,1`, the last row of a
      line still carrying its `);`. Any exception in the Kotlin code (an
      out-of-range `substring`, a non-numeric field, a field count other
      than three after the title) gives `null`. */
  function ToCategory(row: string): (r: Option<WikiCategory>)
    ensures r.Some? ==> ValidCategory(r.value)
  {
    match Fields(SubstringBeforeLast(row, INSERT_END))
    case None => None
    case Some(f) => Assemble(f.0, f.1, f.2)
  }

  /** Cuts a row into its id text, its title and the text after the title;
      `None` where a `substring` call would be out of range. */
  function Fields(s: string): (r: Option<(string, string, string)>)
    ensures r.Some? ==> s == r.value.0 + VARCHAR_START + r.value.1 + VARCHAR_END + r.value.2
    ensures r.Some? ==> IndexOf(s, VARCHAR_START) == Some(|r.value.0|)
    ensures r.Some? ==> IndexOf(r.value.1 + VARCHAR_END + r.value.2, VARCHAR_END) == Some(|r.value.1|)
  {
    var id := SubstringBefore(s, VARCHAR_START);
    if |s| < |id| + 2 then None
    else
      var afterId := s[|id| + 2..];
      var title := SubstringBefore(afterId, VARCHAR_END);
      if |s| < |id| + 2 + |title| + 2 then None
      else
        var tail := s[|id| + 2 + |title| + 2..];
        assert IndexOf(s, VARCHAR_START) == Some(|id|) && s[|id|..|id| + 2] == VARCHAR_START;
        assert IndexOf(afterId, VARCHAR_END) == Some(|title|) && afterId[|title|..|title| + 2] == VARCHAR_END;
        assert afterId == title + VARCHAR_END + tail;
        assert s == id + VARCHAR_START + afterId;
        Some((id, title, tail))
  }

  /** The category from its id text, its title and the text after the
      title, which must split into exactly three `Int` fields. */
  function Assemble(id: string, title: string, tail: string): (r: Option<WikiCategory>)
    ensures r.Some? <==> ParseInt(id).Some? && ParseInts(Split(tail, VALUES_DELIMITER)).Some?
                         && |Split(tail, VALUES_DELIMITER)| == 3
    ensures r.Some? ==>
      ParseInt(id) == Some(r.value.id)
      && ParseInts(Split(tail, VALUES_DELIMITER)) == Some([r.value.pagesCount, r.value.subcategoriesCount, r.value.catFiles])
    ensures r.Some? ==> ValidCategory(r.value) && r.value.title == title
  {
    match ParseInts(Split(tail, VALUES_DELIMITER))
    case None => None
    case Some(nums) =>
      if |nums| != 3 then None
      else
        match ParseInt(id)
        case None => None
        case Some(n) =>
          assert nums == [nums[0], nums[1], nums[2]];
          Some(WikiCategory(n, title, nums[0], nums[1], nums[2]))
  }

  /** A text `id,'title',tail` whose id holds no `,'` and whose title holds
      no `',` cuts into exactly those three parts. */
  lemma FieldsOf(s: string, id: string, title: string, tail: string)
    requires s == id + VARCHAR_START + title + VARCHAR_END + tail
    requires !Contains(id, VARCHAR_START) && !Contains(title, VARCHAR_END)
    ensures Fields(s) == Some((id, title, tail))
  {
    var afterId := title + VARCHAR_END + tail;
    assert HeadUnique(VARCHAR_START) && HeadUnique(VARCHAR_END);
    assert s == id + VARCHAR_START + afterId;
    IndexOfAfterPrefix(id, VARCHAR_START, afterId);
    IndexOfAfterPrefix(title, VARCHAR_END, tail);
    assert SubstringBefore(s, VARCHAR_START) == id;
    assert s[|id| + 2..] == afterId;
    assert SubstringBefore(afterId, VARCHAR_END) == title;
    assert afterId[|title| + 2..] == tail;
  }

  /** Conversely, a row whose text before its last `);` reads
      `id,'title',tail`, the id free of `,'` and the title free of `',`, is
      decided by those three parts. */
  lemma ToCategoryOf(row: string, id: string, title: string, tail: string)
    requires SubstringBeforeLast(row, INSERT_END) == id + VARCHAR_START + title + VARCHAR_END + tail
    requires !Contains(id, VARCHAR_START) && !Contains(title, VARCHAR_END)
    ensures ToCategory(row) == Assemble(id, title, tail)
  {
    FieldsOf(SubstringBeforeLast(row, INSERT_END), id, title, tail);
  }

  /** What a parsed row is made of: the text before its last `);` starts
      with the id, `,'`, the title and `',`, the id being the text before
      the first `,'` and the title holding no `',`; the id parses to the
      category's id and the rest to its three counts. */
  lemma ToCategoryShape(row: string)
    ensures ToCategory(row).Some? ==>
      var s := SubstringBeforeLast(row, INSERT_END);
      var c := ToCategory(row).value;
      var id := SubstringBefore(s, VARCHAR_START);
      |id| + |c.title| + 4 <= |s|
      && s[..|id| + |c.title| + 4] == id + VARCHAR_START + c.title + VARCHAR_END
      && !Contains(id, VARCHAR_START) && !Contains(c.title, VARCHAR_END)
      && ParseInt(id) == Some(c.id)
      && ParseInts(Split(s[|id| + |c.title| + 4..], VALUES_DELIMITER)) == Some([c.pagesCount, c.subcategoriesCount, c.catFiles])
  {
    var s := SubstringBeforeLast(row, INSERT_END);
    var fields := Fields(s);
    if fields.Some? && ToCategory(row).Some? {
      var f := fields.value;
      var c := ToCategory(row).value;
      assert Assemble(f.0, f.1, f.2) == Some(c);
      IndexOfIsFirst(s, VARCHAR_START);
      PrefixBeforeFirst(s, VARCHAR_START, |f.0|);
      assert s[..|f.0|] == f.0;
      assert SubstringBefore(s, VARCHAR_START) == f.0;
      var afterId := f.1 + VARCHAR_END + f.2;
      IndexOfIsFirst(afterId, VARCHAR_END);
      PrefixBeforeFirst(afterId, VARCHAR_END, |f.1|);
      assert afterId[..|f.1|] == f.1;
      assert s == f.0 + VARCHAR_START + f.1 + VARCHAR_END + f.2;
      assert s[..|f.0| + |f.1| + 4] == f.0 + VARCHAR_START + f.1 + VARCHAR_END;
      assert s[|f.0| + |f.1| + 4..] == f.2;
    }
  }

  /** The row text the dump holds for a category: its fields separated by
      commas, the title quoted, and `);` after the last row of a line. */
  function RenderCategory(c: WikiCategory, last: bool): string {
    ShowInt(c.id) + VARCHAR_START + c.title + VARCHAR_END + CountsText(c) + (if last then INSERT_END else "")
  }

  /** The three counts of a category, comma-separated. */
  function CountsText(c: WikiCategory): string {
    ShowInt(c.pagesCount) + VALUES_DELIMITER + ShowInt(c.subcategoriesCount) + VALUES_DELIMITER + ShowInt(c.catFiles)
  }

  /** A rendered number holds no comma and no parenthesis. */
  lemma NumberFree(n: int, d: string)
    requires |d| > 0 && (d[0] == ',' || d[0] == ')')
    ensures !Contains(ShowInt(n), d)
  {
    NoHeadCharNoOccurrence(ShowInt(n), d);
  }

  lemma JoinThree(x: string, y: string, z: string, d: string)
    ensures Join([x, y, z], d) == x + d + y + d + z
  {
    var xs := [x, y, z];
    assert xs[1..] == [y, z];
    assert xs[1..][1..] == [z];
    assert Join([y, z], d) == y + d + z;
  }

  lemma ParseShownInts(a: int, b: int, c: int)
    requires InIntRange(a) && InIntRange(b) && InIntRange(c)
    ensures ParseInts([ShowInt(a), ShowInt(b), ShowInt(c)]) == Some([a, b, c])
  {
    var xs := [ShowInt(a), ShowInt(b), ShowInt(c)];
    ParseShowIntRange(a);
    ParseShowIntRange(b);
    ParseShowIntRange(c);
    ParseIntsFields(xs);
    var ns := ParseInts(xs).value;
    assert ns == [ns[0], ns[1], ns[2]];
  }

  /** The fields after the title: three numbers joined by commas. */
  lemma NumbersRoundTrip(a: int, b: int, c: int)
    requires InIntRange(a) && InIntRange(b) && InIntRange(c)
    ensures ParseInts(Split(ShowInt(a) + VALUES_DELIMITER + ShowInt(b) + VALUES_DELIMITER + ShowInt(c), VALUES_DELIMITER)) == Some([a, b, c])
  {
    var xs := [ShowInt(a), ShowInt(b), ShowInt(c)];
    NumberFree(a, VALUES_DELIMITER);
    NumberFree(b, VALUES_DELIMITER);
    NumberFree(c, VALUES_DELIMITER);
    JoinThree(ShowInt(a), ShowInt(b), ShowInt(c), VALUES_DELIMITER);
    assert HeadUnique(VALUES_DELIMITER);
    SplitJoin(xs, VALUES_DELIMITER);
    ParseShownInts(a, b, c);
  }

  /** Outside its title a rendered row holds no `)`, and the quote after
      the title is no `;`: a row whose title holds no `);` holds none. */
  lemma RowHasNoEnd(c: WikiCategory)
    requires !Contains(c.title, INSERT_END)
    ensures !Contains(ShowInt(c.id) + VARCHAR_START + c.title + VARCHAR_END + CountsText(c), INSERT_END)
  {
    var a := ShowInt(c.id);
    var p := ShowInt(c.pagesCount);
    var q := ShowInt(c.subcategoriesCount);
    var f := ShowInt(c.catFiles);
    var s := ShowInt(c.id) + VARCHAR_START + c.title + VARCHAR_END + CountsText(c);
    assert s == a + VARCHAR_START + c.title + VARCHAR_END + p + VALUES_DELIMITER + q + VALUES_DELIMITER + f;
    var o1 := |a| + 2;
    var o2 := o1 + |c.title| + 2;
    var o3 := o2 + |p| + 1;
    var o4 := o3 + |q| + 1;
    forall i | 0 <= i < |s| && (i < o1 || o1 + |c.title| <= i) ensures s[i] != ')' {
      if i < |a| {
        assert s[i] == a[i];
      } else if i < o1 {
      } else if i < o2 {
      } else if i < o2 + |p| {
        assert s[i] == p[i - o2];
      } else if i < o3 {
      } else if i < o3 + |q| {
        assert s[i] == q[i - o3];
      } else if i < o4 {
      } else {
        assert s[i] == f[i - o4];
      }
    }
    forall j | 0 <= j ensures !OccursAt(s, INSERT_END, j) {
      if j + 2 > |s| {
      } else if o1 <= j && j + 1 < o1 + |c.title| {
        var k := j - o1;
        assert s[j..j + 2] == c.title[k..k + 2];
        assert !OccursAt(c.title, INSERT_END, k);
      } else if |c.title| > 0 && j == o1 + |c.title| - 1 {
        assert s[j..j + 2][1] == s[o1 + |c.title|] == '\'';
      } else {
        assert s[j..j + 2][0] == s[j] != ')';
      }
    }
  }

  /** The text before the last `);` of a row: the whole row when it holds
      none, and the text before the `);` that closes a line's last row. */
  lemma RowBody(s: string, last: bool)
    requires last || !Contains(s, INSERT_END)
    ensures SubstringBeforeLast(s + (if last then INSERT_END else ""), INSERT_END) == s
  {
    if last {
      assert s + INSERT_END == s + INSERT_END + "";
      assert HeadUnique(INSERT_END);
      LastIndexOfBeforeSuffix(s, INSERT_END, "");
    } else {
      assert s + "" == s;
      LastIndexOfIsLast(s, INSERT_END);
    }
  }

  /** Locates the id and the title of a row `id,'title',tail`. */
  lemma RowParts(id: int, title: string, tail: string, last: bool)
    requires !Contains(title, VARCHAR_END)
    requires last || !Contains(ShowInt(id) + VARCHAR_START + title + VARCHAR_END + tail, INSERT_END)
    ensures ToCategory(ShowInt(id) + VARCHAR_START + title + VARCHAR_END + tail + (if last then INSERT_END else ""))
      == Assemble(ShowInt(id), title, tail)
  {
    var s := ShowInt(id) + VARCHAR_START + title + VARCHAR_END + tail;
    RowBody(s, last);
    NumberFree(id, VARCHAR_START);
    ToCategoryOf(s + (if last then INSERT_END else ""), ShowInt(id), title, tail);
  }

  /** Parsing a rendered row gives the category back, for every valid
      category whose title holds no `',`; a row that is not the last of its
      line must also hold no `);` in its title, or the search for the last
      `);` would cut it short. */
  lemma CategoryRoundTrip(c: WikiCategory, last: bool)
    requires ValidCategory(c)
    requires !Contains(c.title, VARCHAR_END)
    requires !last ==> !Contains(c.title, INSERT_END)
    ensures ToCategory(RenderCategory(c, last)) == Some(c)
  {
    if !last {
      RowHasNoEnd(c);
    }
    RowParts(c.id, c.title, CountsText(c), last);
    AssembleRendered(c);
  }

  lemma AssembleRendered(c: WikiCategory)
    requires ValidCategory(c)
    ensures Assemble(ShowInt(c.id), c.title, CountsText(c)) == Some(c)
  {
    NumbersRoundTrip(c.pagesCount, c.subcategoriesCount, c.catFiles);
    ParseShowIntRange(c.id);
  }

  /** A row whose title is followed by other than three comma-separated
      fields is dropped. */
  lemma WrongFieldCountDropped(id: int, title: string, tail: string, last: bool)
    requires !Contains(title, VARCHAR_END)
    requires |Split(tail, VALUES_DELIMITER)| != 3
    requires last || !Contains(ShowInt(id) + VARCHAR_START + title + VARCHAR_END + tail, INSERT_END)
    ensures ToCategory(ShowInt(id) + VARCHAR_START + title + VARCHAR_END + tail + (if last then INSERT_END else "")).None?
  {
    RowParts(id, title, tail, last);
  }

  /** A title holding `');` cuts its row short at that point, and the row
      is dropped: the malformed rows that `toCategory()` swallows, such as
      a title ending in an escaped quote followed by `);`. */
  lemma QuoteParenInTitleDropped(id: int, front: string, back: string)
    requires !Contains(front, VARCHAR_END) && !Contains(back, INSERT_END)
    ensures ToCategory(ShowInt(id) + VARCHAR_START + front + INSERT_END + back).None?
  {
    var idText := ShowInt(id);
    var s := idText + VARCHAR_START + front;
    var row := idText + VARCHAR_START + front + INSERT_END + back;
    assert HeadUnique(INSERT_END) && HeadUnique(VARCHAR_START) && HeadUnique(VARCHAR_END);
    LastIndexOfBeforeSuffix(s, INSERT_END, back);
    assert SubstringBeforeLast(row, INSERT_END) == s;
    NumberFree(id, VARCHAR_START);
    IndexOfAfterPrefix(idText, VARCHAR_START, front);
    assert s[|idText| + 2..] == front;
    IndexOfIsFirst(front, VARCHAR_END);
  }

  /** The categories of a line's rows, unparsable rows left out:
      `map { it.toCategory() }.filter { it != null }`. */
  function Kept<T>(rows: seq<string>, parse: string -> Option<T>): (r: seq<T>)
    ensures |r| <= |rows|
    decreases |rows|
  {
    if |rows| == 0 then []
    else
      match parse(rows[0])
      case None => Kept(rows[1..], parse)
      case Some(c) => [c] + Kept(rows[1..], parse)
  }

  /** A category is kept exactly when some row parses to it. */
  lemma {:induction false} KeptMembers<T>(rows: seq<string>, parse: string -> Option<T>, c: T)
    ensures c in Kept(rows, parse) <==> exists k :: 0 <= k < |rows| && parse(rows[k]) == Some(c)
    decreases |rows|
  {
    if |rows| > 0 {
      var tail := rows[1..];
      KeptMembers(tail, parse, c);
      if exists k :: 0 <= k < |rows| && parse(rows[k]) == Some(c) {
        var k :| 0 <= k < |rows| && parse(rows[k]) == Some(c);
        if k > 0 {
          assert tail[k - 1] == rows[k];
        }
      }
      if exists k :: 0 <= k < |tail| && parse(tail[k]) == Some(c) {
        var k :| 0 <= k < |tail| && parse(tail[k]) == Some(c);
        assert rows[k + 1] == tail[k];
      }
    }
  }

  /** One `INSERT` line's rows; dropping malformed rows means a line never
      fails. */
  function ParseBatch(text: string): (r: Result<seq<WikiCategory>>)
    ensures r.Ok?
  {
    Ok(Kept(Split(text, SqlBatches.ROWS_DELIMITER), ToCategory))
  }

  /** `CategoriesIterator(reader)`. */
  function Open(lines: seq<string>): Result<SqlBatches.BatchIter<WikiCategory>> {
    SqlBatches.Open(lines, INSERT_START, ParseBatch)
  }

  /** `next()`. */
  function Next(it: SqlBatches.BatchIter<WikiCategory>): Result<Step<WikiCategory, SqlBatches.BatchIter<WikiCategory>>> {
    SqlBatches.Next(it, INSERT_START, ParseBatch)
  }

  /** Every category the iterator yields over a dump. */
  function ReadCategories(lines: seq<string>): Result<seq<WikiCategory>> {
    SqlBatches.Run(lines, INSERT_START, ParseBatch)
  }

  /** Neither opening nor a `next()` with rows left ever fails. */
  lemma NeverFails(lines: seq<string>, it: SqlBatches.BatchIter<WikiCategory>)
    ensures Open(lines).Ok?
    ensures SqlBatches.HasNext(it) <==> Next(it).Ok?
  {
  }

  /** The iterator reads the whole dump without failing, and yields a
      category exactly when some row of an `INSERT` line it reached parses
      to it; it reaches every `INSERT` line when none of them is made only
      of malformed rows. */
  lemma ReadsEveryCategory(lines: seq<string>)
    ensures ReadCategories(lines).Ok?
    ensures forall c :: c in ReadCategories(lines).value ==>
      exists line :: (line in lines && StartsWith(line, INSERT_START)
        && c in Kept(Split(SqlBatches.Body(line, INSERT_START), SqlBatches.ROWS_DELIMITER), ToCategory))
    ensures (forall l :: l in lines && StartsWith(l, INSERT_START) ==>
               |Kept(Split(SqlBatches.Body(l, INSERT_START), SqlBatches.ROWS_DELIMITER), ToCategory)| > 0) ==>
      forall line, c :: line in lines && StartsWith(line, INSERT_START)
        && c in Kept(Split(SqlBatches.Body(line, INSERT_START), SqlBatches.ROWS_DELIMITER), ToCategory)
        ==> c in ReadCategories(lines).value
  {
    SqlBatches.RunIsReference(lines, INSERT_START, ParseBatch);
    var inserts := SqlBatches.InsertLines(lines, INSERT_START);
    CollectedOk(inserts);
    SqlBatches.InsertLinesMembers(lines, INSERT_START);
    forall c | c in ReadCategories(lines).value
      ensures exists line :: (line in lines && StartsWith(line, INSERT_START)
        && c in Kept(Split(SqlBatches.Body(line, INSERT_START), SqlBatches.ROWS_DELIMITER), ToCategory))
    {
      SqlBatches.CollectedFrom(inserts, INSERT_START, ParseBatch, c);
      var k :| 0 <= k < |inserts| && ParseBatch(SqlBatches.Body(inserts[k], INSERT_START)).Ok?
        && c in ParseBatch(SqlBatches.Body(inserts[k], INSERT_START)).value;
      assert inserts[k] in inserts;
    }
    forall line, c | line in lines && StartsWith(line, INSERT_START)
      && c in Kept(Split(SqlBatches.Body(line, INSERT_START), SqlBatches.ROWS_DELIMITER), ToCategory)
      && (forall l :: l in lines && StartsWith(l, INSERT_START) ==>
            |Kept(Split(SqlBatches.Body(l, INSERT_START), SqlBatches.ROWS_DELIMITER), ToCategory)| > 0)
      ensures c in ReadCategories(lines).value
    {
      CategoryReached(lines, line, c);
    }
  }

  /** A row of an `INSERT` line is yielded when no `INSERT` line is made only
      of malformed rows. */
  lemma CategoryReached(lines: seq<string>, line: string, c: WikiCategory)
    requires forall l :: l in lines && StartsWith(l, INSERT_START) ==>
      |Kept(Split(SqlBatches.Body(l, INSERT_START), SqlBatches.ROWS_DELIMITER), ToCategory)| > 0
    requires line in lines && StartsWith(line, INSERT_START)
    requires c in Kept(Split(SqlBatches.Body(line, INSERT_START), SqlBatches.ROWS_DELIMITER), ToCategory)
    ensures ReadCategories(lines).Ok? && c in ReadCategories(lines).value
  {
    SqlBatches.RunIsReference(lines, INSERT_START, ParseBatch);
    var inserts := SqlBatches.InsertLines(lines, INSERT_START);
    SqlBatches.InsertLinesMembers(lines, INSERT_START);
    assert line in inserts;
    var k :| 0 <= k < |inserts| && inserts[k] == line;
    assert forall j :: 0 <= j < |inserts| ==> inserts[j] in inserts;
    SqlBatches.CollectedAll(inserts, INSERT_START, ParseBatch, k);
  }

  /** Category lines never fail, so neither does their reference reading. */
  lemma {:induction false} CollectedOk(inserts: seq<string>)
    ensures SqlBatches.Collected(inserts, INSERT_START, ParseBatch).Ok?
    decreases |inserts|
  {
    if |inserts| > 0 {
      CollectedOk(inserts[1..]);
    }
  }
}

=== FILE: category_links.dfy ===
/** `CategoryLinksIterator`: the rows of the `categorylinks` table of an
    SQL dump (files like `ruwiki-latest-categorylinks.sql`). Unlike the
    category rows, a row that does not parse makes the iterator throw. */
module CategoryLinks {
  import opened Results
  import opened KString
  import opened Numbers
  import SqlBatches

  const INSERT_START: string := "INSERT INTO `categorylinks` VALUES ("
  const ESCAPED_START: string := ",'"
  const ESCAPED_END: string := "',"
  const BETWEEN_ESCAPED: string := "','"

  /** One row of the `categorylinks` table: the page, the title of its
      category and the time of the link. `Timestamp.valueOf` is not part of
      this model; the timestamp type and its parser are parameters. */
  datatype WikiCategoryLink<T> = WikiCategoryLink(pageId: int, categoryTitle: string, timestamp: T)

  /** The page id text, the category title and the timestamp text of a row
      `from,'to','sortkey','timestamp',...`. The title starts two characters
      after the id; the timestamp search starts four characters after the
      title, which is one character into the sort key, and then skips to
      the text after the next `','`. */
  function LinkFields(row: string): (r: Result<(string, string, string)>)
    ensures r.Fail? ==> r.error == IndexOutOfRange
  {
    var id := SubstringBefore(row, ESCAPED_START);
    if |row| < |id| + 2 then Fail(IndexOutOfRange)
    else
      var title := SubstringBefore(row[|id| + 2..], ESCAPED_END);
      if |row| < |id| + 2 + |title| + 4 then Fail(IndexOutOfRange)
      else
        Ok((id, title, TimestampText(row[|id| + 2 + |title| + 4..])))
  }

  /** Where the row holds a `,'` at `i` and a `',` first `j` characters
      after it, the id is the text before the `,'` and the title the text
      between; the fields are found exactly when at least two characters
      follow the `',`, and the timestamp text is then searched for from
      there. */
  lemma LinkFieldsAt(row: string, i: nat, j: nat)
    requires IndexOf(row, ESCAPED_START) == Some(i)
    requires i + 2 <= |row| && IndexOf(row[i + 2..], ESCAPED_END) == Some(j)
    ensures i + j + 6 <= |row| ==> LinkFields(row) == Ok((row[..i], row[i + 2..][..j], TimestampText(row[i + j + 6..])))
    ensures i + j + 6 > |row| ==> LinkFields(row) == Fail(IndexOutOfRange)
  {
    assert SubstringBefore(row, ESCAPED_START) == row[..i] && SubstringBefore(row[i + 2..], ESCAPED_END) == row[i + 2..][..j];
    LinkFieldsBy(row, i, j);
  }

  /** `LinkFieldsAt` once both searches have been resolved. */
  lemma LinkFieldsBy(row: string, i: nat, j: nat)
    requires i + 2 <= |row| && j <= |row| - i - 2
    requires SubstringBefore(row, ESCAPED_START) == row[..i] && SubstringBefore(row[i + 2..], ESCAPED_END) == row[i + 2..][..j]
    ensures i + j + 6 <= |row| ==> LinkFields(row) == Ok((row[..i], row[i + 2..][..j], TimestampText(row[i + j + 6..])))
    ensures i + j + 6 > |row| ==> LinkFields(row) == Fail(IndexOutOfRange)
  {
  }

  /** A row without a `,'`, or without a `',` after its first `,'`, has no
      fields. */
  lemma LinkFieldsMissing(row: string)
    requires IndexOf(row, ESCAPED_START).None?
             || IndexOf(row[IndexOf(row, ESCAPED_START).value + 2..], ESCAPED_END).None?
    ensures LinkFields(row) == Fail(IndexOutOfRange)
  {
    var id := SubstringBefore(row, ESCAPED_START);
    if IndexOf(row, ESCAPED_START).None? {
      LinkFieldsTooShort(row, id);
    } else {
      var i := IndexOf(row, ESCAPED_START).value;
      var afterId := row[i + 2..];
      LinkFieldsTitleTooLong(row, id, SubstringBefore(afterId, ESCAPED_END));
    }
  }

  lemma LinkFieldsTooShort(row: string, id: string)
    requires SubstringBefore(row, ESCAPED_START) == id && |row| < |id| + 2
    ensures LinkFields(row).Fail?
  {
  }

  lemma LinkFieldsTitleTooLong(row: string, id: string, title: string)
    requires SubstringBefore(row, ESCAPED_START) == id && |id| + 2 <= |row|
    requires SubstringBefore(row[|id| + 2..], ESCAPED_END) == title && |row| < |id| + |title| + 6
    ensures LinkFields(row).Fail?
  {
  }

  /** `substringAfter("','").substringBefore("',")`: the text between the
      first `','` and the next `',`. */
  function TimestampText(s: string): string {
    SubstringBefore(SubstringAfter(s, BETWEEN_ESCAPED), ESCAPED_END)
  }

  /** `toCategoryLink()`: an out-of-range `substring`, then a timestamp the
      parser rejects, then a page id that is not an `Int`, each make it
      throw, in that order. */
  function ToCategoryLink<T>(row: string, parseTimestamp: string -> Option<T>): (r: Result<WikiCategoryLink<T>>)
    ensures r.Ok? ==> INT_MIN <= r.value.pageId <= INT_MAX
  {
    match LinkFields(row)
    case Fail(e) => Fail(e)
    case Ok(f) =>
      match parseTimestamp(f.2)
      case None => Fail(BadTimestamp)
      case Some(t) =>
        match ParseInt(f.0)
        case None => Fail(NotANumber)
        case Some(n) => Ok(WikiCategoryLink(n, f.1, t))
  }

  /** A row gives a link exactly when its fields are found, the parser
      accepts its timestamp text and its id text is an `Int`; the link then
      holds those values. A row whose fields are not found fails with an
      index error, and one whose timestamp is rejected fails on that before
      its id is read. */
  lemma ToCategoryLinkOutcome<T>(row: string, parseTimestamp: string -> Option<T>)
    ensures var r := ToCategoryLink(row, parseTimestamp);
      r.Ok? <==> LinkFields(row).Ok? && parseTimestamp(LinkFields(row).value.2).Some?
                 && ParseInt(LinkFields(row).value.0).Some?
    ensures var r := ToCategoryLink(row, parseTimestamp);
      r.Ok? ==> ParseInt(LinkFields(row).value.0) == Some(r.value.pageId)
                && r.value.categoryTitle == LinkFields(row).value.1
                && parseTimestamp(LinkFields(row).value.2) == Some(r.value.timestamp)
    ensures LinkFields(row).Fail? ==> ToCategoryLink(row, parseTimestamp) == Fail(IndexOutOfRange)
    ensures LinkFields(row).Ok? && parseTimestamp(LinkFields(row).value.2).None? ==>
      ToCategoryLink(row, parseTimestamp) == Fail(BadTimestamp)
  {
  }

  /** The row text the dump holds for a link, given the texts of its sort
      key and timestamp columns and of the columns after them. */
  function RenderLink(pageId: int, title: string, sortKey: string, timestamp: string, rest: string): string {
    ShowInt(pageId) + ESCAPED_START + title + BETWEEN_ESCAPED + sortKey + BETWEEN_ESCAPED + timestamp + ESCAPED_END + rest
  }

  /** Conversely, a row `id,'title',` followed by two more characters and
      then `afterLead`, whose id holds no `,'` and whose title holds no
      `',`, cuts into that id, that title and the timestamp text found in
      `afterLead`. */
  lemma LinkFieldsParts(row: string, idText: string, title: string, lead: string, afterLead: string)
    requires |lead| == 2
    requires row == idText + ESCAPED_START + (title + ESCAPED_END + (lead + afterLead))
    requires !Contains(idText, ESCAPED_START) && !Contains(title, ESCAPED_END)
    ensures LinkFields(row) == Ok((idText, title, TimestampText(afterLead)))
  {
    var front := idText + ESCAPED_START;
    var rest := title + ESCAPED_END + (lead + afterLead);
    var i := |idText|;
    var j := |title|;
    assert row == front + rest;
    assert row[i + 2..] == rest by {
      DropFront(front, rest);
    }
    assert IndexOf(row, ESCAPED_START) == Some(i) by {
      assert HeadUnique(ESCAPED_START);
      IndexOfAfterPrefix(idText, ESCAPED_START, rest);
    }
    assert IndexOf(row[i + 2..], ESCAPED_END) == Some(j) by {
      assert HeadUnique(ESCAPED_END);
      IndexOfAfterPrefix(title, ESCAPED_END, lead + afterLead);
    }
    LinkFieldsAt(row, i, j);
    assert row[..i] == idText;
    assert row[i + 2..][..j] == title;
    assert row[i + j + 6..] == afterLead by {
      var upToLead := title + ESCAPED_END + lead;
      assert rest == upToLead + afterLead;
      DropFront(upToLead, afterLead);
    }
  }

  lemma DropFront(a: string, b: string)
    ensures (a + b)[|a|..] == b
    ensures forall n :: |a| <= n <= |a| + |b| ==> (a + b)[n..] == b[n - |a|..]
  {
  }

  /** A field followed by `','` and then the timestamp field: the search
      for `','` stops at the end of the field, and the timestamp is the text
      up to the next `',`. */
  lemma TimestampAfter(field: string, timestamp: string, rest: string)
    requires NoEarlyOccurrence(field, BETWEEN_ESCAPED)
    requires !Contains(timestamp, ESCAPED_END)
    ensures TimestampText(field + BETWEEN_ESCAPED + (timestamp + ESCAPED_END + rest)) == timestamp
  {
    IndexOfAfterField(field, BETWEEN_ESCAPED, timestamp + ESCAPED_END + rest);
    assert (field + BETWEEN_ESCAPED + (timestamp + ESCAPED_END + rest))[|field| + 3..] == timestamp + ESCAPED_END + rest;
    assert HeadUnique(ESCAPED_END);
    IndexOfAfterPrefix(timestamp, ESCAPED_END, rest);
  }

  /** No `','` starting inside a field survives dropping its first
      character. */
  lemma NoEarlyOccurrenceTail(field: string)
    requires |field| > 0 && NoEarlyOccurrence(field, BETWEEN_ESCAPED)
    ensures NoEarlyOccurrence(field[1..], BETWEEN_ESCAPED)
  {
    var whole := field + BETWEEN_ESCAPED;
    assert whole[1..] == field[1..] + BETWEEN_ESCAPED;
    forall j | 0 <= j < |field| - 1 ensures !OccursAt(field[1..] + BETWEEN_ESCAPED, BETWEEN_ESCAPED, j) {
      OccursInTail(whole, BETWEEN_ESCAPED, j);
    }
  }

  /** Parsing a rendered row gives the link back, for every page id in
      `Int` range and every timestamp text the parser accepts, provided the
      sort key is not empty, no `','` starts inside it, and neither the
      title nor the timestamp text holds `',`. */
  lemma LinkRoundTrip<T>(pageId: int, title: string, sortKey: string, timestamp: string, rest: string,
                         parseTimestamp: string -> Option<T>, t: T)
    requires INT_MIN <= pageId <= INT_MAX
    requires !Contains(title, ESCAPED_END) && !Contains(timestamp, ESCAPED_END)
    requires |sortKey| > 0 && NoEarlyOccurrence(sortKey, BETWEEN_ESCAPED)
    requires parseTimestamp(timestamp) == Some(t)
    ensures ToCategoryLink(RenderLink(pageId, title, sortKey, timestamp, rest), parseTimestamp)
      == Ok(WikiCategoryLink(pageId, title, t))
  {
    var row := RenderLink(pageId, title, sortKey, timestamp, rest);
    var lead := "'" + [sortKey[0]];
    var afterLead := sortKey[1..] + BETWEEN_ESCAPED + (timestamp + ESCAPED_END + rest);
    assert sortKey == [sortKey[0]] + sortKey[1..];
    assert BETWEEN_ESCAPED == ESCAPED_END + "'";
    assert row == ShowInt(pageId) + ESCAPED_START + (title + ESCAPED_END + (lead + afterLead));
    NoHeadCharNoOccurrence(ShowInt(pageId), ESCAPED_START);
    NoEarlyOccurrenceTail(sortKey);
    TimestampAfter(sortKey[1..], timestamp, rest);
    LinkFieldsParts(row, ShowInt(pageId), title, lead, afterLead);
    ParseShowIntRange(pageId);
  }

  /** A field of plain characters, neither quote nor comma. */
  predicate PlainField(f: string) {
    forall i :: 0 <= i < |f| ==> f[i] != '\'' && f[i] != ','
  }

  lemma PlainAfterComma(f: string)
    requires PlainField(f)
    ensures NoEarlyOccurrence(ESCAPED_START + f, BETWEEN_ESCAPED)
  {
    var a := ESCAPED_START + f;
    forall j | 0 <= j < |a| ensures !OccursAt(a + BETWEEN_ESCAPED, BETWEEN_ESCAPED, j) {
      var w := a + BETWEEN_ESCAPED;
      if j == 0 {
        assert w[0] == ',';
        assert w[j..j + 3][0] == w[0];
      } else if j + 1 < |a| {
        assert w[j + 1] == f[j - 1];
        assert w[j..j + 3][1] == w[j + 1];
      } else {
        assert j == |a| - 1;
        if |f| == 0 {
          assert w[j + 1] == '\'';
        } else {
          assert w[j] == f[|f| - 1];
        }
        assert w[j..j + 3][1] == w[j + 1];
        assert w[j..j + 3][0] == w[j];
      }
    }
  }

  /** With an empty sort key, the four-character skip after the title
      overshoots into the timestamp column: the text handed to the timestamp
      parser is the next column, `cl_sortkey_prefix`, and the real timestamp
      is never read. */
  lemma EmptySortKeyReadsNextColumn<T>(pageId: int, title: string, timestamp: string, prefix: string, rest: string,
                                       parseTimestamp: string -> Option<T>)
    requires INT_MIN <= pageId <= INT_MAX
    requires !Contains(title, ESCAPED_END) && PlainField(timestamp) && !Contains(prefix, ESCAPED_END)
    ensures LinkFields(ShowInt(pageId) + ESCAPED_START + title + BETWEEN_ESCAPED + BETWEEN_ESCAPED
                       + timestamp + BETWEEN_ESCAPED + prefix + ESCAPED_END + rest)
      == Ok((ShowInt(pageId), title, prefix))
  {
    var row := ShowInt(pageId) + ESCAPED_START + title + BETWEEN_ESCAPED + BETWEEN_ESCAPED
               + timestamp + BETWEEN_ESCAPED + prefix + ESCAPED_END + rest;
    var mid := (ESCAPED_START + timestamp) + BETWEEN_ESCAPED + (prefix + ESCAPED_END + rest);
    var afterTitle := "''" + mid;
    assert BETWEEN_ESCAPED + BETWEEN_ESCAPED == ESCAPED_END + "''" + ESCAPED_START;
    assert row == ShowInt(pageId) + ESCAPED_START + (title + ESCAPED_END + afterTitle);
    NoHeadCharNoOccurrence(ShowInt(pageId), ESCAPED_START);
    PlainAfterComma(timestamp);
    TimestampAfter(ESCAPED_START + timestamp, prefix, rest);
    LinkFieldsParts(row, ShowInt(pageId), title, "''", mid);
  }

  /** `map { it.toCategoryLink() }`: every row parsed, the first failure
      escaping. */
  function ParseEach<T>(rows: seq<string>, parse: string -> Result<T>): (r: Result<seq<T>>)
    ensures r.Ok? ==> |r.value| == |rows|
    decreases |rows|
  {
    if |rows| == 0 then Ok([])
    else
      match parse(rows[0])
      case Fail(e) => Fail(e)
      case Ok(x) =>
        match ParseEach(rows[1..], parse)
        case Fail(e) => Fail(e)
        case Ok(xs) => Ok([x] + xs)
  }

  /** A line parses exactly when each of its rows does, and then gives
      their links in order. */
  lemma {:induction false} ParseEachRows<T>(rows: seq<string>, parse: string -> Result<T>)
    ensures ParseEach(rows, parse).Ok? <==> forall k :: 0 <= k < |rows| ==> parse(rows[k]).Ok?
    ensures ParseEach(rows, parse).Ok? ==> forall k :: 0 <= k < |rows| ==> Ok(ParseEach(rows, parse).value[k]) == parse(rows[k])
    decreases |rows|
  {
    if |rows| > 0 {
      var tail := rows[1..];
      ParseEachRows(tail, parse);
      assert forall k :: 0 < k < |rows| ==> rows[k] == tail[k - 1];
    }
  }

  /** One `INSERT` line's links. */
  function ParseBatch<T>(parseTimestamp: string -> Option<T>): string -> Result<seq<WikiCategoryLink<T>>> {
    text => ParseEach(Split(text, SqlBatches.ROWS_DELIMITER), row => ToCategoryLink(row, parseTimestamp))
  }

  /** `CategoryLinksIterator(reader)`. */
  function Open<T>(lines: seq<string>, parseTimestamp: string -> Option<T>): Result<SqlBatches.BatchIter<WikiCategoryLink<T>>> {
    SqlBatches.Open(lines, INSERT_START, ParseBatch(parseTimestamp))
  }

  /** Every link the iterator yields over a dump, or the exception it throws. */
  function ReadCategoryLinks<T>(lines: seq<string>, parseTimestamp: string -> Option<T>): Result<seq<WikiCategoryLink<T>>> {
    SqlBatches.Run(lines, INSERT_START, ParseBatch(parseTimestamp))
  }

  /** A malformed row in an `INSERT` line that the iterator reaches (every
      earlier line held rows) makes the iteration throw. */
  lemma MalformedRowAborts<T>(lines: seq<string>, parseTimestamp: string -> Option<T>, k: nat, row: nat)
    requires k < |SqlBatches.InsertLines(lines, INSERT_START)|
    requires forall j :: 0 <= j < k ==>
      ParseBatch(parseTimestamp)(SqlBatches.Body(SqlBatches.InsertLines(lines, INSERT_START)[j], INSERT_START)).Ok?
      && |ParseBatch(parseTimestamp)(SqlBatches.Body(SqlBatches.InsertLines(lines, INSERT_START)[j], INSERT_START)).value| > 0
    requires row < |Split(SqlBatches.Body(SqlBatches.InsertLines(lines, INSERT_START)[k], INSERT_START), SqlBatches.ROWS_DELIMITER)|
    requires ToCategoryLink(Split(SqlBatches.Body(SqlBatches.InsertLines(lines, INSERT_START)[k], INSERT_START),
                                  SqlBatches.ROWS_DELIMITER)[row], parseTimestamp).Fail?
    ensures ReadCategoryLinks(lines, parseTimestamp).Fail?
  {
    var inserts := SqlBatches.InsertLines(lines, INSERT_START);
    var rows := Split(SqlBatches.Body(inserts[k], INSERT_START), SqlBatches.ROWS_DELIMITER);
    ParseEachRows(rows, row => ToCategoryLink(row, parseTimestamp));
    SqlBatches.CollectedFailsAt(inserts, k, INSERT_START, ParseBatch(parseTimestamp));
    SqlBatches.RunIsReference(lines, INSERT_START, ParseBatch(parseTimestamp));
  }

  /** Every link of a parsed line comes from one of its rows. */
  lemma BatchLinkFromRow<T>(text: string, parseTimestamp: string -> Option<T>, l: WikiCategoryLink<T>)
    requires ParseBatch(parseTimestamp)(text).Ok? && l in ParseBatch(parseTimestamp)(text).value
    ensures exists row :: row in Split(text, SqlBatches.ROWS_DELIMITER) && ToCategoryLink(row, parseTimestamp) == Ok(l)
  {
    var rows := Split(text, SqlBatches.ROWS_DELIMITER);
    var parse := row => ToCategoryLink(row, parseTimestamp);
    ParseEachRows(rows, parse);
    var links := ParseEach(rows, parse).value;
    var i :| 0 <= i < |links| && links[i] == l;
    assert parse(rows[i]) == Ok(l);
    assert rows[i] in rows;
  }

  /** Every link the iterator yields was parsed from a row of an `INSERT`
      line of the dump. */
  lemma LinksComeFromRows<T>(lines: seq<string>, parseTimestamp: string -> Option<T>, l: WikiCategoryLink<T>)
    requires ReadCategoryLinks(lines, parseTimestamp).Ok? && l in ReadCategoryLinks(lines, parseTimestamp).value
    ensures exists line, row :: (line in lines && StartsWith(line, INSERT_START)
      && row in Split(SqlBatches.Body(line, INSERT_START), SqlBatches.ROWS_DELIMITER)
      && ToCategoryLink(row, parseTimestamp) == Ok(l))
  {
    var parse := ParseBatch(parseTimestamp);
    var inserts := SqlBatches.InsertLines(lines, INSERT_START);
    SqlBatches.RunIsReference(lines, INSERT_START, parse);
    SqlBatches.CollectedFrom(inserts, INSERT_START, parse, l);
    var k :| 0 <= k < |inserts| && parse(SqlBatches.Body(inserts[k], INSERT_START)).Ok?
      && l in parse(SqlBatches.Body(inserts[k], INSERT_START)).value;
    BatchLinkFromRow(SqlBatches.Body(inserts[k], INSERT_START), parseTimestamp, l);
    SqlBatches.InsertLinesMembers(lines, INSERT_START);
    assert inserts[k] in inserts;
  }
}

=== FILE: facade.dfy ===
/** The two whole-dump iterators of the library's facade:
    `IndexedDumpIterator` walks a multistream archive block by block, in the
    order the index file names the blocks, and `UnpackedDumpIterator` reads
    an uncompressed dump after its `<siteinfo>` header. */
module Facade {
  import opened Results
  import Indexes
  import Pages

  /* ---------- The order in which blocks are opened ---------- */

  /** The block offsets of a list of index entries, in order. */
  function Offsets(es: seq<Indexes.WikiPageIndex>): (r: seq<int>)
    ensures |r| == |es|
    decreases |es|
  {
    if |es| == 0 then [] else [es[0].offsetFromStart] + Offsets(es[1..])
  }

  lemma OffsetsCons(e: Indexes.WikiPageIndex, es: seq<Indexes.WikiPageIndex>)
    ensures Offsets([e] + es) == [e.offsetFromStart] + Offsets(es)
  {
    assert ([e] + es)[1..] == es;
  }

  /** The reference order of blocks: the offsets of the index, dropping
      every offset equal to the block opened before it (`prev` at first). */
  function Runs(offsets: seq<int>, prev: int): seq<int>
    decreases |offsets|
  {
    if |offsets| == 0 then []
    else if offsets[0] == prev then Runs(offsets[1..], prev)
    else [offsets[0]] + Runs(offsets[1..], offsets[0])
  }

  /** The first block opened differs from `prev`, and no block is opened
      twice in a row. */
  lemma {:induction false} RunsAdjacentDistinct(offsets: seq<int>, prev: int)
    ensures |Runs(offsets, prev)| > 0 ==> Runs(offsets, prev)[0] != prev
    ensures forall k :: 0 < k < |Runs(offsets, prev)| ==> Runs(offsets, prev)[k] != Runs(offsets, prev)[k - 1]
    decreases |offsets|
  {
    if |offsets| > 0 {
      var o := offsets[0];
      var tail := offsets[1..];
      if o == prev {
        RunsAdjacentDistinct(tail, prev);
      } else {
        RunsAdjacentDistinct(tail, o);
        var r := Runs(offsets, prev);
        var t := Runs(tail, o);
        assert r == [o] + t;
        forall k | 0 < k < |r| ensures r[k] != r[k - 1] {
          var j: nat := k - 1;
          assert r[k] == t[j];
          if j > 0 {
            assert r[j] == t[j - 1];
          }
        }
      }
    }
  }

  /** Every opened block is named by some index entry, and every offset of
      the index is opened unless it repeats the block opened before it. */
  lemma {:induction false} RunsCover(offsets: seq<int>, prev: int)
    ensures forall b :: b in Runs(offsets, prev) ==> b in offsets
    ensures forall o :: o in offsets ==> o in Runs(offsets, prev) || o == prev
    decreases |offsets|
  {
    if |offsets| > 0 {
      var tail := offsets[1..];
      assert offsets == [offsets[0]] + tail;
      if offsets[0] == prev {
        RunsCover(tail, prev);
      } else {
        RunsCover(tail, offsets[0]);
      }
    }
  }

  /** An index without adjacent repeats opens every block it names. */
  lemma {:induction false} RunsOfDistinct(offsets: seq<int>, prev: int)
    requires |offsets| > 0 ==> offsets[0] != prev
    requires forall k :: 0 < k < |offsets| ==> offsets[k] != offsets[k - 1]
    ensures Runs(offsets, prev) == offsets
    decreases |offsets|
  {
    if |offsets| > 0 {
      var tail := offsets[1..];
      forall k | 0 < k < |tail| ensures tail[k] != tail[k - 1] {
        assert tail[k] == offsets[k + 1];
      }
      if |tail| > 0 {
        assert tail[0] == offsets[1];
      }
      RunsOfDistinct(tail, offsets[0]);
      assert offsets == [offsets[0]] + tail;
    }
  }

  /** The blocks still to be opened once `next` is pending and the index
      entries `es` are unread. */
  function BlocksFrom(next: Option<int>, es: seq<Indexes.WikiPageIndex>): seq<int> {
    match next
    case None => []
    case Some(o) => [o] + Runs(Offsets(es), o)
  }

  /** The results of `read` for the given blocks, concatenated in order; the
      first block that fails fails the whole walk. */
  function WalkWith(read: int -> Result<seq<Pages.WikiPage>>, blocks: seq<int>): (r: Result<seq<Pages.WikiPage>>)
    decreases |blocks|
  {
    if |blocks| == 0 then Ok([])
    else
      match read(blocks[0])
      case Fail(e) => Fail(e)
      case Ok(ps) =>
        match WalkWith(read, blocks[1..])
        case Fail(e) => Fail(e)
        case Ok(tail) => Ok(ps + tail)
  }

  /** A walk succeeds exactly when every block can be read. */
  lemma {:induction false} WalkWithOk(read: int -> Result<seq<Pages.WikiPage>>, blocks: seq<int>)
    ensures WalkWith(read, blocks).Ok? <==> forall k :: 0 <= k < |blocks| ==> read(blocks[k]).Ok?
    decreases |blocks|
  {
    if |blocks| > 0 {
      var tail := blocks[1..];
      WalkWithOk(read, tail);
      if WalkWith(read, blocks).Ok? {
        forall k | 1 <= k < |blocks| ensures read(blocks[k]).Ok? {
          assert blocks[k] == tail[k - 1];
        }
      } else if read(blocks[0]).Ok? {
        var j :| 0 <= j < |tail| && read(tail[j]).Fail?;
        assert blocks[j + 1] == tail[j];
      }
    }
  }

  /** `BZip2at(offset).asPagesIterator()` drained, as a function of the offset. */
  function BlockReader(archive: Pages.Archive): int -> Result<seq<Pages.WikiPage>> {
    o => Pages.BlockPages(archive, o)
  }

  /** The pages of the given blocks, one block after another; a block that
      does not open fails the whole walk. */
  function Walk(archive: Pages.Archive, blocks: seq<int>): Result<seq<Pages.WikiPage>> {
    WalkWith(BlockReader(archive), blocks)
  }

  /** A walk over the archive succeeds exactly when every block opens. */
  lemma WalkOk(archive: Pages.Archive, blocks: seq<int>)
    ensures Walk(archive, blocks).Ok? <==> forall k :: 0 <= k < |blocks| ==> Pages.BlockPages(archive, blocks[k]).Ok?
  {
    WalkWithOk(BlockReader(archive), blocks);
  }

  /* ---------- `findNextMultiStreamIndexInternal` ---------- */

  /** The offset of the next index entry whose offset differs from
      `current`, consuming the entries up to and including it; `None` once
      the entries run out. A line that does not parse fails the scan. */
  function FindNext(indexes: Indexes.IndexIter, current: int): (r: Result<Step<Option<int>, Indexes.IndexIter>>)
    requires Indexes.Valid(indexes)
    ensures r.Ok? ==> Indexes.Valid(r.value.after) && Indexes.Size(r.value.after) <= Indexes.Size(indexes)
    ensures r.Ok? && r.value.item.Some? ==>
      r.value.item.value != current && Indexes.Size(r.value.after) < Indexes.Size(indexes)
    ensures r.Ok? && r.value.item.None? ==> Indexes.Size(r.value.after) == 0
    decreases Indexes.Size(indexes)
  {
    Indexes.HasNextIffSize(indexes);
    if !Indexes.HasNext(indexes) then Ok(Step(None, indexes))
    else
      match Indexes.Next(indexes)
      case Fail(e) => Fail(e)
      case Ok(s) =>
        if s.item.offsetFromStart != current then Ok(Step(Some(s.item.offsetFromStart), s.after))
        else FindNext(s.after, current)
  }

  /** A scan fails only when the remaining index does not parse, consumes
      nothing that parses badly, and finds exactly the next block of the
      reference order. */
  lemma {:induction false} FindNextRuns(indexes: Indexes.IndexIter, current: int)
    requires Indexes.Valid(indexes)
    ensures FindNext(indexes, current).Fail? ==> Indexes.Rest(indexes).Fail?
    ensures FindNext(indexes, current).Ok? ==>
      var s := FindNext(indexes, current).value;
      (Indexes.Rest(indexes).Ok? <==> Indexes.Rest(s.after).Ok?)
      && (Indexes.Rest(indexes).Ok? ==>
            Runs(Offsets(Indexes.Rest(indexes).value), current) == BlocksFrom(s.item, Indexes.Rest(s.after).value))
    decreases Indexes.Size(indexes)
  {
    Indexes.HasNextIffSize(indexes);
    if !Indexes.HasNext(indexes) {
      Indexes.RestOfEmpty(indexes);
    } else {
      var n := Indexes.Next(indexes);
      if n.Ok? {
        var e := n.value.item;
        var after := n.value.after;
        if Indexes.Rest(after).Ok? {
          OffsetsCons(e, Indexes.Rest(after).value);
        }
        if e.offsetFromStart == current {
          FindNextRuns(after, current);
        }
      }
    }
  }

  /* ---------- `IndexedDumpIterator` ---------- */

  /** The iterator's fields: the index being scanned, the offset of the
      block being read, the offset of the block to read next (null once the
      index is exhausted), and the pages iterator of the current block. */
  datatype DumpIter = DumpIter(
    indexes: Indexes.IndexIter,
    currentIndexOffset: int,
    nextIndexOffset: Option<int>,
    current: Pages.PagesIter)

  /** The next block differs from the current one, and there is no next
      block only once the index is exhausted. */
  predicate Valid(it: DumpIter) {
    Indexes.Valid(it.indexes)
    && (it.nextIndexOffset.None? ==> Indexes.Size(it.indexes) == 0)
    && (it.nextIndexOffset.Some? ==> it.nextIndexOffset.value != it.currentIndexOffset)
  }

  /** Index entries and pending block still to be consumed. */
  function Measure(it: DumpIter): nat
    requires Valid(it)
  {
    Indexes.Size(it.indexes) + (if it.nextIndexOffset.Some? then 1 else 0)
  }

  /** A `!!` on the result of a scan. */
  function Required(o: Option<int>): (r: Result<int>)
    ensures r.Ok? <==> o.Some?
    ensures r.Ok? ==> r.value == o.value
  {
    match o
    case None => Fail(MissingValue)
    case Some(v) => Ok(v)
  }

  /** The two offsets the constructor's scans find, and the index left
      after them. */
  datatype Start = Start(first: int, second: int, indexes: Indexes.IndexIter)

  /** The constructor's scans: the first runs while the current offset is
      still 0, the second must find a block other than the first; both
      results are `!!`-ed. */
  function StartScans(indexLines: seq<string>): (r: Result<Start>)
    ensures r.Ok? ==> Indexes.Valid(r.value.indexes) && r.value.first != 0 && r.value.second != r.value.first
  {
    var indexes :- Indexes.Open(indexLines);
    var first :- FindNext(indexes, 0);
    var currentOffset :- Required(first.item);
    var second :- FindNext(first.after, currentOffset);
    var nextOffset :- Required(second.item);
    Ok(Start(currentOffset, nextOffset, second.after))
  }

  /** The scans fail only when the index does not parse or names fewer than
      two blocks; otherwise they find the first two blocks of the reference
      order. */
  lemma StartScansRuns(indexLines: seq<string>)
    ensures StartScans(indexLines).Fail? ==>
      Indexes.ParseAll(indexLines).Fail? || |Runs(Offsets(Indexes.ParseAll(indexLines).value), 0)| < 2
    ensures StartScans(indexLines).Ok? ==>
      var st := StartScans(indexLines).value;
      (Indexes.ParseAll(indexLines).Ok? <==> Indexes.Rest(st.indexes).Ok?)
      && (Indexes.ParseAll(indexLines).Ok? ==>
            Runs(Offsets(Indexes.ParseAll(indexLines).value), 0)
            == [st.first] + ([st.second] + Runs(Offsets(Indexes.Rest(st.indexes).value), st.second)))
  {
    var o := Indexes.Open(indexLines);
    if o.Fail? {
      assert |indexLines| > 0;
      Indexes.ParseAllFails(indexLines);
    } else {
      FindNextRuns(o.value, 0);
      var first := FindNext(o.value, 0);
      if first.Ok? && first.value.item.Some? {
        FindNextRuns(first.value.after, first.value.item.value);
      }
    }
  }

  /** Construction: the scans, then the first block is opened and its first
      page parsed. */
  function Open(archive: Pages.Archive, indexLines: seq<string>): (r: Result<DumpIter>)
    ensures r.Ok? ==> Valid(r.value) && r.value.nextIndexOffset.Some?
    ensures r.Ok? ==> r.value.current.readPagesCounter == 0 && r.value.current.nextPage.Some?
    ensures r.Ok? ==> r.value.currentIndexOffset != 0
  {
    var st :- StartScans(indexLines);
    var block :- Pages.OpenBlock(archive, st.first);
    var pages :- Pages.Open(block);
    Ok(DumpIter(st.indexes, st.first, Some(st.second), pages))
  }

  /** `hasNext`: the current block has a page to give, or another block is
      still to come. */
  predicate HasNext(it: DumpIter) {
    Pages.HasNext(it.current) || it.nextIndexOffset.Some?
  }

  /** `refresh`: open the next block (`!!`), make it current and scan the
      index for the block after it. */
  function Refresh(archive: Pages.Archive, it: DumpIter): (r: Result<DumpIter>)
    requires Valid(it)
    ensures r.Ok? <==> (it.nextIndexOffset.Some?
                        && Pages.BlockPages(archive, it.nextIndexOffset.value).Ok?
                        && FindNext(it.indexes, it.nextIndexOffset.value).Ok?)
    ensures r.Ok? ==> Valid(r.value) && Measure(r.value) < Measure(it)
    ensures r.Ok? ==> r.value.currentIndexOffset == it.nextIndexOffset.value
    ensures r.Ok? ==> r.value.current.readPagesCounter == 0 && r.value.current.nextPage.Some?
  {
    match it.nextIndexOffset
    case None => Fail(MissingValue)
    case Some(offset) =>
      match Pages.OpenBlock(archive, offset)
      case Fail(e) => Fail(e)
      case Ok(block) =>
        match Pages.Open(block)
        case Fail(e) => Fail(e)
        case Ok(pages) =>
          match FindNext(it.indexes, offset)
          case Fail(e) => Fail(e)
          case Ok(s) => Ok(DumpIter(s.after, offset, s.item, pages))
  }

  /** `next`: a page of the current block while it has one; otherwise the
      next block is opened first. The block changes only when the current
      one is exhausted, and calling `next` when `hasNext` is false fails. */
  function Next(archive: Pages.Archive, it: DumpIter): (r: Result<Step<Pages.WikiPage, DumpIter>>)
    requires Valid(it)
    ensures !HasNext(it) ==> r.Fail?
    ensures Pages.HasNext(it.current) ==>
      r.Ok? && r.value.after.indexes == it.indexes
      && r.value.after.currentIndexOffset == it.currentIndexOffset
      && r.value.after.nextIndexOffset == it.nextIndexOffset
    ensures r.Ok? && !Pages.HasNext(it.current) ==>
      it.nextIndexOffset.Some? && r.value.after.currentIndexOffset == it.nextIndexOffset.value
    ensures r.Ok? ==> Valid(r.value.after)
    ensures r.Ok? ==>
      Measure(r.value.after) < Measure(it)
      || (Measure(r.value.after) == Measure(it)
          && Pages.PagesLeft(r.value.after.current) < Pages.PagesLeft(it.current))
  {
    if Pages.HasNext(it.current) then
      var s := Pages.Next(it.current).value;
      Ok(Step(s.item, it.(current := s.after)))
    else
      match Refresh(archive, it)
      case Fail(e) => Fail(e)
      case Ok(refreshed) =>
        var s := Pages.Next(refreshed.current).value;
        Ok(Step(s.item, refreshed.(current := s.after)))
  }

  /** Every page the iterator returns until `hasNext` is false, or the
      failure that stops it. */
  function Drain(archive: Pages.Archive, it: DumpIter): Result<seq<Pages.WikiPage>>
    requires Valid(it)
    decreases Measure(it), Pages.PagesLeft(it.current)
  {
    if !HasNext(it) then Ok([])
    else
      match Next(archive, it)
      case Fail(e) => Fail(e)
      case Ok(s) =>
        match Drain(archive, s.after)
        case Fail(e) => Fail(e)
        case Ok(tail) => Ok([s.item] + tail)
  }

  /** The pages of the blocks still to come after the current one, by the
      reference reading: `next` and then the blocks the unread index names. */
  function Upcoming(archive: Pages.Archive, indexes: Indexes.IndexIter, next: Option<int>): Result<seq<Pages.WikiPage>>
    requires Indexes.Valid(indexes)
  {
    match Indexes.Rest(indexes)
    case Fail(e) => Fail(e)
    case Ok(es) => Walk(archive, BlocksFrom(next, es))
  }

  /** What is left from a state, by the reference reading: the rest of the
      current block, then every block still to come. */
  function Remaining(archive: Pages.Archive, it: DumpIter): Result<seq<Pages.WikiPage>>
    requires Valid(it)
  {
    match Upcoming(archive, it.indexes, it.nextIndexOffset)
    case Fail(e) => Fail(e)
    case Ok(tail) => Ok(Pages.Drain(it.current) + tail)
  }

  /** A walk over `[o] + bs` is the pages of block `o` then the walk over `bs`. */
  lemma WalkCons(archive: Pages.Archive, o: int, bs: seq<int>)
    ensures Walk(archive, [o] + bs).Ok? <==> Pages.BlockPages(archive, o).Ok? && Walk(archive, bs).Ok?
    ensures Walk(archive, [o] + bs).Ok? ==>
      Walk(archive, [o] + bs).value == Pages.BlockPages(archive, o).value + Walk(archive, bs).value
  {
    assert ([o] + bs)[1..] == bs;
  }

  /** Once `hasNext` is false nothing remains. */
  lemma RemainingAtEnd(archive: Pages.Archive, it: DumpIter)
    requires Valid(it) && !HasNext(it)
    ensures Remaining(archive, it) == Ok([])
  {
    Indexes.RestOfEmpty(it.indexes);
  }

  /** A step inside the current block takes its first remaining page. */
  lemma RemainingSameBlock(archive: Pages.Archive, it: DumpIter, p: Step<Pages.WikiPage, Pages.PagesIter>)
    requires Valid(it) && Pages.HasNext(it.current) && Pages.Next(it.current) == Ok(p)
    ensures Remaining(archive, it).Ok? <==> Remaining(archive, it.(current := p.after)).Ok?
    ensures Remaining(archive, it).Ok? ==>
      Remaining(archive, it).value == [p.item] + Remaining(archive, it.(current := p.after)).value
  {
    DrainStep(it.current, p);
    var u := Upcoming(archive, it.indexes, it.nextIndexOffset);
    if u.Ok? {
      ConsAssoc(p.item, Pages.Drain(p.after), u.value);
    }
  }

  lemma ConsAssoc<T>(x: T, a: seq<T>, b: seq<T>)
    ensures ([x] + a) + b == [x] + (a + b)
  {
  }

  lemma DrainStep(c: Pages.PagesIter, p: Step<Pages.WikiPage, Pages.PagesIter>)
    requires Pages.HasNext(c) && Pages.Next(c) == Ok(p)
    ensures Pages.Drain(c) == [p.item] + Pages.Drain(p.after)
  {
  }

  /** A step that opens the next block takes that block's first page; it
      fails only when the reference reading of what remains fails. */
  lemma RemainingNewBlock(archive: Pages.Archive, it: DumpIter)
    requires Valid(it) && !Pages.HasNext(it.current) && it.nextIndexOffset.Some?
    ensures Next(archive, it).Fail? ==> Remaining(archive, it).Fail?
    ensures Next(archive, it).Ok? ==>
      var s := Next(archive, it).value;
      (Remaining(archive, it).Ok? <==> Remaining(archive, s.after).Ok?)
      && (Remaining(archive, it).Ok? ==> Remaining(archive, it).value == [s.item] + Remaining(archive, s.after).value)
  {
    var o := it.nextIndexOffset.value;
    FindNextRuns(it.indexes, o);
    var es := Indexes.Rest(it.indexes);
    if es.Ok? {
      WalkCons(archive, o, Runs(Offsets(es.value), o));
    }
    assert Pages.Drain(it.current) == [];
    if Refresh(archive, it).Ok? {
      RefreshedBlockStep(archive, it);
      var s := Next(archive, it).value;
      if es.Ok? {
        var w := Walk(archive, Runs(Offsets(es.value), o));
        if w.Ok? {
          ConsAssoc(s.item, Pages.Drain(s.after.current), w.value);
          assert [] + (Pages.BlockPages(archive, o).value + w.value) == Pages.BlockPages(archive, o).value + w.value;
        }
      }
    }
  }

  /** The step of `RemainingNewBlock` once the refresh has opened the next
      block: the new block's first page, then what the refreshed iterator
      leaves. */
  lemma RefreshedBlockStep(archive: Pages.Archive, it: DumpIter)
    requires Valid(it) && !Pages.HasNext(it.current) && it.nextIndexOffset.Some?
    requires Refresh(archive, it).Ok?
    ensures Next(archive, it).Ok?
    ensures Pages.BlockPages(archive, it.nextIndexOffset.value).Ok?
    ensures Pages.BlockPages(archive, it.nextIndexOffset.value).value
      == [Next(archive, it).value.item] + Pages.Drain(Next(archive, it).value.after.current)
  {
    var o := it.nextIndexOffset.value;
    var r := Refresh(archive, it);
    var block := Pages.OpenBlock(archive, o).value;
    Pages.DrainOpen(block, r.value.current);
    var p := Pages.Next(r.value.current).value;
    DrainStep(r.value.current, p);
    assert Next(archive, it) == Ok(Step(p.item, r.value.(current := p.after)));
  }

  /** From any state, iterating to the end gives what the reference reading
      leaves, and fails exactly when it does. */
  lemma {:induction false} DrainIsRemaining(archive: Pages.Archive, it: DumpIter)
    requires Valid(it)
    ensures Drain(archive, it).Ok? <==> Remaining(archive, it).Ok?
    ensures Drain(archive, it).Ok? ==> Drain(archive, it).value == Remaining(archive, it).value
    decreases Measure(it), Pages.PagesLeft(it.current)
  {
    if !HasNext(it) {
      RemainingAtEnd(archive, it);
    } else {
      if Pages.HasNext(it.current) {
        var p := Pages.Next(it.current).value;
        RemainingSameBlock(archive, it, p);
        assert Next(archive, it) == Ok(Step(p.item, it.(current := p.after)));
      } else {
        RemainingNewBlock(archive, it);
      }
      var n := Next(archive, it);
      if n.Ok? {
        DrainIsRemaining(archive, n.value.after);
      }
    }
  }

  /** The reference reading of a whole multistream dump: the index parsed
      line by line, its blocks in reference order (at least two are
      required), and the pages of each block in turn. */
  function ReadDump(archive: Pages.Archive, indexLines: seq<string>): Result<seq<Pages.WikiPage>> {
    match Indexes.ParseAll(indexLines)
    case Fail(e) => Fail(e)
    case Ok(es) =>
      var blocks := Runs(Offsets(es), 0);
      if |blocks| < 2 then Fail(MissingValue) else Walk(archive, blocks)
  }

  /** Construction followed by iteration to the end. */
  function RunDump(archive: Pages.Archive, indexLines: seq<string>): Result<seq<Pages.WikiPage>> {
    match Open(archive, indexLines)
    case Fail(e) => Fail(e)
    case Ok(it) => Drain(archive, it)
  }

  /** Construction fails only when the reference reading does, and leaves
      exactly the reference reading to come. */
  lemma OpenLeavesReadDump(archive: Pages.Archive, indexLines: seq<string>)
    ensures Open(archive, indexLines).Fail? ==> ReadDump(archive, indexLines).Fail?
    ensures Open(archive, indexLines).Ok? ==>
      (Remaining(archive, Open(archive, indexLines).value).Ok? <==> ReadDump(archive, indexLines).Ok?)
    ensures Open(archive, indexLines).Ok? && ReadDump(archive, indexLines).Ok? ==>
      Remaining(archive, Open(archive, indexLines).value).value == ReadDump(archive, indexLines).value
  {
    StartScansRuns(indexLines);
    var st := StartScans(indexLines);
    if st.Ok? {
      var c, n := st.value.first, st.value.second;
      var rest := Indexes.Rest(st.value.indexes);
      if rest.Ok? {
        WalkCons(archive, c, [n] + Runs(Offsets(rest.value), n));
      }
      var r := Open(archive, indexLines);
      if r.Ok? {
        assert r.value == DumpIter(st.value.indexes, c, Some(n), r.value.current);
        Pages.DrainOpen(Pages.OpenBlock(archive, c).value, r.value.current);
      }
    }
  }

  /** Iterating an `IndexedDumpIterator` to the end yields the pages of
      every block the index names, each block once per run of equal
      offsets, in index order; it fails exactly when the reference reading
      does (an index line that does not parse, fewer than two distinct
      blocks, or a block that does not open). */
  lemma IteratorReadsDump(archive: Pages.Archive, indexLines: seq<string>)
    ensures RunDump(archive, indexLines).Ok? <==> ReadDump(archive, indexLines).Ok?
    ensures ReadDump(archive, indexLines).Ok? ==> RunDump(archive, indexLines).value == ReadDump(archive, indexLines).value
  {
    OpenLeavesReadDump(archive, indexLines);
    var r := Open(archive, indexLines);
    if r.Ok? {
      DrainIsRemaining(archive, r.value);
    }
  }

  /** `hasNext` holds exactly when a page is still to come or the rest of
      the dump fails to read: a pending block missing from the archive, or
      one whose first page does not parse, still answers `hasNext`. */
  lemma HasNextIffPagesRemain(archive: Pages.Archive, it: DumpIter)
    requires Valid(it)
    ensures HasNext(it) <==> Remaining(archive, it).Fail? || |Remaining(archive, it).value| > 0
  {
    if !HasNext(it) {
      RemainingAtEnd(archive, it);
    } else if Remaining(archive, it).Ok? {
      PagesRemainWhileReading(archive, it);
    }
  }

  /** While the reference reading succeeds, `hasNext` says exactly whether
      pages remain. */
  lemma PagesRemainWhileReading(archive: Pages.Archive, it: DumpIter)
    requires Valid(it) && Remaining(archive, it).Ok?
    ensures HasNext(it) <==> |Remaining(archive, it).value| > 0
  {
    var es := Indexes.Rest(it.indexes).value;
    var blocks := BlocksFrom(it.nextIndexOffset, es);
    WalkOk(archive, blocks);
    if it.nextIndexOffset.Some? {
      var b := Pages.OpenBlock(archive, blocks[0]).value;
      Pages.DrainOpen(b, Pages.Open(b).value);
    } else if !Pages.HasNext(it.current) {
      Indexes.RestOfEmpty(it.indexes);
    }
  }

  /* ---------- `UnpackedDumpIterator` ---------- */

  const SITEINFO_CLOSE := "</siteinfo>"

  /** Construction skips the header up to the line ending with
      `</siteinfo>` and hands the rest to a pages iterator, which parses the
      first page at once; `hasNext` and `next` are the pages iterator's. */
  function OpenUnpacked(lines: seq<string>): (r: Result<Pages.PagesIter>)
    ensures r.Ok? <==> (Pages.SkipToLineEndingAs(lines, SITEINFO_CLOSE).Ok?
                        && Pages.ReadPage(Pages.SkipToLineEndingAs(lines, SITEINFO_CLOSE).value).Ok?)
  {
    var body :- Pages.SkipToLineEndingAs(lines, SITEINFO_CLOSE);
    Pages.Open(body)
  }

  /** An unpacked dump `header + body`, whose header's last line is the
      first to end with `</siteinfo>`, yields the pages of `body` as a
      block would: at most `MAX_PAGES_PER_STREAM` of them. */
  lemma UnpackedReadsBody(header: seq<string>, body: seq<string>)
    requires |header| > 0 && Pages.LineEndsWith(header[|header| - 1], SITEINFO_CLOSE)
    requires forall k :: 0 <= k < |header| - 1 ==> !Pages.LineEndsWith(header[k], SITEINFO_CLOSE)
    ensures OpenUnpacked(header + body) == Pages.Open(body)
    ensures OpenUnpacked(header + body).Ok? ==>
      Pages.Drain(OpenUnpacked(header + body).value) == Pages.ParsePages(body, Pages.MAX_PAGES_PER_STREAM)
  {
    Pages.SkipPastPrefix(header[..|header| - 1], [header[|header| - 1]] + body, SITEINFO_CLOSE);
    assert header + body == header[..|header| - 1] + ([header[|header| - 1]] + body);
    var r := OpenUnpacked(header + body);
    if r.Ok? {
      Pages.DrainOpen(body, r.value);
    }
  }
}

=== FILE: indexes.dfy ===
/** The multistream index file: one `offset:id:title` line per page
    (`WikiPageIndex`, `IndexesIterator`). The same definitions serve the
    package-level and the `xml` copies of the reader, which are identical. */
module Indexes {
  import opened Results
  import opened KString
  import opened Numbers
  import LineSource

  /** One index entry: the byte offset of the compressed block holding the
      page, the page id and its title. */
  datatype WikiPageIndex = WikiPageIndex(offsetFromStart: int, id: int, title: string)

  function LongOrFail(s: string): Result<int> {
    match ParseLong(s)
    case None => Fail(NotANumber)
    case Some(v) => Ok(v)
  }

  /** The three parts of an index line located by its first two colons: the
      text before the first colon, the text between the first and the second
      (or the rest of the line when there is no second colon), and the text
      after the second colon (empty when there is none). `None` when the line
      has no colon at all. */
  function ColonFields(line: string): Option<(string, string, string)> {
    match IndexOf(line, ":")
    case None => None
    case Some(i) =>
      var tail := line[i + 1..];
      match IndexOf(tail, ":")
      case None => Some((line[..i], tail, ""))
      case Some(j) => Some((line[..i], tail[..j], tail[j + 1..]))
  }

  /** `readIndexInternal` on one line: split on every `:`, field 0 is the
      offset, field 1 the id (both `toLong()`), and fields 2.. rejoined
      with `:` are the title. */
  function ParseIndexLine(line: string): Result<WikiPageIndex> {
    var fields := Split(line, ":");
    var offset :- LongOrFail(fields[0]);
    if |fields| < 2 then Fail(IndexOutOfRange)
    else
      var id :- LongOrFail(fields[1]);
      Ok(WikiPageIndex(offset, id, Join(fields[2..], ":")))
  }

  /** A line parses exactly when it has a colon and the texts before its
      first colon and between its first two colons are Longs; the title is
      everything after the second colon, colons included. */
  lemma ParseIndexLineFields(line: string)
    ensures ParseIndexLine(line).Ok? <==>
      ColonFields(line).Some?
      && ParseLong(ColonFields(line).value.0).Some?
      && ParseLong(ColonFields(line).value.1).Some?
    ensures ParseIndexLine(line).Ok? ==>
      var f := ColonFields(line).value;
      ParseIndexLine(line).value == WikiPageIndex(ParseLong(f.0).value, ParseLong(f.1).value, f.2)
  {
    SplitByColonFields(line);
  }

  /** The `split(':')` fields agree with the colon positions. */
  lemma SplitByColonFields(line: string)
    ensures var fields := Split(line, ":");
      match ColonFields(line)
      case None => fields == [line]
      case Some(f) =>
        |fields| >= 2 && fields[0] == f.0 && fields[1] == f.1 && Join(fields[2..], ":") == f.2
  {
    var fields := Split(line, ":");
    match IndexOf(line, ":")
    case None =>
    case Some(i) =>
      assert line == line[..i] + ":" + line[i + 1..];
      var tail := line[i + 1..];
      assert fields == [line[..i]] + Split(tail, ":");
      match IndexOf(tail, ":")
      case None =>
        assert fields == [line[..i], tail];
        assert fields[2..] == [];
      case Some(j) =>
        assert Split(tail, ":") == [tail[..j]] + Split(tail[j + 1..], ":");
        assert fields[2..] == Split(tail[j + 1..], ":");
  }

  /** The index line of an entry, as the dump producer writes it. */
  function RenderIndexLine(e: WikiPageIndex): string {
    ShowInt(e.offsetFromStart) + ":" + ShowInt(e.id) + ":" + e.title
  }

  lemma NoColonInNumber(n: int)
    ensures !Contains(ShowInt(n), ":")
  {
    NoHeadCharNoOccurrence(ShowInt(n), ":");
  }

  /** `o:i:t` with `o` and `i` rendered Longs parses back to `(o, i, t)`;
      the title is kept whole, colons included. */
  lemma ParseRenderedIndexLine(e: WikiPageIndex)
    requires LONG_MIN <= e.offsetFromStart <= LONG_MAX
    requires LONG_MIN <= e.id <= LONG_MAX
    ensures ParseIndexLine(RenderIndexLine(e)) == Ok(e)
  {
    var o := ShowInt(e.offsetFromStart);
    var i := ShowInt(e.id);
    var line := RenderIndexLine(e);
    NoColonInNumber(e.offsetFromStart);
    NoColonInNumber(e.id);
    assert line == o + ":" + (i + ":" + e.title);
    IndexOfAfterPrefix(o, ":", i + ":" + e.title);
    assert line[..|o|] == o;
    var tail := line[|o| + 1..];
    assert tail == i + ":" + e.title;
    IndexOfAfterPrefix(i, ":", e.title);
    assert tail[..|i|] == i;
    assert tail[|i| + 1..] == e.title;
    ParseShowLong(e.offsetFromStart);
    ParseShowLong(e.id);
    ParseIndexLineFields(line);
  }

  /** A line with exactly two fields gives an empty title. */
  lemma TwoFieldLine(offset: int, id: int)
    requires LONG_MIN <= offset <= LONG_MAX && LONG_MIN <= id <= LONG_MAX
    ensures ParseIndexLine(ShowInt(offset) + ":" + ShowInt(id)) == Ok(WikiPageIndex(offset, id, ""))
  {
    var o := ShowInt(offset);
    var i := ShowInt(id);
    var line := o + ":" + i;
    NoColonInNumber(offset);
    NoColonInNumber(id);
    IndexOfAfterPrefix(o, ":", i);
    assert line[..|o|] == o;
    assert line[|o| + 1..] == i;
    ParseShowLong(offset);
    ParseShowLong(id);
    ParseIndexLineFields(line);
  }

  /** A line without a colon (a single field) is rejected. */
  lemma OneFieldLineFails(line: string)
    requires !Contains(line, ":")
    ensures ParseIndexLine(line).Fail?
  {
    IndexOfIsFirst(line, ":");
    ParseIndexLineFields(line);
  }

  /** The reference reading of a whole index file: one entry per line, in
      file order, failing at the first line that does not parse. */
  function ParseAll(lines: seq<string>): (r: Result<seq<WikiPageIndex>>)
    ensures r.Ok? ==> |r.value| == |lines|
    decreases |lines|
  {
    if |lines| == 0 then Ok([])
    else
      match ParseIndexLine(lines[0])
      case Fail(err) => Fail(err)
      case Ok(e) =>
        match ParseAll(lines[1..])
        case Fail(err) => Fail(err)
        case Ok(tail) => Ok([e] + tail)
  }

  /** Entry `k` of a successful reading is line `k` parsed. */
  lemma {:induction false} ParseAllLine(lines: seq<string>, k: nat)
    requires k < |lines| && ParseAll(lines).Ok?
    ensures ParseIndexLine(lines[k]) == Ok(ParseAll(lines).value[k])
    decreases k
  {
    if k > 0 {
      ParseAllLine(lines[1..], k - 1);
      assert lines[1..][k - 1] == lines[k];
    }
  }

  /** The whole reading fails exactly when some line does not parse. */
  lemma ParseAllFails(lines: seq<string>)
    ensures ParseAll(lines).Fail? <==> exists k :: 0 <= k < |lines| && ParseIndexLine(lines[k]).Fail?
  {
    if ParseAll(lines).Fail? {
      var k := FailingLine(lines);
    } else {
      forall k | 0 <= k < |lines| ensures ParseIndexLine(lines[k]).Ok? {
        ParseAllLine(lines, k);
      }
    }
  }

  /** A failed reading names the line that did not parse. */
  lemma {:induction false} FailingLine(lines: seq<string>) returns (k: nat)
    requires ParseAll(lines).Fail?
    ensures k < |lines| && ParseIndexLine(lines[k]).Fail?
    decreases |lines|
  {
    if ParseIndexLine(lines[0]).Fail? {
      k := 0;
    } else {
      var j := FailingLine(lines[1..]);
      k := j + 1;
      assert lines[1..][j] == lines[k];
    }
  }

  /** `IndexesIterator`: the line reader and the entry parsed ahead. */
  datatype IndexIter = IndexIter(reader: LineSource.LineIter, pending: Option<WikiPageIndex>)

  /** The entry slot is empty only once the reader is exhausted. */
  predicate Valid(it: IndexIter) {
    LineSource.Valid(it.reader) && (it.pending.None? ==> !LineSource.HasNext(it.reader))
  }

  /** How many entries are still to come. */
  function Size(it: IndexIter): nat
    requires Valid(it)
  {
    |LineSource.Remaining(it.reader)| + (if it.pending.Some? then 1 else 0)
  }

  /** The entries still to come, as the reference reading gives them. */
  function Rest(it: IndexIter): Result<seq<WikiPageIndex>>
    requires Valid(it)
  {
    var tail :- ParseAll(LineSource.Remaining(it.reader));
    Ok((if it.pending.Some? then [it.pending.value] else []) + tail)
  }

  /** `readIndexInternal`: null at end of input, otherwise the next line
      parsed; a parse failure propagates. */
  function ReadIndexInternal(reader: LineSource.LineIter): (r: Result<Step<Option<WikiPageIndex>, LineSource.LineIter>>)
    requires LineSource.Valid(reader)
    ensures r.Ok? ==> Valid(IndexIter(r.value.after, r.value.item))
    ensures r.Ok? ==> Size(IndexIter(r.value.after, r.value.item)) == |LineSource.Remaining(reader)|
    ensures r.Ok? <==> !LineSource.HasNext(reader) || ParseIndexLine(LineSource.Remaining(reader)[0]).Ok?
    ensures r.Ok? ==> (ParseAll(LineSource.Remaining(reader)) == Rest(IndexIter(r.value.after, r.value.item)))
  {
    if LineSource.HasNext(reader) then
      var s := LineSource.Next(reader).value;
      var e :- ParseIndexLine(s.item);
      var rem := LineSource.Remaining(reader);
      assert rem == [s.item] + rem[1..];
      Ok(Step(Some(e), s.after))
    else
      Ok(Step(None, reader))
  }

  /** The constructor parses the first line ahead. */
  function Open(lines: seq<string>): (r: Result<IndexIter>)
    ensures r.Ok? ==> Valid(r.value) && Size(r.value) == |lines| && Rest(r.value) == ParseAll(lines)
    ensures |lines| > 0 ==> (r.Ok? <==> ParseIndexLine(lines[0]).Ok?)
    ensures |lines| == 0 ==> r == Ok(IndexIter(LineSource.Open([]), None))
  {
    var s :- ReadIndexInternal(LineSource.Open(lines));
    Ok(IndexIter(s.after, s.item))
  }

  /** `hasNext`: an entry is pending. */
  predicate HasNext(it: IndexIter) {
    it.pending.Some?
  }

  lemma HasNextIffSize(it: IndexIter)
    requires Valid(it)
    ensures HasNext(it) <==> Size(it) > 0
  {
    LineSource.HasNextIffRemaining(it.reader);
  }

  /** An iterator with nothing left has nothing left to read. */
  lemma RestOfEmpty(it: IndexIter)
    requires Valid(it) && Size(it) == 0
    ensures Rest(it) == Ok([])
  {
    assert LineSource.Remaining(it.reader) == [];
  }

  /** `next()`: returns the pending entry and parses the following line,
      advancing exactly one line; a parse failure propagates. */
  function Next(it: IndexIter): (r: Result<Step<WikiPageIndex, IndexIter>>)
    requires Valid(it)
    ensures !HasNext(it) ==> r.Fail?
    ensures r.Ok? ==> Some(r.value.item) == it.pending
    ensures r.Ok? ==> Valid(r.value.after) && Size(r.value.after) + 1 == Size(it)
    ensures r.Ok? ==> Rest(it) == (var t :- Rest(r.value.after); Ok([r.value.item] + t))
    ensures HasNext(it) && r.Fail? ==> Rest(it).Fail?
  {
    match it.pending
    case None => Fail(MissingValue)
    case Some(e) =>
      var s :- ReadIndexInternal(it.reader);
      Ok(Step(e, IndexIter(s.after, s.item)))
  }

  /** Every entry the iterator returns until `hasNext` is false, or the
      failure that stops it. */
  function Drain(it: IndexIter): Result<seq<WikiPageIndex>>
    requires Valid(it)
    decreases Size(it)
  {
    if !HasNext(it) then Ok([])
    else
      var s :- Next(it);
      var tail :- Drain(s.after);
      Ok([s.item] + tail)
  }

  lemma {:induction false} DrainIsRest(it: IndexIter)
    requires Valid(it)
    ensures Drain(it).Ok? <==> Rest(it).Ok?
    ensures Drain(it).Ok? ==> Drain(it).value == Rest(it).value
    decreases Size(it)
  {
    HasNextIffSize(it);
    if HasNext(it) {
      var r := Next(it);
      if r.Ok? {
        DrainIsRest(r.value.after);
      }
    } else {
      LineSource.HasNextIffRemaining(it.reader);
    }
  }

  /** Reading an index file through the iterator yields one entry per line
      in file order (so as many entries as lines), and fails exactly when
      some line does not parse. */
  lemma ReadWholeIndex(lines: seq<string>)
    ensures (var it :- Open(lines); Drain(it)).Ok? <==> ParseAll(lines).Ok?
    ensures ParseAll(lines).Ok? ==>
      var d := (var it :- Open(lines); Drain(it));
      d.Ok? && d.value == ParseAll(lines).value && |d.value| == |lines|
  {
    var o := Open(lines);
    if o.Ok? {
      DrainIsRest(o.value);
    }
  }
}

=== FILE: kstrings.dfy ===
/** Kotlin's string operations as the parsers use them.

    `substringAfter`, `substringBefore` and `substringBeforeLast` return the
    whole string when the delimiter is missing; `substring(n)` fails when
    n exceeds the length; `split` keeps every field, empty ones included. */
module KString {
  import opened Results

  /** `d` occurs in `s` starting at index `j`. */
  predicate OccursAt(s: string, d: string, j: int) {
    0 <= j && j + |d| <= |s| && s[j..j + |d|] == d
  }

  /** `d` occurs somewhere in `s`. */
  ghost predicate Contains(s: string, d: string) {
    exists j :: OccursAt(s, d, j)
  }

  /** The first character of `d` does not reappear later in `d`, so two
      occurrences of `d` can never overlap. True of every delimiter the
      parsers use except `','`. */
  predicate HeadUnique(d: string) {
    |d| > 0 && forall k :: 1 <= k < |d| ==> d[k] != d[0]
  }

  predicate StartsWith(s: string, prefix: string) {
    |prefix| <= |s| && s[..|prefix|] == prefix
  }

  predicate EndsWith(s: string, suffix: string) {
    |suffix| <= |s| && s[|s| - |suffix|..] == suffix
  }

  lemma OccursInTail(s: string, d: string, j: int)
    requires |s| > 0 && 0 <= j
    ensures OccursAt(s[1..], d, j) <==> OccursAt(s, d, j + 1)
  {
    if 0 <= j && j + |d| <= |s| - 1 {
      assert s[1..][j..j + |d|] == s[j + 1..j + 1 + |d|];
    }
  }

  lemma OccursInFront(s: string, d: string, j: int)
    requires |s| > 0
    ensures OccursAt(s[..|s| - 1], d, j) <==> (OccursAt(s, d, j) && j + |d| < |s|)
  {
    if 0 <= j && j + |d| <= |s| - 1 {
      assert s[..|s| - 1][j..j + |d|] == s[j..j + |d|];
    }
  }

  /** `String.indexOf`: the first index at which `d` occurs. */
  function IndexOf(s: string, d: string): (r: Option<nat>)
    ensures r.Some? ==> OccursAt(s, d, r.value)
    decreases |s|
  {
    if |s| < |d| then None
    else if s[..|d|] == d then Some(0)
    else
      match IndexOf(s[1..], d)
      case None => None
      case Some(k) =>
        OccursInTail(s, d, k);
        Some(k + 1)
  }

  /** `IndexOf` finds the first occurrence, and finds none exactly when
      there is none. */
  lemma {:induction false} IndexOfIsFirst(s: string, d: string)
    ensures IndexOf(s, d).Some? ==> forall j :: 0 <= j < IndexOf(s, d).value ==> !OccursAt(s, d, j)
    ensures IndexOf(s, d).None? <==> forall j :: !OccursAt(s, d, j)
    decreases |s|
  {
    if |s| < |d| {
    } else if s[..|d|] == d {
      assert OccursAt(s, d, 0);
    } else {
      IndexOfIsFirst(s[1..], d);
      assert !OccursAt(s, d, 0);
      forall j | 1 <= j ensures OccursAt(s[1..], d, j - 1) <==> OccursAt(s, d, j) {
        OccursInTail(s, d, j - 1);
      }
      if IndexOf(s[1..], d).Some? {
        OccursInTail(s, d, IndexOf(s[1..], d).value);
      }
    }
  }

  /** An occurrence with none before it is the one `indexOf` finds. */
  lemma IndexOfAt(s: string, d: string, i: nat)
    requires OccursAt(s, d, i)
    requires forall j :: 0 <= j < i ==> !OccursAt(s, d, j)
    ensures IndexOf(s, d) == Some(i)
  {
    IndexOfIsFirst(s, d);
    assert IndexOf(s, d).Some?;
  }

  /** `String.lastIndexOf`: the last index at which `d` occurs. */
  function LastIndexOf(s: string, d: string): (r: Option<nat>)
    ensures r.Some? ==> OccursAt(s, d, r.value)
    decreases |s|
  {
    if |s| < |d| then None
    else if s[|s| - |d|..] == d then
      assert OccursAt(s, d, |s| - |d|);
      Some(|s| - |d|)
    else
      var r := LastIndexOf(s[..|s| - 1], d);
      if r.Some? then OccursInFront(s, d, r.value); r else r
  }

  /** `LastIndexOf` finds the last occurrence, and finds none exactly when
      there is none. */
  lemma {:induction false} LastIndexOfIsLast(s: string, d: string)
    ensures LastIndexOf(s, d).Some? ==> forall j :: LastIndexOf(s, d).value < j ==> !OccursAt(s, d, j)
    ensures LastIndexOf(s, d).None? <==> forall j :: !OccursAt(s, d, j)
    decreases |s|
  {
    if |s| < |d| {
    } else if s[|s| - |d|..] == d {
      assert OccursAt(s, d, |s| - |d|);
    } else {
      LastIndexOfIsLast(s[..|s| - 1], d);
      forall j ensures OccursAt(s[..|s| - 1], d, j) <==> OccursAt(s, d, j) {
        OccursInFront(s, d, j);
      }
    }
  }

  /** An occurrence with none after it is the one `lastIndexOf` finds. */
  lemma LastIndexOfAt(s: string, d: string, i: nat)
    requires OccursAt(s, d, i)
    requires forall j :: i < j ==> !OccursAt(s, d, j)
    ensures LastIndexOf(s, d) == Some(i)
  {
    LastIndexOfIsLast(s, d);
    assert LastIndexOf(s, d).Some?;
  }

  /** `s.substringAfter(d)`: the text after the first occurrence of `d`. */
  function SubstringAfter(s: string, d: string): (r: string)
    ensures IndexOf(s, d).None? ==> r == s
    ensures IndexOf(s, d).Some? ==> s == s[..IndexOf(s, d).value] + d + r
  {
    match IndexOf(s, d)
    case None => s
    case Some(i) => s[i + |d|..]
  }

  /** `s.substringBefore(d)`: the text before the first occurrence of `d`. */
  function SubstringBefore(s: string, d: string): (r: string)
    ensures IndexOf(s, d).None? ==> r == s
    ensures IndexOf(s, d).Some? ==> r == s[..IndexOf(s, d).value] && StartsWith(s, r + d)
  {
    match IndexOf(s, d)
    case None => s
    case Some(i) =>
      assert s[..i + |d|] == s[..i] + d;
      s[..i]
  }

  /** `s.substringBeforeLast(d)`: the text before the last occurrence of `d`. */
  function SubstringBeforeLast(s: string, d: string): (r: string)
    ensures LastIndexOf(s, d).None? ==> r == s
    ensures LastIndexOf(s, d).Some? ==> r == s[..LastIndexOf(s, d).value] && StartsWith(s, r + d)
  {
    match LastIndexOf(s, d)
    case None => s
    case Some(i) =>
      assert s[..i + |d|] == s[..i] + d;
      s[..i]
  }

  /** `s.substring(n)`: fails with an index error when n exceeds the length. */
  function Substring(s: string, n: nat): (r: Result<string>)
    ensures r.Ok? <==> n <= |s|
    ensures r.Ok? ==> s == s[..n] + r.value
  {
    if n <= |s| then Ok(s[n..]) else Fail(IndexOutOfRange)
  }

  /** Kotlin's `Char.isWhitespace()` on the JVM: Java's `isWhitespace` or
      `isSpaceChar`. */
  predicate IsWhitespace(c: char) {
    var n := c as int;
    (9 <= n <= 13) || (28 <= n <= 32) || n == 0xA0 || n == 0x1680
    || (0x2000 <= n <= 0x200A) || n == 0x2028 || n == 0x2029
    || n == 0x202F || n == 0x205F || n == 0x3000
  }

  function TrimStart(s: string): string
    decreases |s|
  {
    if |s| > 0 && IsWhitespace(s[0]) then TrimStart(s[1..]) else s
  }

  function TrimEnd(s: string): string
    decreases |s|
  {
    if |s| > 0 && IsWhitespace(s[|s| - 1]) then TrimEnd(s[..|s| - 1]) else s
  }

  /** `String.trim()`: drops whitespace from both ends. */
  function Trim(s: string): string {
    TrimEnd(TrimStart(s))
  }

  /** `TrimStart` removes exactly the leading run of whitespace. */
  lemma {:induction false} TrimStartShape(s: string)
    ensures EndsWith(s, TrimStart(s))
    ensures forall i :: 0 <= i < |s| - |TrimStart(s)| ==> IsWhitespace(s[i])
    ensures |TrimStart(s)| > 0 ==> !IsWhitespace(TrimStart(s)[0])
    decreases |s|
  {
    if |s| > 0 && IsWhitespace(s[0]) {
      TrimStartShape(s[1..]);
    }
  }

  /** `TrimEnd` removes exactly the trailing run of whitespace. */
  lemma {:induction false} TrimEndShape(s: string)
    ensures StartsWith(s, TrimEnd(s))
    ensures forall i :: |TrimEnd(s)| <= i < |s| ==> IsWhitespace(s[i])
    ensures |TrimEnd(s)| > 0 ==> !IsWhitespace(TrimEnd(s)[|TrimEnd(s)| - 1])
    decreases |s|
  {
    if |s| > 0 && IsWhitespace(s[|s| - 1]) {
      TrimEndShape(s[..|s| - 1]);
    }
  }

  /** The trimmed string is an infix of the original that neither starts
      nor ends with whitespace, and everything cut off is whitespace. */
  lemma TrimShape(s: string)
    ensures var r := Trim(s); var a := |s| - |TrimStart(s)|;
      0 <= a && a + |r| <= |s| && s[a..a + |r|] == r
      && (forall i :: 0 <= i < a ==> IsWhitespace(s[i]))
      && (forall i :: a + |r| <= i < |s| ==> IsWhitespace(s[i]))
    ensures |Trim(s)| > 0 ==> !IsWhitespace(Trim(s)[0]) && !IsWhitespace(Trim(s)[|Trim(s)| - 1])
  {
    var t := TrimStart(s);
    TrimStartShape(s);
    TrimEndShape(t);
    var r := TrimEnd(t);
    var a := |s| - |t|;
    assert t == s[a..];
    assert s[a..a + |r|] == r;
    if |r| > 0 {
      assert r[0] == t[0];
    }
  }

  lemma {:induction false} TrimStartOfWhitespace(ws: string, x: string)
    requires forall i :: 0 <= i < |ws| ==> IsWhitespace(ws[i])
    requires |x| > 0 && !IsWhitespace(x[0])
    ensures TrimStart(ws + x) == x
    decreases |ws|
  {
    if |ws| > 0 {
      assert (ws + x)[1..] == ws[1..] + x;
      TrimStartOfWhitespace(ws[1..], x);
    } else {
      assert ws + x == x;
    }
  }

  /** Leading whitespace is dropped and a string that neither starts nor
      ends with whitespace is kept as it is. */
  lemma TrimLeadingWhitespace(ws: string, x: string)
    requires forall i :: 0 <= i < |ws| ==> IsWhitespace(ws[i])
    requires |x| > 0 && !IsWhitespace(x[0]) && !IsWhitespace(x[|x| - 1])
    ensures Trim(ws + x) == x
  {
    TrimStartOfWhitespace(ws, x);
  }

  /** A prefix followed, in the rest of the text, by a second prefix. */
  lemma StartsWithBoth(s: string, a: string, b: string)
    requires StartsWith(s, a) && StartsWith(s[|a|..], b)
    ensures StartsWith(s, a + b)
  {
    assert s[..|a| + |b|] == s[..|a|] + s[|a|..][..|b|];
  }

  /** The text in front of the first occurrence of a non-empty `d` does not
      contain `d`. */
  lemma PrefixBeforeFirst(s: string, d: string, i: nat)
    requires |d| > 0 && i <= |s|
    requires forall j :: 0 <= j < i ==> !OccursAt(s, d, j)
    ensures !Contains(s[..i], d)
  {
    forall j | 0 <= j && j + |d| <= i ensures !OccursAt(s[..i], d, j) {
      assert s[..i][j..j + |d|] == s[j..j + |d|];
      assert !OccursAt(s, d, j);
    }
  }

  /** `joinToString(separator = d)`. */
  function Join(xs: seq<string>, d: string): (r: string)
    decreases |xs|
  {
    if |xs| == 0 then ""
    else if |xs| == 1 then xs[0]
    else xs[0] + d + Join(xs[1..], d)
  }

  /** `s.split(d)`: every field, in order, including empty ones; joined
      back with `d` the fields give `s`. */
  function Split(s: string, d: string): (r: seq<string>)
    requires |d| > 0
    ensures |r| >= 1
    ensures Join(r, d) == s
    decreases |s|
  {
    match IndexOf(s, d)
    case None => [s]
    case Some(i) =>
      var head := s[..i];
      var tail := Split(s[i + |d|..], d);
      assert s == head + d + s[i + |d|..];
      assert ([head] + tail)[1..] == tail;
      [head] + tail
  }

  /** No field of a split contains the delimiter. */
  lemma {:induction false} SplitFieldsFree(s: string, d: string)
    requires |d| > 0
    ensures forall k :: 0 <= k < |Split(s, d)| ==> !Contains(Split(s, d)[k], d)
    decreases |s|
  {
    IndexOfIsFirst(s, d);
    match IndexOf(s, d)
    case None =>
    case Some(i) =>
      PrefixBeforeFirst(s, d, i);
      SplitFieldsFree(s[i + |d|..], d);
      var r := Split(s, d);
      var tail := Split(s[i + |d|..], d);
      assert r == [s[..i]] + tail;
      forall k | 1 <= k < |r| ensures !Contains(r[k], d) {
        assert r[k] == tail[k - 1];
      }
  }

  /** Under a head-unique delimiter, the first occurrence of `d` in
      `a + d + b` is the one placed after `a` whenever `a` has none. */
  lemma IndexOfAfterPrefix(a: string, d: string, b: string)
    requires HeadUnique(d) && !Contains(a, d)
    ensures IndexOf(a + d + b, d) == Some(|a|)
  {
    var s := a + d + b;
    assert s[|a|..|a| + |d|] == d;
    forall j | 0 <= j < |a| ensures !OccursAt(s, d, j) {
      if j + |d| <= |a| {
        assert s[j..j + |d|] == a[j..j + |d|];
        assert !OccursAt(a, d, j);
      } else {
        var k := |a| - j;
        assert s[j..j + |d|][k] == s[|a|] == d[0];
        assert d[k] != d[0];
      }
    }
    IndexOfAt(s, d, |a|);
  }

  /** No occurrence of `d` starts inside `a`, not even one that runs on
      into a copy of `d` placed right after `a`. */
  ghost predicate NoEarlyOccurrence(a: string, d: string) {
    forall j :: 0 <= j < |a| ==> !OccursAt(a + d, d, j)
  }

  /** The first occurrence of `d` in `a + d + b` is the one placed after
      `a` whenever none starts inside `a`; unlike `IndexOfAfterPrefix` this
      also covers delimiters such as `','` whose occurrences can overlap. */
  lemma IndexOfAfterField(a: string, d: string, b: string)
    requires |d| > 0 && NoEarlyOccurrence(a, d)
    ensures IndexOf(a + d + b, d) == Some(|a|)
  {
    var s := a + d + b;
    assert s[|a|..|a| + |d|] == d;
    forall j | 0 <= j < |a| ensures !OccursAt(s, d, j) {
      assert s[j..j + |d|] == (a + d)[j..j + |d|];
      assert !OccursAt(a + d, d, j);
    }
    IndexOfAt(s, d, |a|);
  }

  /** Under a head-unique delimiter, the last occurrence of `d` in
      `a + d + b` is the one placed before `b` whenever `b` has none. */
  lemma LastIndexOfBeforeSuffix(a: string, d: string, b: string)
    requires HeadUnique(d) && !Contains(b, d)
    ensures LastIndexOf(a + d + b, d) == Some(|a|)
  {
    var s := a + d + b;
    assert s[|a|..|a| + |d|] == d;
    forall j | |a| < j && j + |d| <= |s| ensures !OccursAt(s, d, j) {
      if j >= |a| + |d| {
        var m := j - |a| - |d|;
        assert s[j..j + |d|] == b[m..m + |d|];
        assert !OccursAt(b, d, m);
      } else {
        var k := j - |a|;
        assert 1 <= k < |d|;
        assert s[j] == d[k];
        assert s[j..j + |d|][0] == s[j];
        assert d[k] != d[0];
      }
    }
    LastIndexOfAt(s, d, |a|);
  }

  /** Splitting on a head-unique delimiter undoes joining, provided no
      element contains the delimiter: the `split`/`joinToString` round trip. */
  lemma {:induction false} SplitJoin(xs: seq<string>, d: string)
    requires HeadUnique(d) && |xs| > 0
    requires forall k :: 0 <= k < |xs| ==> !Contains(xs[k], d)
    ensures Split(Join(xs, d), d) == xs
    decreases |xs|
  {
    if |xs| == 1 {
      IndexOfIsFirst(xs[0], d);
    } else {
      var rest := Join(xs[1..], d);
      IndexOfAfterPrefix(xs[0], d, rest);
      var s := xs[0] + d + rest;
      assert s[|xs[0]| + |d|..] == rest;
      assert s[..|xs[0]|] == xs[0];
      assert Split(s, d) == [xs[0]] + Split(rest, d);
      assert forall k :: 0 <= k < |xs[1..]| ==> xs[1..][k] == xs[k + 1];
      SplitJoin(xs[1..], d);
      assert xs == [xs[0]] + xs[1..];
    }
  }

  /** A string made of characters none of which is the first character of
      `d` does not contain `d`. */
  lemma NoHeadCharNoOccurrence(s: string, d: string)
    requires |d| > 0 && forall i :: 0 <= i < |s| ==> s[i] != d[0]
    ensures !Contains(s, d)
  {
    forall j | 0 <= j && j + |d| <= |s| ensures !OccursAt(s, d, j) {
      assert s[j..j + |d|][0] == s[j] != d[0];
    }
  }
}

=== FILE: lines.dfy ===
/** The one-line lookahead over a file's lines
    (`BufferedCloseableStringsIterator`): the next line is read ahead so that
    `hasNext` is exactly "a line is pending". */
module LineSource {
  import opened Results

  /** `pending` is the line read ahead (null at end of file); `unread` the
      lines the underlying reader has not produced yet. */
  datatype LineIter = LineIter(pending: Option<string>, unread: seq<string>)

  /** The reader gives no more lines once it has given null. */
  predicate Valid(it: LineIter) {
    it.pending.None? ==> |it.unread| == 0
  }

  /** The lines still to be returned, the pending one first. */
  function Remaining(it: LineIter): seq<string> {
    (if it.pending.Some? then [it.pending.value] else []) + it.unread
  }

  /** Construction reads the first line ahead. */
  function Open(lines: seq<string>): (it: LineIter)
    ensures Valid(it) && Remaining(it) == lines
  {
    if |lines| == 0 then LineIter(None, []) else LineIter(Some(lines[0]), lines[1..])
  }

  predicate HasNext(it: LineIter) {
    it.pending.Some?
  }

  lemma HasNextIffRemaining(it: LineIter)
    requires Valid(it)
    ensures HasNext(it) <==> |Remaining(it)| > 0
  {
  }

  /** `next()`: returns the pending line and reads the following one; with
      nothing pending the `!!` fails. */
  function Next(it: LineIter): (r: Result<Step<string, LineIter>>)
    ensures r.Ok? <==> HasNext(it)
    ensures r.Ok? ==> r.value.item == Remaining(it)[0]
    ensures r.Ok? ==> Valid(r.value.after) && Remaining(r.value.after) == Remaining(it)[1..]
  {
    match it.pending
    case None => Fail(MissingValue)
    case Some(line) => Ok(Step(line, Open(it.unread)))
  }

  /** Every line the iterator returns, in order, until `hasNext` is false. */
  function Drain(it: LineIter): seq<string>
    requires Valid(it)
    decreases |Remaining(it)|
  {
    if !HasNext(it) then []
    else
      var s := Next(it).value;
      [s.item] + Drain(s.after)
  }

  /** The lookahead returns exactly the file's lines, in order. */
  lemma {:induction false} DrainIsRemaining(it: LineIter)
    requires Valid(it)
    ensures Drain(it) == Remaining(it)
    decreases |Remaining(it)|
  {
    if HasNext(it) {
      var s := Next(it).value;
      DrainIsRemaining(s.after);
    }
  }

  lemma DrainOpen(lines: seq<string>)
    ensures Drain(Open(lines)) == lines
  {
    DrainIsRemaining(Open(lines));
  }
}

=== FILE: numbers.dfy ===
/** Kotlin's `String.toLong()` and `String.toInt()` (the JVM's
    `Long.parseLong` / `Integer.parseInt` in radix 10), with a decimal
    renderer as their inverse. */
module Numbers {
  import opened Results

  const LONG_MIN: int := -0x8000_0000_0000_0000
  const LONG_MAX: int := 0x7FFF_FFFF_FFFF_FFFF
  const INT_MIN: int := -0x8000_0000
  const INT_MAX: int := 0x7FFF_FFFF

  predicate IsDigit(c: char) {
    '0' <= c <= '9'
  }

  predicate AllDigits(s: string) {
    forall i :: 0 <= i < |s| ==> IsDigit(s[i])
  }

  /** The value of a string of decimal digits, most significant first. */
  function DigitsValue(s: string): nat
    requires AllDigits(s)
    decreases |s|
  {
    if |s| == 0 then 0
    else DigitsValue(s[..|s| - 1]) * 10 + (s[|s| - 1] as int - '0' as int)
  }

  /** The digits after an optional leading sign. */
  function Magnitude(s: string): string
    requires |s| > 0
  {
    if s[0] == '-' || s[0] == '+' then s[1..] else s
  }

  /** The value a well-formed number text denotes: its digits, negated
      after a leading `-`. */
  function Signed(s: string): int
    requires |s| > 0 && AllDigits(Magnitude(s))
  {
    if s[0] == '-' then 0 - DigitsValue(Magnitude(s)) as int else DigitsValue(Magnitude(s))
  }

  /** `parseLong`/`parseInt` with bounds `lo..hi`: an optional `-` or `+`,
      then at least one digit, and a value inside the bounds; anything else
      is a number-format failure (`None`). */
  function ParseInteger(s: string, lo: int, hi: int): (r: Option<int>)
    ensures r.Some? <==> |s| > 0 && |Magnitude(s)| > 0 && AllDigits(Magnitude(s)) && lo <= Signed(s) <= hi
    ensures r.Some? ==> r.value == Signed(s)
    ensures r.Some? ==> DigitsValue(Magnitude(s)) == if r.value < 0 then -r.value else r.value
    ensures r.Some? ==> (r.value < 0 ==> s[0] == '-')
  {
    if |s| == 0 then None
    else
      var digits := Magnitude(s);
      if |digits| == 0 || !AllDigits(digits) then None
      else
        var v := Signed(s);
        if lo <= v <= hi then Some(v) else None
  }

  /** `String.toLong()`. */
  function ParseLong(s: string): (r: Option<int>)
    ensures r.Some? <==> |s| > 0 && |Magnitude(s)| > 0 && AllDigits(Magnitude(s)) && LONG_MIN <= Signed(s) <= LONG_MAX
    ensures r.Some? ==> r.value == Signed(s)
    ensures r.Some? ==> LONG_MIN <= r.value <= LONG_MAX
  {
    ParseInteger(s, LONG_MIN, LONG_MAX)
  }

  /** `String.toInt()`. */
  function ParseInt(s: string): (r: Option<int>)
    ensures r.Some? <==> |s| > 0 && |Magnitude(s)| > 0 && AllDigits(Magnitude(s)) && INT_MIN <= Signed(s) <= INT_MAX
    ensures r.Some? ==> r.value == Signed(s)
    ensures r.Some? ==> INT_MIN <= r.value <= INT_MAX
  {
    ParseInteger(s, INT_MIN, INT_MAX)
  }

  /** The decimal digits of a natural number, without leading zeros. */
  function ShowNat(n: nat): (r: string)
    ensures |r| > 0 && AllDigits(r)
    ensures |r| > 1 ==> r[0] != '0'
    decreases n
  {
    var c := (n % 10 + '0' as int) as char;
    if n < 10 then [c] else ShowNat(n / 10) + [c]
  }

  /** `Long.toString()`: a `-` for negative values, then the digits. */
  function ShowInt(n: int): (r: string)
    ensures |r| > 0
    ensures forall i :: 0 <= i < |r| ==> IsDigit(r[i]) || r[i] == '-'
  {
    if n < 0 then "-" + ShowNat(-n) else ShowNat(n)
  }

  lemma {:induction false} DigitsOfShowNat(n: nat)
    ensures DigitsValue(ShowNat(n)) == n
    decreases n
  {
    var s := ShowNat(n);
    if n >= 10 {
      assert s[..|s| - 1] == ShowNat(n / 10);
      DigitsOfShowNat(n / 10);
    }
  }

  /** Rendering a value in range and parsing it back gives the value: the
      `toString`/`toLong` round trip. */
  lemma ParseShowInt(n: int, lo: int, hi: int)
    requires lo <= n <= hi
    ensures ParseInteger(ShowInt(n), lo, hi) == Some(n)
  {
    var s := ShowInt(n);
    if n < 0 {
      assert Magnitude(s) == ShowNat(-n);
      DigitsOfShowNat(-n);
    } else {
      assert Magnitude(s) == ShowNat(n);
      DigitsOfShowNat(n);
    }
  }

  lemma ParseShowLong(n: int)
    requires LONG_MIN <= n <= LONG_MAX
    ensures ParseLong(ShowInt(n)) == Some(n)
  {
    ParseShowInt(n, LONG_MIN, LONG_MAX);
  }

  lemma ParseShowIntRange(n: int)
    requires INT_MIN <= n <= INT_MAX
    ensures ParseInt(ShowInt(n)) == Some(n)
  {
    ParseShowInt(n, INT_MIN, INT_MAX);
  }
}

=== FILE: page_render.dfy ===
/** Pages as a dump writes them, and the extractor reading them back: the
    `readPageInternal` round trip, and the page cap on a block that holds
    more than `MAX_PAGES_PER_STREAM` pages. */
module PageRender {
  import opened Results
  import opened KString
  import opened Numbers
  import opened Pages

  /** The fixed lines of a page: the ones that carry no page data. */
  datatype Layout = Layout(
    pageLine: string,
    nsLine: string,
    revisionLine: string,
    formatLine: string,
    revisionEndLine: string,
    pageEndLine: string)

  /** The fixed lines as a dump writes them. */
  const DUMP_LAYOUT := Layout(
    "  " + PAGE_OPEN,
    "    <ns>0" + NS_CLOSE,
    "    <revision>",
    "      <format>text/x-wiki" + FORMAT_CLOSE,
    "    </revision>",
    "  </page>")

  /** What the extractor needs of the fixed lines: each of the markers it
      skips to ends its own line, the revision line is not taken for the
      format line, and the two closing lines do not start a page. */
  predicate WellFormed(l: Layout) {
    && LineEndsWith(l.pageLine, PAGE_OPEN)
    && LineEndsWith(l.nsLine, NS_CLOSE)
    && !LineEndsWith(l.revisionLine, FORMAT_CLOSE)
    && LineEndsWith(l.formatLine, FORMAT_CLOSE)
    && !LineEndsWith(l.revisionEndLine, PAGE_OPEN)
    && !LineEndsWith(l.pageEndLine, PAGE_OPEN)
  }

  function TitleLine(title: string): string {
    "    <title>" + title + "</title>"
  }

  function IdLine(id: int): string {
    "    <id>" + ShowInt(id) + "</id>"
  }

  function TextLine(text: string): string {
    "      " + TEXT_OPEN + text + TEXT_TAG_TERMINATOR
  }

  /** The closing lines of a page and what follows them. */
  function Trailer(l: Layout, rest: seq<string>): seq<string> {
    [l.revisionEndLine] + ([l.pageEndLine] + rest)
  }

  /** The lines of one page in a dump, its whole text on one line, put in
      front of `rest`. */
  function RenderPageOnto(l: Layout, p: WikiPage, rest: seq<string>): seq<string> {
    [l.pageLine] + ([TitleLine(p.title)] + ([l.nsLine] + FromId(l, p, rest)))
  }

  /** The lines of a rendered page from its id line on. */
  function FromId(l: Layout, p: WikiPage, rest: seq<string>): seq<string> {
    [IdLine(p.id)] + ([l.revisionLine] + ([l.formatLine] + ([TextLine(p.text)] + Trailer(l, rest))))
  }

  /** The pages of a block, one after another. */
  function RenderPages(l: Layout, ps: seq<WikiPage>): seq<string>
    decreases |ps|
  {
    if |ps| == 0 then [] else RenderPageOnto(l, ps[0], RenderPages(l, ps[1..]))
  }

  /** A page's id fits the Long the extractor parses it into. */
  predicate Renderable(p: WikiPage) {
    LONG_MIN <= p.id <= LONG_MAX
  }

  /** An indented tag line trims to the tag. */
  lemma TrimIndented(ws: string, x: string)
    requires forall i :: 0 <= i < |ws| ==> ws[i] == ' '
    requires |x| > 0 && x[0] == '<' && x[|x| - 1] == '>'
    ensures Trim(ws + x) == x
  {
    TrimLeadingWhitespace(ws, x);
  }

  /** A line `ws + x + m`, with `ws` spaces and `x` starting with `<`,
      ends with the tag `m` once trimmed. */
  lemma EndsWithTag(ws: string, x: string, m: string)
    requires forall i :: 0 <= i < |ws| ==> ws[i] == ' '
    requires |x| > 0 && x[0] == '<' && |m| > 0 && m[|m| - 1] == '>'
    ensures LineEndsWith(ws + x + m, m)
  {
    var y := x + m;
    assert ws + x + m == ws + y;
    TrimIndented(ws, y);
    assert y[|y| - |m|..] == m;
  }

  /** A string whose character where `m` would have to start differs from
      `m`'s first character does not end with `m`. */
  lemma MismatchAt(x: string, m: string, i: nat)
    requires |m| > 0 && i + |m| == |x| && x[i] != m[0]
    ensures !EndsWith(x, m)
  {
    assert x[i..][0] == x[i];
  }

  lemma PageLineMatches()
    ensures LineEndsWith(DUMP_LAYOUT.pageLine, PAGE_OPEN)
  {
    TrimIndented("  ", PAGE_OPEN);
  }

  lemma NsLineMatches()
    ensures LineEndsWith(DUMP_LAYOUT.nsLine, NS_CLOSE)
  {
    var ws, x := "    ", "<ns>0";
    assert DUMP_LAYOUT.nsLine == ws + x + NS_CLOSE;
    EndsWithTag(ws, x, NS_CLOSE);
  }

  lemma FormatLineMatches()
    ensures LineEndsWith(DUMP_LAYOUT.formatLine, FORMAT_CLOSE)
  {
    var ws, x := "      ", "<format>text/x-wiki";
    assert DUMP_LAYOUT.formatLine == ws + x + FORMAT_CLOSE;
    EndsWithTag(ws, x, FORMAT_CLOSE);
  }

  lemma RevisionLineDoesNotMatch()
    ensures !LineEndsWith(DUMP_LAYOUT.revisionLine, FORMAT_CLOSE)
  {
    var x := "<revision>";
    TrimIndented("    ", x);
    assert DUMP_LAYOUT.revisionLine == "    " + x;
    assert x[1] != FORMAT_CLOSE[0];
    assert x[1..][0] == x[1];
  }

  lemma RevisionEndDoesNotMatch()
    ensures !LineEndsWith(DUMP_LAYOUT.revisionEndLine, PAGE_OPEN)
  {
    var ws, x := "    ", "</revision>";
    assert |x| == 11 && x[5] == 'i';
    assert |PAGE_OPEN| == 6 && PAGE_OPEN[0] == '<';
    MismatchAt(x, PAGE_OPEN, 5);
    assert DUMP_LAYOUT.revisionEndLine == ws + x;
    TrimIndented(ws, x);
  }

  lemma PageEndDoesNotMatch()
    ensures !LineEndsWith(DUMP_LAYOUT.pageEndLine, PAGE_OPEN)
  {
    var y := "</page>";
    TrimIndented("  ", y);
    assert DUMP_LAYOUT.pageEndLine == "  " + y;
    assert y[1] != PAGE_OPEN[0];
    assert y[1..][0] == y[1];
  }

  /** The layout a dump uses is one the extractor reads. */
  lemma DumpLayoutWellFormed()
    ensures WellFormed(DUMP_LAYOUT)
  {
    PageLineMatches();
    NsLineMatches();
    RevisionLineDoesNotMatch();
    FormatLineMatches();
    RevisionEndDoesNotMatch();
    PageEndDoesNotMatch();
  }

  /** The tail of a page holds no `<page>` line, so the next read passes
      over it. */
  lemma ReadPagePastTrailer(l: Layout, rest: seq<string>)
    requires WellFormed(l)
    ensures ReadPage(Trailer(l, rest)) == ReadPage(rest)
  {
    var t := [l.pageEndLine] + rest;
    assert SkipToLineEndingAs(Trailer(l, rest), PAGE_OPEN) == SkipToLineEndingAs(t, PAGE_OPEN) by {
      assert Trailer(l, rest)[1..] == t;
    }
    assert SkipToLineEndingAs(t, PAGE_OPEN) == SkipToLineEndingAs(rest, PAGE_OPEN) by {
      assert t[1..] == rest;
    }
  }

  /** The title line of a page gives back the title, whatever it holds. */
  lemma ReadTitleLine(title: string, rest: seq<string>)
    ensures ReadOneLineTagText([TitleLine(title)] + rest) == Ok(Parsed(title, rest))
  {
    assert TitleLine(title) == "    <title" + ">" + title + "</" + "title>";
    NoHeadCharNoOccurrence("    <title", ">");
    NoHeadCharNoOccurrence("title>", "</");
    OneLineTagText("    <title", title, "title>", rest);
  }

  /** The id line of a page gives back the rendered id. */
  lemma ReadIdLine(id: int, rest: seq<string>)
    ensures ReadOneLineTagText([IdLine(id)] + rest) == Ok(Parsed(ShowInt(id), rest))
  {
    assert IdLine(id) == "    <id" + ">" + ShowInt(id) + "</" + "id>";
    NoHeadCharNoOccurrence("    <id", ">");
    NoHeadCharNoOccurrence("id>", "</");
    OneLineTagText("    <id", ShowInt(id), "id>", rest);
  }

  /** From the id line on, a rendered page reads back its id and text. */
  lemma ReadRenderedFromId(l: Layout, p: WikiPage, rest: seq<string>)
    requires WellFormed(l) && Renderable(p)
    ensures ReadFromId(p.title, FromId(l, p, rest)) == Ok(Parsed(p, Trailer(l, rest)))
  {
    var textOn := [TextLine(p.text)] + Trailer(l, rest);
    var formatOn := [l.formatLine] + textOn;
    var revisionOn := [l.revisionLine] + formatOn;
    ReadIdLine(p.id, revisionOn);
    ParseShowLong(p.id);
    assert revisionOn[1..] == formatOn && formatOn[1..] == textOn;
    assert SkipToLineEndingAs(revisionOn, FORMAT_CLOSE) == Ok(textOn);
    ReadTextLine(p.text, Trailer(l, rest));
  }

  /** The text line of a page gives back the text, whatever it holds. */
  lemma ReadTextLine(text: string, rest: seq<string>)
    ensures ReadTextTagText([TextLine(text)] + rest) == Ok(Parsed(text, rest))
  {
    var indent := "      ";
    assert TextLine(text) == indent + TEXT_OPEN + text + TEXT_TAG_TERMINATOR;
    SingleLineText(indent, text, rest);
  }

  /** A rendered page reads back as the same page, leaving its two closing
      lines and whatever follows. Title and text may hold any characters
      except line breaks: a model line holding a line break would be two
      lines in a file. */
  lemma ReadRenderedPage(l: Layout, p: WikiPage, rest: seq<string>)
    requires WellFormed(l) && Renderable(p)
    ensures ReadPage(RenderPageOnto(l, p, rest)) == Ok(Parsed(p, Trailer(l, rest)))
  {
    var nsOn := [l.nsLine] + FromId(l, p, rest);
    var titleOn := [TitleLine(p.title)] + nsOn;
    assert RenderPageOnto(l, p, rest)[1..] == titleOn;
    ReadTitleLine(p.title, nsOn);
    assert nsOn[1..] == FromId(l, p, rest);
    ReadRenderedFromId(l, p, rest);
  }

  /** The first `n` pages of `ps`, or all of them when there are fewer. */
  function Take(ps: seq<WikiPage>, n: nat): (r: seq<WikiPage>)
    ensures |r| == if n < |ps| then n else |ps|
  {
    if n < |ps| then ps[..n] else ps
  }

  lemma TakeCons(ps: seq<WikiPage>, n: nat, k: nat)
    requires 0 < |ps| && k + 1 == n
    ensures Take(ps, n) == [ps[0]] + Take(ps[1..], k)
  {
  }

  /** Rendered pages read back in order: the reference reading of a block
      of rendered pages gives the first `n` of them. */
  lemma {:induction false} ParseRenderedPages(l: Layout, ps: seq<WikiPage>, n: nat)
    requires WellFormed(l) && forall k :: 0 <= k < |ps| ==> Renderable(ps[k])
    ensures ParsePages(RenderPages(l, ps), n) == Take(ps, n)
    decreases |ps|
  {
    if n > 0 && |ps| > 0 {
      var k: nat := n - 1;
      var tail := RenderPages(l, ps[1..]);
      ParseRenderedPages(l, ps[1..], k);
      ParseRenderedStep(l, ps[0], tail, n, k, Take(ps[1..], k));
      TakeCons(ps, n, k);
    } else if |ps| == 0 {
      assert SkipToLineEndingAs([], PAGE_OPEN).Fail?;
    }
  }

  /** One rendered page in front of lines that read as `xs` reads as the
      page followed by `xs`. */
  lemma ParseRenderedStep(l: Layout, p: WikiPage, rest: seq<string>, n: nat, k: nat, xs: seq<WikiPage>)
    requires WellFormed(l) && Renderable(p) && k + 1 == n && ParsePages(rest, k) == xs
    ensures ParsePages(RenderPageOnto(l, p, rest), n) == [p] + xs
  {
    ReadRenderedPage(l, p, rest);
    ParsePagesFirst(RenderPageOnto(l, p, rest), p, Trailer(l, rest), k);
    ParseAfterTrailer(l, rest, k);
  }

  /** After a page's closing lines the reading goes on as if they were not
      there. */
  lemma ParseAfterTrailer(l: Layout, rest: seq<string>, n: nat)
    requires WellFormed(l)
    ensures ParsePages(Trailer(l, rest), n) == ParsePages(rest, n)
  {
    ReadPagePastTrailer(l, rest);
  }

  /** A block of rendered pages yields its first hundred pages and no
      more, however many it holds. */
  lemma BlockOfRenderedPages(ps: seq<WikiPage>)
    requires |ps| > 0 && forall k :: 0 <= k < |ps| ==> Renderable(ps[k])
    ensures Open(RenderPages(DUMP_LAYOUT, ps)).Ok?
    ensures Drain(Open(RenderPages(DUMP_LAYOUT, ps)).value) == Take(ps, MAX_PAGES_PER_STREAM)
  {
    var lines := RenderPages(DUMP_LAYOUT, ps);
    DumpLayoutWellFormed();
    ReadRenderedPage(DUMP_LAYOUT, ps[0], RenderPages(DUMP_LAYOUT, ps[1..]));
    var it := Open(lines).value;
    DrainOpen(lines, it);
    ParseRenderedPages(DUMP_LAYOUT, ps, MAX_PAGES_PER_STREAM);
  }
}

=== FILE: pages.dfy ===
/** The page extractor (`WikiPagesIterator`): a line-suffix state machine
    that pulls `(id, title, text)` out of the XML lines of one decoded block,
    at most `MAX_PAGES_PER_STREAM` pages per block. */
module Pages {
  import opened Results
  import opened KString
  import opened Numbers
  import Indexes

  /** `WikiPagesIterator.MAX_PAGES_PER_STREAM`. */
  const MAX_PAGES_PER_STREAM: nat := 100

  const PAGE_OPEN := "<page>"
  const NS_CLOSE := "</ns>"
  const FORMAT_CLOSE := "</format>"
  const TEXT_TAG_TERMINATOR := "</text>"

  datatype WikiPage = WikiPage(id: int, title: string, text: string)

  /** The trimmed line ends with `marker` (case-sensitive). */
  predicate LineEndsWith(line: string, marker: string) {
    EndsWith(Trim(line), marker)
  }

  /** `rest` is what is left of `lines` after some lines were consumed. */
  predicate IsSuffix(rest: seq<string>, lines: seq<string>) {
    |rest| <= |lines| && rest == lines[|lines| - |rest|..]
  }

  /** `skipToLineEndingAs`: consumes lines up to and including the first
      one whose trimmed form ends with `marker`; running out of lines is a
      failure (`readLine()` gives null and `trim()` throws). */
  function SkipToLineEndingAs(lines: seq<string>, marker: string): (r: Result<seq<string>>)
    ensures r.Ok? ==> |r.value| < |lines| && IsSuffix(r.value, lines)
    decreases |lines|
  {
    if |lines| == 0 then Fail(EndOfInput)
    else if LineEndsWith(lines[0], marker) then Ok(lines[1..])
    else SkipToLineEndingAs(lines[1..], marker)
  }

  /** The skip stops right after the first line whose trimmed form ends
      with the marker, and fails exactly when no line does. */
  lemma {:induction false} SkipStopsAtFirstMatch(lines: seq<string>, marker: string)
    ensures var r := SkipToLineEndingAs(lines, marker);
      r.Fail? <==> forall k :: 0 <= k < |lines| ==> !LineEndsWith(lines[k], marker)
    ensures var r := SkipToLineEndingAs(lines, marker);
      r.Ok? ==>
        var k := |lines| - |r.value| - 1;
        LineEndsWith(lines[k], marker) && r.value == lines[k + 1..]
        && forall j :: 0 <= j < k ==> !LineEndsWith(lines[j], marker)
    decreases |lines|
  {
    if |lines| > 0 && !LineEndsWith(lines[0], marker) {
      SkipStopsAtFirstMatch(lines[1..], marker);
      assert forall k :: 1 <= k < |lines| ==> lines[k] == lines[1..][k - 1];
    }
  }

  /** The skip only fails by running out of lines. */
  lemma {:induction false} SkipFailsAtEnd(lines: seq<string>, marker: string)
    ensures SkipToLineEndingAs(lines, marker).Fail? ==> SkipToLineEndingAs(lines, marker) == Fail(EndOfInput)
    decreases |lines|
  {
    if |lines| > 0 && !LineEndsWith(lines[0], marker) {
      SkipFailsAtEnd(lines[1..], marker);
    }
  }

  /** Lines none of which ends with the marker are passed over. */
  lemma {:induction false} SkipPastPrefix(a: seq<string>, b: seq<string>, marker: string)
    requires forall k :: 0 <= k < |a| ==> !LineEndsWith(a[k], marker)
    ensures SkipToLineEndingAs(a + b, marker) == SkipToLineEndingAs(b, marker)
    decreases |a|
  {
    if |a| > 0 {
      assert (a + b)[0] == a[0];
      assert (a + b)[1..] == a[1..] + b;
      SkipPastPrefix(a[1..], b, marker);
    } else {
      assert a + b == b;
    }
  }

  /** The text of a one-line tag: the line, untrimmed, after its first `>`
      and before its last `</`; a missing delimiter leaves that side whole. */
  function TagText(line: string): string {
    SubstringBeforeLast(SubstringAfter(line, ">"), "</")
  }

  /** `readOneLineTagText`: the tag text of the next line. */
  function ReadOneLineTagText(lines: seq<string>): (r: Result<Parsed<string>>)
    ensures r.Ok? <==> |lines| > 0
    ensures r.Ok? ==> r.value.rest == lines[1..]
  {
    if |lines| == 0 then Fail(EndOfInput)
    else Ok(Parsed(TagText(lines[0]), lines[1..]))
  }

  /** A line `pre>content</post`, with no `>` in `pre` and no `</` in
      `post`, gives exactly `content`, whatever `content` holds. */
  lemma OneLineTagText(pre: string, content: string, post: string, rest: seq<string>)
    requires !Contains(pre, ">") && !Contains(post, "</")
    ensures ReadOneLineTagText([pre + ">" + content + "</" + post] + rest)
            == Ok(Parsed(content, rest))
  {
    var line := pre + ">" + content + "</" + post;
    IndexOfAfterPrefix(pre, ">", content + "</" + post);
    assert line == pre + ">" + (content + "</" + post);
    assert line[|pre| + 1..] == content + "</" + post;
    LastIndexOfBeforeSuffix(content, "</", post);
    assert (content + "</" + post)[..|content|] == content;
    assert ([line] + rest)[1..] == rest;
  }

  /** With neither delimiter present the whole line comes back. */
  lemma OneLineTagTextNoDelimiters(line: string, rest: seq<string>)
    requires !Contains(line, ">") && !Contains(line, "</")
    ensures ReadOneLineTagText([line] + rest) == Ok(Parsed(line, rest))
  {
    assert ([line] + rest)[0] == line;
    assert ([line] + rest)[1..] == rest;
  }

  /** The trimmed lines, concatenated with no separator. */
  function ConcatTrimmed(lines: seq<string>): string
    decreases |lines|
  {
    if |lines| == 0 then "" else Trim(lines[0]) + ConcatTrimmed(lines[1..])
  }

  /** The loop of `readTextTagText` after the first line: trimmed lines are
      appended until one ends with `</text>`, whose part before its last
      `</text>` closes the text. */
  function ReadTextTail(lines: seq<string>): (r: Result<Parsed<string>>)
    ensures r.Ok? ==> |r.value.rest| < |lines| && IsSuffix(r.value.rest, lines)
    decreases |lines|
  {
    if |lines| == 0 then Fail(EndOfInput)
    else
      if LineEndsWith(lines[0], TEXT_TAG_TERMINATOR) then
        Ok(Parsed(SubstringBeforeLast(Trim(lines[0]), TEXT_TAG_TERMINATOR), lines[1..]))
      else
        match ReadTextTail(lines[1..])
        case Fail(e) => Fail(e)
        case Ok(t) => Ok(Parsed(Trim(lines[0]) + t.value, t.rest))
  }

  /** The text loop consumes the same lines as skipping to the first line
      ending with `</text>`. */
  lemma {:induction false} TextTailLikeSkip(lines: seq<string>)
    ensures ReadTextTail(lines).Ok? <==> SkipToLineEndingAs(lines, TEXT_TAG_TERMINATOR).Ok?
    ensures ReadTextTail(lines).Ok? ==>
      ReadTextTail(lines).value.rest == SkipToLineEndingAs(lines, TEXT_TAG_TERMINATOR).value
    decreases |lines|
  {
    if |lines| > 0 && !LineEndsWith(lines[0], TEXT_TAG_TERMINATOR) {
      TextTailLikeSkip(lines[1..]);
    }
  }

  /** The text loop stops right after the first line whose trimmed form
      ends with `</text>`, and fails exactly when there is none. */
  lemma TextTailStops(lines: seq<string>)
    ensures var r := ReadTextTail(lines);
      r.Fail? <==> forall k :: 0 <= k < |lines| ==> !LineEndsWith(lines[k], TEXT_TAG_TERMINATOR)
    ensures var r := ReadTextTail(lines);
      r.Ok? ==>
        var k := |lines| - |r.value.rest| - 1;
        LineEndsWith(lines[k], TEXT_TAG_TERMINATOR) && r.value.rest == lines[k + 1..]
        && forall j :: 0 <= j < k ==> !LineEndsWith(lines[j], TEXT_TAG_TERMINATOR)
  {
    TextTailLikeSkip(lines);
    SkipStopsAtFirstMatch(lines, TEXT_TAG_TERMINATOR);
  }

  /** The text the loop gives: the trimmed lines before the closing line,
      then the closing line's part before its last `</text>`. */
  lemma {:induction false} TextTailValue(lines: seq<string>)
    ensures var r := ReadTextTail(lines);
      r.Ok? ==>
        var k := |lines| - |r.value.rest| - 1;
        r.value.value == ConcatTrimmed(lines[..k]) + SubstringBeforeLast(Trim(lines[k]), TEXT_TAG_TERMINATOR)
    decreases |lines|
  {
    var r := ReadTextTail(lines);
    if |lines| > 0 && r.Ok? {
      var k := |lines| - |r.value.rest| - 1;
      if LineEndsWith(lines[0], TEXT_TAG_TERMINATOR) {
        assert k == 0;
        assert lines[..0] == [];
      } else {
        var t := ReadTextTail(lines[1..]);
        TextTailValue(lines[1..]);
        assert r.value.rest == t.value.rest;
        assert lines[..k][1..] == lines[1..][..k - 1];
        assert lines[1..][k - 1] == lines[k];
      }
    }
  }

  /** `readTextTagText`: reads the first line trimmed; a one-line text when
      it ends with `</text>`, otherwise the multi-line loop. */
  function ReadTextTagText(lines: seq<string>): (r: Result<Parsed<string>>)
    ensures r.Ok? ==> |r.value.rest| < |lines| && IsSuffix(r.value.rest, lines)
  {
    if |lines| == 0 then Fail(EndOfInput)
    else
      if LineEndsWith(lines[0], TEXT_TAG_TERMINATOR) then
        Ok(Parsed(SubstringBeforeLast(SubstringAfter(Trim(lines[0]), ">"), TEXT_TAG_TERMINATOR), lines[1..]))
      else
        match ReadTextTail(lines[1..])
        case Fail(e) => Fail(e)
        case Ok(t) => Ok(Parsed(SubstringAfter(Trim(lines[0]), ">") + t.value, t.rest))
  }

  /** A text over several lines ends at the first later line whose trimmed
      form ends with `</text>`; reading fails when there is none. */
  lemma TextTagTextStops(lines: seq<string>)
    requires |lines| > 0 && !LineEndsWith(lines[0], TEXT_TAG_TERMINATOR)
    ensures var r := ReadTextTagText(lines);
      r.Fail? <==> forall k :: 1 <= k < |lines| ==> !LineEndsWith(lines[k], TEXT_TAG_TERMINATOR)
    ensures var r := ReadTextTagText(lines);
      r.Ok? ==>
        var k := |lines| - |r.value.rest| - 1;
        1 <= k && LineEndsWith(lines[k], TEXT_TAG_TERMINATOR) && r.value.rest == lines[k + 1..]
        && forall j :: 1 <= j < k ==> !LineEndsWith(lines[j], TEXT_TAG_TERMINATOR)
  {
    var tail := lines[1..];
    TextTailStops(tail);
    assert forall j :: 1 <= j < |lines| ==> lines[j] == tail[j - 1];
  }

  /** A text over several lines is the first trimmed line after its first
      `>`, then each trimmed middle line, then the closing line before its
      last `</text>`, concatenated with no separator. */
  lemma TextTagTextValue(lines: seq<string>)
    requires |lines| > 0 && !LineEndsWith(lines[0], TEXT_TAG_TERMINATOR)
    ensures var r := ReadTextTagText(lines);
      r.Ok? ==>
        var k := |lines| - |r.value.rest| - 1;
        1 <= k
        && r.value.value == SubstringAfter(Trim(lines[0]), ">") + ConcatTrimmed(lines[1..k])
                            + SubstringBeforeLast(Trim(lines[k]), TEXT_TAG_TERMINATOR)
  {
    var tail := lines[1..];
    var r := ReadTextTagText(lines);
    if r.Ok? {
      var t := ReadTextTail(tail);
      assert t.Ok? && t.value.rest == r.value.rest;
      assert r.value.value == SubstringAfter(Trim(lines[0]), ">") + t.value.value;
      TextTailValue(tail);
      var k := |lines| - |r.value.rest| - 1;
      assert lines[1..k] == tail[..k - 1];
      assert tail[k - 1] == lines[k];
    }
  }

  const TEXT_OPEN := "<text xml:space=\"preserve\">"

  lemma TextOpenShape()
    ensures TEXT_OPEN == "<text xml:space=\"preserve\"" + ">"
    ensures !Contains("<text xml:space=\"preserve\"", ">")
  {
    var pre := "<text xml:space=\"preserve\"";
    NoHeadCharNoOccurrence(pre, ">");
  }

  /** A text on one line: a line `pre>content</text>`, after leading
      whitespace, with no `>` in `pre` and `pre` starting with no
      whitespace, gives exactly `content`, whatever `content` holds. */
  lemma OneLineText(ws: string, pre: string, content: string, rest: seq<string>)
    requires forall i :: 0 <= i < |ws| ==> IsWhitespace(ws[i])
    requires !Contains(pre, ">") && (|pre| > 0 ==> !IsWhitespace(pre[0]))
    ensures ReadTextTagText([ws + pre + ">" + content + TEXT_TAG_TERMINATOR] + rest)
            == Ok(Parsed(content, rest))
  {
    var line := ws + pre + ">" + content + TEXT_TAG_TERMINATOR;
    var x := pre + ">" + (content + TEXT_TAG_TERMINATOR);
    assert line == ws + x;
    assert x[0] == if |pre| > 0 then pre[0] else '>';
    TextBetween(pre, content);
    TrimmedTextLine(ws, x);
    var lines := [line] + rest;
    assert lines[0] == line && lines[1..] == rest;
  }

  /** Leading whitespace goes, and what is left ends with `</text>`. */
  lemma TrimmedTextLine(ws: string, x: string)
    requires forall i :: 0 <= i < |ws| ==> IsWhitespace(ws[i])
    requires EndsWith(x, TEXT_TAG_TERMINATOR) && !IsWhitespace(x[0])
    ensures Trim(ws + x) == x && LineEndsWith(ws + x, TEXT_TAG_TERMINATOR)
  {
    assert x[|x| - 1] == TEXT_TAG_TERMINATOR[|TEXT_TAG_TERMINATOR| - 1];
    TrimLeadingWhitespace(ws, x);
  }

  /** The text between the first `>` and the last `</text>`. */
  lemma TextBetween(pre: string, content: string)
    requires !Contains(pre, ">")
    ensures var x := pre + ">" + (content + TEXT_TAG_TERMINATOR);
      EndsWith(x, TEXT_TAG_TERMINATOR)
      && SubstringBeforeLast(SubstringAfter(x, ">"), TEXT_TAG_TERMINATOR) == content
  {
    var tail := content + TEXT_TAG_TERMINATOR;
    var x := pre + ">" + tail;
    assert x[|x| - |TEXT_TAG_TERMINATOR|..] == TEXT_TAG_TERMINATOR;
    IndexOfAfterPrefix(pre, ">", tail);
    assert x[|pre| + 1..] == tail;
    assert !Contains("", TEXT_TAG_TERMINATOR);
    LastIndexOfBeforeSuffix(content, TEXT_TAG_TERMINATOR, "");
    assert tail + "" == tail;
    assert tail[..|content|] == content;
  }

  /** A payload on one line, `<text xml:space="preserve">content</text>`
      (indented or not), gives exactly `content`. */
  lemma SingleLineText(indent: string, content: string, rest: seq<string>)
    requires forall i :: 0 <= i < |indent| ==> IsWhitespace(indent[i])
    ensures ReadTextTagText([indent + TEXT_OPEN + content + TEXT_TAG_TERMINATOR] + rest)
            == Ok(Parsed(content, rest))
  {
    TextOpenShape();
    var pre := "<text xml:space=\"preserve\"";
    OneLineText(indent, pre, content, rest);
    assert indent + TEXT_OPEN + content + TEXT_TAG_TERMINATOR == indent + pre + ">" + content + TEXT_TAG_TERMINATOR;
  }

  /** `readPageInternal`: the title is the line after the `<page>` line,
      the id the line after the `</ns>` line parsed as a Long (a non-numeric
      id fails), and the text is read from the lines after the `</format>`
      line. The three stages follow the three skips of the source. */
  function ReadPage(lines: seq<string>): (r: Result<Parsed<WikiPage>>)
    ensures r.Ok? ==> |r.value.rest| < |lines|
  {
    match SkipToLineEndingAs(lines, PAGE_OPEN)
    case Fail(e) => Fail(e)
    case Ok(afterPage) => ReadFromTitle(afterPage)
  }

  /** The title line, then the skip to `</ns>` and the rest of the page. */
  function ReadFromTitle(lines: seq<string>): (r: Result<Parsed<WikiPage>>)
    ensures r.Ok? ==> |r.value.rest| < |lines|
  {
    match ReadOneLineTagText(lines)
    case Fail(e) => Fail(e)
    case Ok(title) =>
      match SkipToLineEndingAs(title.rest, NS_CLOSE)
      case Fail(e) => Fail(e)
      case Ok(afterNs) => ReadFromId(title.value, afterNs)
  }

  /** The id line, then the skip to `</format>` and the text. */
  function ReadFromId(title: string, lines: seq<string>): (r: Result<Parsed<WikiPage>>)
    ensures r.Ok? ==> |r.value.rest| < |lines|
  {
    match ReadOneLineTagText(lines)
    case Fail(e) => Fail(e)
    case Ok(idText) =>
      match Indexes.LongOrFail(idText.value)
      case Fail(e) => Fail(e)
      case Ok(id) =>
        match SkipToLineEndingAs(idText.rest, FORMAT_CLOSE)
        case Fail(e) => Fail(e)
        case Ok(afterFormat) =>
          match ReadTextTagText(afterFormat)
          case Fail(e) => Fail(e)
          case Ok(text) => Ok(Parsed(WikiPage(id, title, text.value), text.rest))
  }

  /** Lines none of which ends with `<page>` are passed over by the next
      page read. */
  lemma ReadPagePastPrefix(a: seq<string>, b: seq<string>)
    requires forall k :: 0 <= k < |a| ==> !LineEndsWith(a[k], PAGE_OPEN)
    ensures ReadPage(a + b) == ReadPage(b)
  {
    SkipPastPrefix(a, b, PAGE_OPEN);
  }

  /** Line `k` is the first line from index `from` on whose trimmed form
      ends with `marker`. */
  ghost predicate FirstEndingAt(lines: seq<string>, from: nat, marker: string, k: nat) {
    from <= k < |lines| && LineEndsWith(lines[k], marker)
    && forall j :: from <= j < k ==> !LineEndsWith(lines[j], marker)
  }

  /** No line from index `from` on ends with `marker`. */
  ghost predicate NoneEndingFrom(lines: seq<string>, from: nat, marker: string) {
    forall j :: from <= j < |lines| ==> !LineEndsWith(lines[j], marker)
  }

  /** Skipping from index `from` stops right after the first matching line. */
  lemma SkipToFirst(lines: seq<string>, from: nat, marker: string, k: nat)
    requires FirstEndingAt(lines, from, marker, k)
    ensures SkipToLineEndingAs(lines[from..], marker) == Ok(lines[k + 1..])
  {
    var a := lines[from..k];
    var b := lines[k..];
    assert lines[from..] == a + b;
    assert forall i :: 0 <= i < |a| ==> a[i] == lines[from + i];
    SkipPastPrefix(a, b, marker);
    assert b[0] == lines[k] && b[1..] == lines[k + 1..];
  }

  /** Skipping from index `from` fails when no later line matches. */
  lemma SkipToNone(lines: seq<string>, from: nat, marker: string)
    requires from <= |lines| && NoneEndingFrom(lines, from, marker)
    ensures SkipToLineEndingAs(lines[from..], marker) == Fail(EndOfInput)
  {
    var a := lines[from..];
    assert forall i :: 0 <= i < |a| ==> a[i] == lines[from + i];
    SkipStopsAtFirstMatch(a, marker);
    SkipFailsAtEnd(a, marker);
  }

  /** A page read from any lines, once its three marker lines are located:
      `p` the first `<page>` line, `n` the first `</ns>` line after the
      title line, `f` the first `</format>` line after the id line. The
      title is the tag text of line `p + 1`; a non-numeric id (line
      `n + 1`) fails; otherwise the page holds that id and the text read
      from line `f + 1` on, or the text's failure. */
  lemma ReadPageOf(lines: seq<string>, p: nat, n: nat, f: nat)
    requires FirstEndingAt(lines, 0, PAGE_OPEN, p)
    requires FirstEndingAt(lines, p + 2, NS_CLOSE, n)
    requires FirstEndingAt(lines, n + 2, FORMAT_CLOSE, f)
    ensures ParseLong(TagText(lines[n + 1])).None? ==> ReadPage(lines) == Fail(NotANumber)
    ensures ParseLong(TagText(lines[n + 1])).Some? ==>
      ReadPage(lines) == match ReadTextTagText(lines[f + 1..])
                         case Fail(e) => Fail(e)
                         case Ok(t) => Ok(Parsed(WikiPage(ParseLong(TagText(lines[n + 1])).value, TagText(lines[p + 1]), t.value), t.rest))
  {
    assert lines[0..] == lines;
    SkipToFirst(lines, 0, PAGE_OPEN, p);
    assert lines[p + 1..][1..] == lines[p + 2..];
    SkipToFirst(lines, p + 2, NS_CLOSE, n);
    assert ReadPage(lines) == ReadFromId(TagText(lines[p + 1]), lines[n + 1..]);
    ReadFromIdOf(TagText(lines[p + 1]), lines, n, f);
  }

  /** The id stage of `ReadPageOf`. */
  lemma ReadFromIdOf(title: string, lines: seq<string>, n: nat, f: nat)
    requires FirstEndingAt(lines, n + 2, FORMAT_CLOSE, f)
    ensures ParseLong(TagText(lines[n + 1])).None? ==> ReadFromId(title, lines[n + 1..]) == Fail(NotANumber)
    ensures ParseLong(TagText(lines[n + 1])).Some? ==>
      ReadFromId(title, lines[n + 1..]) == match ReadTextTagText(lines[f + 1..])
                         case Fail(e) => Fail(e)
                         case Ok(t) => Ok(Parsed(WikiPage(ParseLong(TagText(lines[n + 1])).value, title, t.value), t.rest))
  {
    var idLine := ReadOneLineTagText(lines[n + 1..]);
    assert lines[n + 1..][1..] == lines[n + 2..];
    assert idLine == Ok(Parsed(TagText(lines[n + 1]), lines[n + 2..]));
    SkipToFirst(lines, n + 2, FORMAT_CLOSE, f);
    assert SkipToLineEndingAs(idLine.value.rest, FORMAT_CLOSE) == Ok(lines[f + 1..]);
  }

  /** Without a `<page>` line there is no page. */
  lemma ReadPageNoPage(lines: seq<string>)
    requires NoneEndingFrom(lines, 0, PAGE_OPEN)
    ensures ReadPage(lines) == Fail(EndOfInput)
  {
    SkipToNone(lines, 0, PAGE_OPEN);
    assert lines[0..] == lines;
  }

  /** Without a `</ns>` line after the title line there is no page. */
  lemma ReadPageNoNs(lines: seq<string>, p: nat)
    requires FirstEndingAt(lines, 0, PAGE_OPEN, p)
    requires NoneEndingFrom(lines, p + 2, NS_CLOSE)
    ensures ReadPage(lines) == Fail(EndOfInput)
  {
    assert lines[0..] == lines;
    SkipToFirst(lines, 0, PAGE_OPEN, p);
    if p + 1 < |lines| {
      assert lines[p + 1..][1..] == lines[p + 2..];
      SkipToNone(lines, p + 2, NS_CLOSE);
    }
  }

  /** Without a `</format>` line after the id line there is no page, once
      the id parses. */
  lemma ReadPageNoFormat(lines: seq<string>, p: nat, n: nat)
    requires FirstEndingAt(lines, 0, PAGE_OPEN, p)
    requires FirstEndingAt(lines, p + 2, NS_CLOSE, n)
    requires NoneEndingFrom(lines, n + 2, FORMAT_CLOSE)
    ensures n + 1 < |lines| && ParseLong(TagText(lines[n + 1])).None? ==> ReadPage(lines) == Fail(NotANumber)
    ensures n + 1 == |lines| || ParseLong(TagText(lines[n + 1])).Some? ==> ReadPage(lines) == Fail(EndOfInput)
  {
    assert lines[0..] == lines;
    SkipToFirst(lines, 0, PAGE_OPEN, p);
    assert lines[p + 1..][1..] == lines[p + 2..];
    SkipToFirst(lines, p + 2, NS_CLOSE, n);
    if n + 1 < |lines| {
      assert lines[n + 1..][1..] == lines[n + 2..];
      SkipToNone(lines, n + 2, FORMAT_CLOSE);
    }
  }

  /** `WikiPagesIterator`: the rest of the block's lines, the count of pages
      returned so far, and the page parsed ahead (null once a parse failed). */
  datatype PagesIter = PagesIter(reader: seq<string>, readPagesCounter: nat, nextPage: Option<WikiPage>)

  /** Construction parses the first page; a failure here is not caught. */
  function Open(lines: seq<string>): (r: Result<PagesIter>)
    ensures r.Ok? <==> ReadPage(lines).Ok?
    ensures r.Ok? ==> r.value.readPagesCounter == 0 && r.value.nextPage.Some?
  {
    var first :- ReadPage(lines);
    Ok(PagesIter(first.rest, 0, Some(first.value)))
  }

  /** `hasNext`: fewer than `MAX_PAGES_PER_STREAM` pages returned and a page
      pending. */
  predicate HasNext(it: PagesIter) {
    it.readPagesCounter < MAX_PAGES_PER_STREAM && it.nextPage.Some?
  }

  /** `next`: returns the pending page, counts it, and parses the following
      page; any failure of that parse becomes "no more pages". */
  function Next(it: PagesIter): (r: Result<Step<WikiPage, PagesIter>>)
    ensures r.Ok? <==> it.nextPage.Some?
    ensures r.Ok? ==> r.value.item == it.nextPage.value
    ensures r.Ok? ==> r.value.after.readPagesCounter == it.readPagesCounter + 1
    ensures r.Ok? ==> (r.value.after.nextPage.Some? <==> ReadPage(it.reader).Ok?)
  {
    match it.nextPage
    case None => Fail(MissingValue)
    case Some(current) =>
      match ReadPage(it.reader)
      case Ok(p) => Ok(Step(current, PagesIter(p.rest, it.readPagesCounter + 1, Some(p.value))))
      case Fail(_) => Ok(Step(current, PagesIter([], it.readPagesCounter + 1, None)))
  }

  function PagesLeft(it: PagesIter): nat {
    if it.readPagesCounter < MAX_PAGES_PER_STREAM then MAX_PAGES_PER_STREAM - it.readPagesCounter else 0
  }

  /** Every page the iterator returns until `hasNext` is false. */
  function Drain(it: PagesIter): seq<WikiPage>
    decreases PagesLeft(it)
  {
    if !HasNext(it) then []
    else
      var s := Next(it).value;
      [s.item] + Drain(s.after)
  }

  /** The reference reading of a block: pages parsed one after another,
      at most `n` of them, stopping at the first parse failure. */
  function ParsePages(lines: seq<string>, n: nat): (r: seq<WikiPage>)
    ensures |r| <= n
    decreases n
  {
    if n == 0 then []
    else
      match ReadPage(lines)
      case Fail(_) => []
      case Ok(p) => [p.value] + ParsePages(p.rest, n - 1)
  }

  /** A successful first read heads the reference reading. */
  lemma ParsePagesFirst(lines: seq<string>, p: WikiPage, rest: seq<string>, n: nat)
    requires ReadPage(lines) == Ok(Parsed(p, rest))
    ensures ParsePages(lines, n + 1) == [p] + ParsePages(rest, n)
  {
  }

  lemma {:induction false} DrainPending(it: PagesIter)
    requires it.readPagesCounter < MAX_PAGES_PER_STREAM && it.nextPage.Some?
    ensures Drain(it) == [it.nextPage.value] + ParsePages(it.reader, MAX_PAGES_PER_STREAM - it.readPagesCounter - 1)
    decreases PagesLeft(it)
  {
    var s := Next(it).value;
    var n := MAX_PAGES_PER_STREAM - it.readPagesCounter - 1;
    if s.after.readPagesCounter < MAX_PAGES_PER_STREAM && s.after.nextPage.Some? {
      DrainPending(s.after);
    }
  }

  /** The first page read by the constructor followed by the rest. */
  lemma DrainFromFirst(lines: seq<string>, it: PagesIter)
    requires it.readPagesCounter == 0 && it.nextPage.Some?
    requires ReadPage(lines) == Ok(Parsed(it.nextPage.value, it.reader))
    ensures Drain(it) == ParsePages(lines, MAX_PAGES_PER_STREAM)
  {
    DrainPending(it);
    ParsePagesFirst(lines, it.nextPage.value, it.reader, MAX_PAGES_PER_STREAM - it.readPagesCounter - 1);
    assert MAX_PAGES_PER_STREAM - it.readPagesCounter - 1 + 1 == MAX_PAGES_PER_STREAM;
  }

  /** The iterator over a block yields exactly the first
      `MAX_PAGES_PER_STREAM` pages of the reference reading, so never more
      than 100 pages, and a parse failure after the first page ends it. */
  lemma DrainOpen(lines: seq<string>, it: PagesIter)
    requires Open(lines) == Ok(it)
    ensures Drain(it) == ParsePages(lines, MAX_PAGES_PER_STREAM)
    ensures 1 <= |Drain(it)| <= MAX_PAGES_PER_STREAM
  {
    DrainFromFirst(lines, it);
  }

  /** The decoded archive: the lines of the block that starts at each byte
      offset. An offset that is not a key stands for a failed skip. */
  type Archive = map<int, seq<string>>

  /** `BZip2at(offset)`: the decoded lines of the block at `offset`. */
  function OpenBlock(archive: Archive, offset: int): (r: Result<seq<string>>)
    ensures r.Ok? <==> offset in archive
    ensures r.Ok? ==> r.value == archive[offset]
  {
    if offset in archive then Ok(archive[offset]) else Fail(SeekFailed)
  }

  /** All pages the extractor returns from the block at `offset`. */
  function BlockPages(archive: Archive, offset: int): (r: Result<seq<WikiPage>>)
    ensures r.Ok? <==> offset in archive && Open(archive[offset]).Ok?
    ensures r.Ok? ==> r.value == ParsePages(archive[offset], MAX_PAGES_PER_STREAM)
  {
    var lines :- OpenBlock(archive, offset);
    var it :- Open(lines);
    DrainOpen(lines, it);
    Ok(Drain(it))
  }

  /** `asSequence().find { it.id == id }`. */
  function FindById(pages: seq<WikiPage>, id: int): (r: Option<WikiPage>)
    ensures r.None? <==> forall k :: 0 <= k < |pages| ==> pages[k].id != id
    ensures r.Some? ==> exists k :: 0 <= k < |pages| && pages[k] == r.value && r.value.id == id
                         && forall j :: 0 <= j < k ==> pages[j].id != id
    decreases |pages|
  {
    if |pages| == 0 then None
    else if pages[0].id == id then Some(pages[0])
    else
      var r := FindById(pages[1..], id);
      assert forall k :: 1 <= k < |pages| ==> pages[k] == pages[1..][k - 1];
      if r.Some? then
        var k :| 0 <= k < |pages[1..]| && pages[1..][k] == r.value && r.value.id == id
                 && forall j :: 0 <= j < k ==> pages[1..][j].id != id;
        assert pages[k + 1] == r.value;
        r
      else r
  }

  /** `getPageByIndex`: the first page with the entry's id in the block at
      the entry's offset; failing when the block does not open or holds no
      such page among the pages the extractor returns. */
  function GetPageByIndex(archive: Archive, index: Indexes.WikiPageIndex): (r: Result<WikiPage>)
    ensures r.Ok? <==> (BlockPages(archive, index.offsetFromStart).Ok?
                      && exists k :: 0 <= k < |BlockPages(archive, index.offsetFromStart).value|
                                     && BlockPages(archive, index.offsetFromStart).value[k].id == index.id)
    ensures r.Ok? ==> r.value.id == index.id
    ensures r.Ok? ==>
      var pages := BlockPages(archive, index.offsetFromStart).value;
      exists k :: 0 <= k < |pages| && pages[k] == r.value && forall j :: 0 <= j < k ==> pages[j].id != index.id
  {
    var pages :- BlockPages(archive, index.offsetFromStart);
    match FindById(pages, index.id)
    case None => Fail(MissingValue)
    case Some(p) => Ok(p)
  }
}

=== FILE: results.dfy ===
/** Failure-compatible wrappers shared by every module of the model.

    Kotlin's nullable results become `Option`, and the exceptions the
    parsers let escape become `Result.Fail` carrying the kind of failure. */
module Results {

  /** A nullable value: `None` stands for Kotlin's `null`. */
  datatype Option<+T> = None | Some(value: T) {
    predicate IsFailure() {
      None?
    }

    function PropagateFailure<U>(): Option<U>
      requires None?
    {
      None
    }

    function Extract(): T
      requires Some?
    {
      value
    }
  }

  /** The exceptions that can escape from the modelled code. */
  datatype Error =
    | EndOfInput        // a read past the last line (`readLine()` gave null)
    | NotANumber        // `toLong()` / `toInt()` rejected its text
    | IndexOutOfRange   // `substring(n)` with n > length, or `split[1]` of a one-field split
    | MissingValue      // a `!!` applied to null
    | SeekFailed        // the archive holds no block at the requested offset
    | BadTimestamp      // the timestamp parser rejected its text

  /** The outcome of an operation that may throw. */
  datatype Result<+T> = Ok(value: T) | Fail(error: Error) {
    predicate IsFailure() {
      Fail?
    }

    function PropagateFailure<U>(): Result<U>
      requires Fail?
    {
      Fail(error)
    }

    function Extract(): T
      requires Ok?
    {
      value
    }
  }

  /** A value read from a line source together with the lines left unread. */
  datatype Parsed<+T> = Parsed(value: T, rest: seq<string>)

  /** What an iterator's `next()` gives: the item and the iterator's new state. */
  datatype Step<+T, +S> = Step(item: T, after: S)
}

=== FILE: sql_batches.dfy ===
/** The shared skeleton of `CategoriesIterator` and `CategoryLinksIterator`:
    a queue of parsed rows that is refilled from the next `INSERT` line of
    the SQL dump whenever `next()` empties it.

    The two iterators differ only in the `INSERT` prefix and in how the text
    after it becomes rows; both are passed in here as `prefix` and `parse`. */
module SqlBatches {
  import opened Results
  import opened KString

  /** Separates the rows of one `INSERT ... VALUES (...),(...);` line. */
  const ROWS_DELIMITER: string := "),("

  /** `getNextInsert()`: reads lines until one starts with `prefix` and
      returns it with the lines still unread; `None` once the reader is
      exhausted, which leaves nothing unread. */
  function NextInsert(lines: seq<string>, prefix: string): (r: Step<Option<string>, seq<string>>)
    ensures |r.after| <= |lines|
    ensures r.item.Some? ==> StartsWith(r.item.value, prefix) && |r.after| < |lines|
    ensures r.item.None? ==> r.after == []
    decreases |lines|
  {
    if |lines| == 0 then Step(None, [])
    else if StartsWith(lines[0], prefix) then Step(Some(lines[0]), lines[1..])
    else NextInsert(lines[1..], prefix)
  }

  /** Reference: the `INSERT` lines of a dump, in order. */
  function InsertLines(lines: seq<string>, prefix: string): (r: seq<string>)
    ensures |r| <= |lines|
    decreases |lines|
  {
    if |lines| == 0 then []
    else if StartsWith(lines[0], prefix) then [lines[0]] + InsertLines(lines[1..], prefix)
    else InsertLines(lines[1..], prefix)
  }

  /** `getNextInsert()` returns the first `INSERT` line, and the lines it
      leaves unread hold exactly the remaining `INSERT` lines; it returns
      `null` exactly when there is no `INSERT` line left. */
  lemma {:induction false} NextInsertIsFirst(lines: seq<string>, prefix: string)
    ensures NextInsert(lines, prefix).item.None? <==> InsertLines(lines, prefix) == []
    ensures NextInsert(lines, prefix).item.Some? ==>
      InsertLines(lines, prefix) ==
        [NextInsert(lines, prefix).item.value] + InsertLines(NextInsert(lines, prefix).after, prefix)
    decreases |lines|
  {
    if |lines| > 0 && !StartsWith(lines[0], prefix) {
      NextInsertIsFirst(lines[1..], prefix);
    }
  }

  /** A line of the dump is an `INSERT` line exactly when it starts with
      the prefix. */
  lemma {:induction false} InsertLinesMembers(lines: seq<string>, prefix: string)
    ensures forall l :: l in InsertLines(lines, prefix) <==> l in lines && StartsWith(l, prefix)
    decreases |lines|
  {
    if |lines| > 0 {
      InsertLinesMembers(lines[1..], prefix);
      assert lines == [lines[0]] + lines[1..];
    }
  }

  /** Reading on past the end of a dump only appends the `INSERT` lines of
      what follows. */
  lemma {:induction false} InsertLinesAppend(lines: seq<string>, more: seq<string>, prefix: string)
    ensures InsertLines(lines + more, prefix) == InsertLines(lines, prefix) + InsertLines(more, prefix)
    decreases |lines|
  {
    if |lines| == 0 {
      assert lines + more == more;
    } else {
      assert (lines + more)[1..] == lines[1..] + more;
      InsertLinesAppend(lines[1..], more, prefix);
    }
  }

  /** The text of an `INSERT` line after its prefix: `substringAfter(prefix)`. */
  function Body(line: string, prefix: string): (r: string)
    ensures StartsWith(line, prefix) && |prefix| > 0 ==> line == prefix + r
  {
    if StartsWith(line, prefix) && |prefix| > 0 then
      assert IndexOf(line, prefix) == Some(0);
      assert line == line[..|prefix|] + line[|prefix|..];
      SubstringAfter(line, prefix)
    else SubstringAfter(line, prefix)
  }

  /** The iterator: rows parsed but not yet returned, and the unread lines. */
  datatype BatchIter<T> = BatchIter(queue: seq<T>, reader: seq<string>)

  /** `readCategoriesInternal()` / `readCategoryLinksInternal()`: parse the
      next `INSERT` line into the queue; with none left the queue stays
      empty. A parse failure escapes. */
  function Refill<T>(reader: seq<string>, prefix: string, parse: string -> Result<seq<T>>): (r: Result<BatchIter<T>>)
    ensures r.Ok? ==> |r.value.reader| <= |reader|
    ensures r.Ok? && |r.value.queue| > 0 ==> |r.value.reader| < |reader|
  {
    var ins := NextInsert(reader, prefix);
    match ins.item
    case None => Ok(BatchIter([], ins.after))
    case Some(line) =>
      match parse(Body(line, prefix))
      case Fail(e) => Fail(e)
      case Ok(rows) => Ok(BatchIter(rows, ins.after))
  }

  /** The constructor's `init` block: one refill. */
  function Open<T>(lines: seq<string>, prefix: string, parse: string -> Result<seq<T>>): (r: Result<BatchIter<T>>)
    ensures r.Ok? ==> |r.value.reader| <= |lines|
  {
    Refill(lines, prefix, parse)
  }

  /** `hasNext()`: the queue is not empty. */
  predicate HasNext<T>(it: BatchIter<T>) {
    |it.queue| > 0
  }

  /** `next()`: take the head of the queue, and refill when that emptied it.
      On an empty queue `poll()` gives `null`, modelled as `MissingValue`. */
  function Next<T>(it: BatchIter<T>, prefix: string, parse: string -> Result<seq<T>>): (r: Result<Step<T, BatchIter<T>>>)
    ensures r.Ok? <==> HasNext(it) && (|it.queue| > 1 || Refill(it.reader, prefix, parse).Ok?)
    ensures r.Ok? ==> r.value.item == it.queue[0]
    ensures r.Ok? && |it.queue| > 1 ==> r.value.after == BatchIter(it.queue[1..], it.reader)
    ensures r.Ok? && |it.queue| == 1 ==> Ok(r.value.after) == Refill(it.reader, prefix, parse)
    ensures r.Ok? ==> |r.value.after.reader| < |it.reader|
                      || (|r.value.after.reader| == |it.reader| && |r.value.after.queue| < |it.queue|)
  {
    if |it.queue| == 0 then Fail(MissingValue)
    else if |it.queue| > 1 then Ok(Step(it.queue[0], BatchIter(it.queue[1..], it.reader)))
    else
      match Refill(it.reader, prefix, parse)
      case Fail(e) => Fail(e)
      case Ok(refilled) => Ok(Step(it.queue[0], refilled))
  }

  /** Calls `next()` while `hasNext()` holds and collects what it returns. */
  function Drain<T>(it: BatchIter<T>, prefix: string, parse: string -> Result<seq<T>>): (r: Result<seq<T>>)
    decreases |it.reader|, |it.queue|
  {
    if !HasNext(it) then Ok([])
    else
      match Next(it, prefix, parse)
      case Fail(e) => Fail(e)
      case Ok(step) =>
        match Drain(step.after, prefix, parse)
        case Fail(e) => Fail(e)
        case Ok(rest) => Ok([step.item] + rest)
  }

  /** Opens an iterator over a dump and drains it. */
  function Run<T>(lines: seq<string>, prefix: string, parse: string -> Result<seq<T>>): (r: Result<seq<T>>)
  {
    match Open(lines, prefix, parse)
    case Fail(e) => Fail(e)
    case Ok(it) => Drain(it, prefix, parse)
  }

  /** `rows` in front of a result, failures passed through. */
  function Prepend<T>(rows: seq<T>, r: Result<seq<T>>): Result<seq<T>> {
    match r
    case Fail(e) => Fail(e)
    case Ok(v) => Ok(rows + v)
  }

  /** Reference reading of a list of `INSERT` lines: the rows of each line
      in turn, up to the first line that yields no rows; the first parse
      failure up to that point is the outcome. */
  function Collected<T>(inserts: seq<string>, prefix: string, parse: string -> Result<seq<T>>): (r: Result<seq<T>>)
    decreases |inserts|
  {
    if |inserts| == 0 then Ok([])
    else
      match parse(Body(inserts[0], prefix))
      case Fail(e) => Fail(e)
      case Ok(rows) =>
        if |rows| == 0 then Ok([]) else Prepend(rows, Collected(inserts[1..], prefix, parse))
  }

  /** Reference reading of a whole dump. */
  function Reference<T>(lines: seq<string>, prefix: string, parse: string -> Result<seq<T>>): Result<seq<T>> {
    Collected(InsertLines(lines, prefix), prefix, parse)
  }

  lemma ConsAppend<T>(x: T, a: seq<T>, b: seq<T>)
    ensures [x] + (a + b) == ([x] + a) + b
  {
  }

  /** Draining a non-empty queue yields the queue followed by whatever the
      unread lines yield. */
  lemma {:induction false} DrainQueue<T>(q: seq<T>, reader: seq<string>, prefix: string, parse: string -> Result<seq<T>>)
    requires |q| > 0
    ensures Drain(BatchIter(q, reader), prefix, parse) == Prepend(q, Run(reader, prefix, parse))
    decreases |q|
  {
    var it := BatchIter(q, reader);
    if |q| > 1 {
      var tail := q[1..];
      DrainQueue(tail, reader, prefix, parse);
      match Run(reader, prefix, parse)
      case Fail(_) =>
      case Ok(v) =>
        ConsAppend(q[0], tail, v);
        assert [q[0]] + tail == q;
    } else {
      assert [q[0]] == q;
    }
  }

  /** The iterator yields exactly the reference reading: the rows of each
      `INSERT` line in turn, stopping at the first line that yields no rows,
      and failing with the first parse failure met before that. */
  lemma {:induction false} RunIsReference<T>(lines: seq<string>, prefix: string, parse: string -> Result<seq<T>>)
    ensures Run(lines, prefix, parse) == Reference(lines, prefix, parse)
    decreases |lines|
  {
    NextInsertIsFirst(lines, prefix);
    var ins := NextInsert(lines, prefix);
    match ins.item
    case None =>
    case Some(line) =>
      var inserts := InsertLines(lines, prefix);
      assert inserts[0] == line && inserts[1..] == InsertLines(ins.after, prefix);
      match parse(Body(line, prefix))
      case Fail(_) =>
      case Ok(rows) =>
        if |rows| > 0 {
          DrainQueue(rows, ins.after, prefix, parse);
          RunIsReference(ins.after, prefix, parse);
        }
  }

  /** Once a line yields no rows, the `INSERT` lines after it do not matter. */
  lemma {:induction false} CollectedStopsAtEmpty<T>(inserts: seq<string>, k: nat, tail: seq<string>, prefix: string,
                                                    parse: string -> Result<seq<T>>)
    requires k < |inserts| && parse(Body(inserts[k], prefix)) == Ok([])
    ensures Collected(inserts + tail, prefix, parse) == Collected(inserts, prefix, parse)
    decreases k
  {
    assert (inserts + tail)[0] == inserts[0];
    if k > 0 {
      assert (inserts + tail)[1..] == inserts[1..] + tail;
      var j: nat := k - 1;
      assert inserts[1..][j] == inserts[k];
      CollectedStopsAtEmpty(inserts[1..], j, tail, prefix, parse);
    }
  }

  /** The iterator stops at the first `INSERT` line that yields no rows:
      whatever follows it in the dump is never read, even further `INSERT`
      lines. */
  lemma StopsAtEmptyBatch<T>(lines: seq<string>, more: seq<string>, k: nat, prefix: string,
                             parse: string -> Result<seq<T>>)
    requires k < |InsertLines(lines, prefix)|
    requires parse(Body(InsertLines(lines, prefix)[k], prefix)) == Ok([])
    ensures Run(lines + more, prefix, parse) == Run(lines, prefix, parse)
  {
    RunIsReference(lines, prefix, parse);
    RunIsReference(lines + more, prefix, parse);
    InsertLinesAppend(lines, more, prefix);
    CollectedStopsAtEmpty(InsertLines(lines, prefix), k, InsertLines(more, prefix), prefix, parse);
  }

  /** Every row the reference reading yields was parsed from one of the
      `INSERT` lines it read. */
  lemma {:induction false} CollectedFrom<T>(inserts: seq<string>, prefix: string, parse: string -> Result<seq<T>>, x: T)
    requires Collected(inserts, prefix, parse).Ok? && x in Collected(inserts, prefix, parse).value
    ensures exists k :: 0 <= k < |inserts| && parse(Body(inserts[k], prefix)).Ok? && x in parse(Body(inserts[k], prefix)).value
    decreases |inserts|
  {
    var rows := parse(Body(inserts[0], prefix)).value;
    if x !in rows {
      CollectedFrom(inserts[1..], prefix, parse, x);
      var k :| 0 <= k < |inserts[1..]| && parse(Body(inserts[1..][k], prefix)).Ok? && x in parse(Body(inserts[1..][k], prefix)).value;
      assert inserts[1..][k] == inserts[k + 1];
    }
  }

  /** When every `INSERT` line parses into at least one row, the reference
      reading is the concatenation of all of them: no row is lost. */
  lemma {:induction false} CollectedAll<T>(inserts: seq<string>, prefix: string, parse: string -> Result<seq<T>>, k: nat)
    requires forall j :: 0 <= j < |inserts| ==> parse(Body(inserts[j], prefix)).Ok? && |parse(Body(inserts[j], prefix)).value| > 0
    requires k < |inserts|
    ensures Collected(inserts, prefix, parse).Ok?
    ensures forall x :: x in parse(Body(inserts[k], prefix)).value ==> x in Collected(inserts, prefix, parse).value
    decreases |inserts|
  {
    assert parse(Body(inserts[0], prefix)).Ok?;
    if |inserts| > 1 {
      var tail := inserts[1..];
      assert forall j :: 0 <= j < |tail| ==> tail[j] == inserts[j + 1];
      var j: nat := if k > 0 then k - 1 else 0;
      CollectedAll(tail, prefix, parse, j);
      if k > 0 {
        assert tail[j] == inserts[k];
      }
    } else {
      assert inserts[1..] == [];
    }
  }

  /** A line that fails to parse, reached before any line without rows,
      makes the whole reading fail. */
  lemma {:induction false} CollectedFailsAt<T>(inserts: seq<string>, k: nat, prefix: string, parse: string -> Result<seq<T>>)
    requires k < |inserts|
    requires forall j :: 0 <= j < k ==> parse(Body(inserts[j], prefix)).Ok? && |parse(Body(inserts[j], prefix)).value| > 0
    requires parse(Body(inserts[k], prefix)).Fail?
    ensures Collected(inserts, prefix, parse).Fail?
    decreases k
  {
    if k > 0 {
      var tail := inserts[1..];
      assert forall j :: 0 <= j < |tail| ==> tail[j] == inserts[j + 1];
      var i: nat := k - 1;
      CollectedFailsAt(tail, i, prefix, parse);
      assert parse(Body(inserts[0], prefix)).Ok?;
    }
  }
}

=== FILE: tasks.dfy ===
/** The query helpers: pages whose index entries satisfy a condition,
    optionally following redirects one hop, and the lookup of one page by
    its index entry. */
module Tasks {
  import opened Results
  import Indexes
  import Pages
  import Facade

  /* ---------- Selecting index entries ---------- */

  /** `filter(condition).toList()`: the entries satisfying `cond`, in order. */
  function Matching(es: seq<Indexes.WikiPageIndex>, cond: Indexes.WikiPageIndex -> bool): (r: seq<Indexes.WikiPageIndex>)
    ensures |r| <= |es|
    decreases |es|
  {
    if |es| == 0 then []
    else if cond(es[0]) then [es[0]] + Matching(es[1..], cond)
    else Matching(es[1..], cond)
  }

  /** An entry is selected exactly when it is in the index and satisfies
      the condition. */
  lemma {:induction false} MatchingMembers(es: seq<Indexes.WikiPageIndex>, cond: Indexes.WikiPageIndex -> bool)
    ensures forall e :: e in Matching(es, cond) <==> e in es && cond(e)
    decreases |es|
  {
    if |es| > 0 {
      MatchingMembers(es[1..], cond);
      assert es == [es[0]] + es[1..];
    }
  }

  /** The keys of `groupBy { it.offsetFromStart }`: each offset once, in
      order of first appearance, after the keys already in `acc`. */
  function GroupKeys(es: seq<Indexes.WikiPageIndex>, acc: seq<int>): seq<int>
    decreases |es|
  {
    if |es| == 0 then acc
    else if es[0].offsetFromStart in acc then GroupKeys(es[1..], acc)
    else GroupKeys(es[1..], acc + [es[0].offsetFromStart])
  }

  predicate NoDuplicates(s: seq<int>) {
    forall i, j :: 0 <= i < j < |s| ==> s[i] != s[j]
  }

  /** Grouping names every offset of the entries, no other, and none twice:
      each block of interest is opened exactly once. */
  lemma {:induction false} GroupKeysSpec(es: seq<Indexes.WikiPageIndex>, acc: seq<int>)
    requires NoDuplicates(acc)
    ensures NoDuplicates(GroupKeys(es, acc))
    ensures forall o :: o in GroupKeys(es, acc) <==> o in acc || exists e :: e in es && e.offsetFromStart == o
    decreases |es|
  {
    if |es| > 0 {
      var o := es[0].offsetFromStart;
      var acc' := if o in acc then acc else acc + [o];
      if o !in acc {
        forall i, j | 0 <= i < j < |acc'| ensures acc'[i] != acc'[j] {
          if j == |acc| {
            assert acc'[i] == acc[i];
          }
        }
      }
      GroupKeysSpec(es[1..], acc');
      assert es == [es[0]] + es[1..];
    }
  }

  /** The ids of the entries that point into block `offset`. */
  function IdsAt(es: seq<Indexes.WikiPageIndex>, offset: int): set<int> {
    set e | e in es && e.offsetFromStart == offset :: e.id
  }

  /** The pages of `pages` whose id is one of `ids`. */
  function Selected(pages: seq<Pages.WikiPage>, ids: set<int>): set<Pages.WikiPage> {
    set p | p in pages && p.id in ids
  }

  /** The per-block loop: every page of each block in `keys` whose id an
      entry of interest names for that block; the first block that does not
      open fails the query. */
  function Collect(read: int -> Result<seq<Pages.WikiPage>>, es: seq<Indexes.WikiPageIndex>, keys: seq<int>): Result<set<Pages.WikiPage>>
    decreases |keys|
  {
    if |keys| == 0 then Ok({})
    else
      match read(keys[0])
      case Fail(e) => Fail(e)
      case Ok(ps) =>
        match Collect(read, es, keys[1..])
        case Fail(e) => Fail(e)
        case Ok(rest) => Ok(Selected(ps, IdsAt(es, keys[0])) + rest)
  }

  /** The loop succeeds exactly when every block opens, and then holds the
      pages of those blocks that an entry names for their block. */
  lemma {:induction false} CollectSpec(read: int -> Result<seq<Pages.WikiPage>>, es: seq<Indexes.WikiPageIndex>, keys: seq<int>)
    ensures Collect(read, es, keys).Ok? <==> forall k :: k in keys ==> read(k).Ok?
    ensures Collect(read, es, keys).Ok? ==>
      forall p :: p in Collect(read, es, keys).value <==>
        exists k :: k in keys && p in read(k).value && p.id in IdsAt(es, k)
    decreases |keys|
  {
    if |keys| > 0 {
      var tail := keys[1..];
      CollectSpec(read, es, tail);
      assert keys == [keys[0]] + tail;
      if read(keys[0]).Ok? && Collect(read, es, tail).Fail? {
        var k :| k in tail && read(k).Fail?;
        assert k in keys;
      }
    }
  }

  /** The selection and the per-block loop over the entries of an index,
      reading blocks through `read`. */
  function Query(read: int -> Result<seq<Pages.WikiPage>>, entries: seq<Indexes.WikiPageIndex>, cond: Indexes.WikiPageIndex -> bool): Result<set<Pages.WikiPage>> {
    var interest := Matching(entries, cond);
    Collect(read, interest, GroupKeys(interest, []))
  }

  /** A page is found exactly when a matching entry names its id and the
      block the entry points to holds it; the loop fails exactly when a
      block of interest cannot be read. */
  lemma QuerySpec(read: int -> Result<seq<Pages.WikiPage>>, entries: seq<Indexes.WikiPageIndex>, cond: Indexes.WikiPageIndex -> bool)
    ensures Query(read, entries, cond).Ok? <==>
      forall e :: e in entries && cond(e) ==> read(e.offsetFromStart).Ok?
    ensures Query(read, entries, cond).Ok? ==>
      forall p :: p in Query(read, entries, cond).value <==>
        exists e :: e in entries && cond(e) && p in read(e.offsetFromStart).value && p.id == e.id
  {
    var interest := Matching(entries, cond);
    var keys := GroupKeys(interest, []);
    MatchingMembers(entries, cond);
    GroupKeysSpec(interest, []);
    CollectSpec(read, interest, keys);
    if Query(read, entries, cond).Ok? {
      forall p | p in Query(read, entries, cond).value
        ensures exists e :: e in entries && cond(e) && p in read(e.offsetFromStart).value && p.id == e.id
      {
        var k :| k in keys && p in read(k).value && p.id in IdsAt(interest, k);
        var e :| e in interest && e.offsetFromStart == k && e.id == p.id;
      }
      forall p | exists e :: e in entries && cond(e) && p in read(e.offsetFromStart).value && p.id == e.id
        ensures p in Query(read, entries, cond).value
      {
        var e :| e in entries && cond(e) && p in read(e.offsetFromStart).value && p.id == e.id;
        assert e.id in IdsAt(interest, e.offsetFromStart);
      }
    } else {
      var k :| k in keys && read(k).Fail?;
      var e :| e in interest && e.offsetFromStart == k;
    }
  }

  /** `asIndexesIterator().asSequence().toList()`: every entry of the
      index, read through the iterator. */
  function ReadIndex(indexLines: seq<string>): Result<seq<Indexes.WikiPageIndex>> {
    match Indexes.Open(indexLines)
    case Fail(e) => Fail(e)
    case Ok(it) => Indexes.Drain(it)
  }

  /** `findPagesByIndexCondition`: the whole index is read first, then each
      block named by a matching entry is opened once and the pages whose id
      a matching entry names for that block are kept. */
  function FindPagesByIndexCondition(archive: Pages.Archive, indexLines: seq<string>, cond: Indexes.WikiPageIndex -> bool): Result<set<Pages.WikiPage>> {
    match ReadIndex(indexLines)
    case Fail(e) => Fail(e)
    case Ok(entries) => Query(Facade.BlockReader(archive), entries, cond)
  }

  /** The query fails when the index does not parse, and otherwise runs the
      loop over the entries of the reference reading of the index, with
      each block read as the pages the extractor returns from it. */
  lemma FindPagesSpec(archive: Pages.Archive, indexLines: seq<string>, cond: Indexes.WikiPageIndex -> bool)
    ensures Indexes.ParseAll(indexLines).Fail? ==> FindPagesByIndexCondition(archive, indexLines, cond).Fail?
    ensures Indexes.ParseAll(indexLines).Ok? ==>
      FindPagesByIndexCondition(archive, indexLines, cond) == Query(Facade.BlockReader(archive), Indexes.ParseAll(indexLines).value, cond)
    ensures forall o :: Facade.BlockReader(archive)(o) == Pages.BlockPages(archive, o)
  {
    Indexes.ReadWholeIndex(indexLines);
  }

  /** With no matching entry the result is empty whatever the archive holds:
      no block is opened. */
  lemma NoMatchOpensNothing(archive: Pages.Archive, indexLines: seq<string>, cond: Indexes.WikiPageIndex -> bool)
    requires Indexes.ParseAll(indexLines).Ok?
    requires forall e :: e in Indexes.ParseAll(indexLines).value ==> !cond(e)
    ensures FindPagesByIndexCondition(archive, indexLines, cond) == Ok({})
  {
    FindPagesSpec(archive, indexLines, cond);
    MatchingNone(Indexes.ParseAll(indexLines).value, cond);
  }

  lemma {:induction false} MatchingNone(es: seq<Indexes.WikiPageIndex>, cond: Indexes.WikiPageIndex -> bool)
    requires forall e :: e in es ==> !cond(e)
    ensures Matching(es, cond) == []
    decreases |es|
  {
    if |es| > 0 {
      assert es[0] in es;
      assert forall e :: e in es[1..] ==> e in es;
      MatchingNone(es[1..], cond);
    }
  }

  /* ---------- Following redirects ---------- */

  /** The titles the redirect pages among `pages` point to. */
  function Targets(pages: set<Pages.WikiPage>, isRedirect: Pages.WikiPage -> bool, target: Pages.WikiPage -> string): set<string> {
    set p | p in pages && isRedirect(p) :: target(p)
  }

  /** The second pass's condition: the entry's title is one of `titles`. */
  function TitleIn(titles: set<string>): Indexes.WikiPageIndex -> bool {
    (e: Indexes.WikiPageIndex) => e.title in titles
  }

  /** `findNonRedirectingPagesByIndexCondition`: the pages found for `cond`
      that are not redirects, plus the pages found for the entries whose
      title is the target of a redirect found for `cond`. Redirects are
      followed one hop: a page of the second pass is kept even when it is a
      redirect itself. `isRedirect` and `target` stand for
      `isRedirectPage` and `getRedirectPageTitle`. */
  function FindNonRedirectingPagesByIndexCondition(
    archive: Pages.Archive, indexLines: seq<string>, cond: Indexes.WikiPageIndex -> bool,
    isRedirect: Pages.WikiPage -> bool, target: Pages.WikiPage -> string): Result<set<Pages.WikiPage>>
  {
    match FindPagesByIndexCondition(archive, indexLines, cond)
    case Fail(e) => Fail(e)
    case Ok(first) =>
      var targets := Targets(first, isRedirect, target);
      match FindPagesByIndexCondition(archive, indexLines, TitleIn(targets))
      case Fail(e) => Fail(e)
      case Ok(redirected) => Ok((set p | p in first && !isRedirect(p)) + redirected)
  }

  /** A page is in the result exactly when it is a non-redirect found for
      `cond`, or a page named by an index entry whose title some redirect
      found for `cond` points to; the second pass fails only where the
      first could. */
  lemma NonRedirectingSpec(
    archive: Pages.Archive, indexLines: seq<string>, cond: Indexes.WikiPageIndex -> bool,
    isRedirect: Pages.WikiPage -> bool, target: Pages.WikiPage -> string,
    entries: seq<Indexes.WikiPageIndex>, first: set<Pages.WikiPage>)
    requires Indexes.ParseAll(indexLines) == Ok(entries)
    requires FindPagesByIndexCondition(archive, indexLines, cond) == Ok(first)
    ensures var r := FindNonRedirectingPagesByIndexCondition(archive, indexLines, cond, isRedirect, target);
      var second := Query(Facade.BlockReader(archive), entries, TitleIn(Targets(first, isRedirect, target)));
      (r.Ok? <==> second.Ok?)
      && (r.Ok? ==> forall p :: p in r.value <==> (p in first && !isRedirect(p)) || p in second.value)
  {
    FindPagesSpec(archive, indexLines, cond);
    FindPagesSpec(archive, indexLines, TitleIn(Targets(first, isRedirect, target)));
  }

  /* ---------- `getPageByIndex` ---------- */

  /** A dump file: a multistream archive (a name ending in `.bz2`) or an
      uncompressed dump given by its lines. */
  datatype Dump = Multistream(archive: Pages.Archive) | Unpacked(lines: seq<string>)

  /** The archive is searched in the block the entry points to; an
      uncompressed dump is searched from its first page, whatever the
      entry's offset. The `!!` fails when no page has the entry's id. */
  function GetPageByIndex(dump: Dump, index: Indexes.WikiPageIndex): (r: Result<Pages.WikiPage>)
    ensures r.Ok? ==> r.value.id == index.id
  {
    match dump
    case Multistream(archive) => Pages.GetPageByIndex(archive, index)
    case Unpacked(lines) =>
      match Facade.OpenUnpacked(lines)
      case Fail(e) => Fail(e)
      case Ok(it) =>
        match Pages.FindById(Pages.Drain(it), index.id)
        case None => Fail(MissingValue)
        case Some(p) => Ok(p)
  }

  /** In an uncompressed dump the lookup searches the pages of the body that
      an unpacked iterator returns, whatever the entry's offset. */
  lemma GetUnpackedPage(header: seq<string>, body: seq<string>, index: Indexes.WikiPageIndex)
    requires |header| > 0 && Pages.LineEndsWith(header[|header| - 1], Facade.SITEINFO_CLOSE)
    requires forall k :: 0 <= k < |header| - 1 ==> !Pages.LineEndsWith(header[k], Facade.SITEINFO_CLOSE)
    ensures Pages.ReadPage(body).Fail? ==> GetPageByIndex(Unpacked(header + body), index).Fail?
    ensures Pages.ReadPage(body).Ok? ==>
      GetPageByIndex(Unpacked(header + body), index)
      == (match Pages.FindById(Pages.ParsePages(body, Pages.MAX_PAGES_PER_STREAM), index.id)
          case None => Fail(MissingValue)
          case Some(p) => Ok(p))
  {
    Facade.UnpackedReadsBody(header, body);
  }
}
